=== FILE: README.md ===
# rwebserve core in Dafny

rwebserve is an HTTP/1.1 server library written in early Rust. This project models the logic that
sits behind its socket loop, and proves properties of that model:

- routing by URI template: `compile` and `match_template`;
- request processing: query strings, response serialisation with Content-Length and chunked
  framing, the template brace check, MIME lookup and `url_dirname`, and the precedence rules of
  `find_handler`;
- the immutable association-list multimap `IMap`;
- configuration validation, route parsing and header-terminator detection in the connection code;
- configuration helpers: `Body::to_str`, `is_text_file`, `missing_view`, `static_view` and the
  defaults of `initialize_config`;
- the HTTP request grammar and its error message;
- the parser primitives over an EOT-terminated `State{text, index, line}`;
- the server-sent-events session registry;
- `truncate_str`.

There is one module per source file:

| module | file | source |
|---|---|---|
| `Results` | results.dfy | `Result`/`Option` wrappers shared by the others |
| `Strings` | strings.dfy | string helpers from the Rust standard library: `find_char`, `split_char`, `connect`, `trim`, `to_lower`, number formatting, merge sort |
| `IMap` | imap.dfy | src/imap.rs |
| `Utils` | utils.dfy | src/utils.rs |
| `UriTemplate` | uri_template.dfy | src/uri_template.rs |
| `Configuration` | configuration.dfy | src/configuration.rs |
| `Requests` | request.dfy | src/request.rs |
| `Connection` | connection.dfy | src/connection.rs |
| `Parsers` | parsers.dfy | src/bug4260.rs |
| `HttpParser` | http_parser.dfy | src/http_parser.rs |
| `HttpParserTests` | http_parser_tests.dfy | the unit tests of src/http_parser.rs |
| `Sse` | sse.dfy | src/sse.rs |

Everything the library delegates to code outside this model is a parameter. That covers:

- path resolution and normalisation: `resolve`, `UnderRoot`;
- resource existence and loading: `validRsrc`, `loadRsrc`, `isTemplate`, `fileExists`, `rootIsDir`;
- the current date: a `date` string;
- the enumeration order of hash tables: `viewKeys`, `order`;
- the SSE openers: a map from path to the channel the opener would return.

Strings are `seq<char>`. Byte buffers are `seq<byte>`.

## Model

| member | source | states |
|---|---|---|
| IMap.FirstIndex | src/imap.rs:35-48 | the index of the first pair with key k, none iff no pair has key k |
| IMap.Size | src/imap.rs:24-27 | zero iff no key is present; never less than the number of values stored under any one key |
| IMap.SizeCountsPairs | src/imap.rs:24-27 | size counts pairs: zero for the empty map, one for a single pair, and additive over concatenation, so it is the number of pairs |
| IMap.ContainsKey | src/imap.rs:29-32 | true iff some pair has key k |
| IMap.Get | src/imap.rs:35-48 | fails iff k is absent; otherwise the value of the first pair with key k |
| IMap.GetAll | src/imap.rs:51-65 | only values stored under k; non-empty iff k is present |
| IMap.GetAllAppend | src/imap.rs:51-65 | get_all over a concatenation is the concatenation of the get_alls, so stored order and duplicates are kept |
| IMap.GetAllSingleton | src/imap.rs:51-65 | a single pair contributes its value exactly when its key matches |
| IMap.GetAllHeadIsGet | src/imap.rs:35-80 | the first value of get_all is the value of get and of find |
| IMap.AddDuplicate | src/imap.rs:24-65 | adding a pair for an existing key grows size by one, appends to get_all and leaves get unchanged |
| IMap.Find | src/imap.rs:67-80 | Some iff contains_key; it agrees with get |
| IMap.Each | src/imap.rs:82-93 | visits a prefix of the pairs in order; every visit but the last returned true; stopping early means the last visit returned false |
| IMap.EachKey | src/imap.rs:94-105 | the same visiting discipline over the keys |
| IMap.EachValue | src/imap.rs:106-116 | the same visiting discipline over the values |
| Utils.TruncateStr | src/utils.rs:51-61 | unchanged when short enough; otherwise the first max-3 characters then "...", exactly max long; an error when max < 3, where the unsigned subtraction underflows |
| Utils.TruncateIdempotent | src/utils.rs:51-61 | truncating a truncated string changes nothing |
| UriTemplate.SegmentTests | src/uri_template.rs:22-40 | what makes a segment a variable (starts with `{` and ends with `}`) or a trailer (starts with `*`) |
| UriTemplate.Compile | src/uri_template.rs:15-43 | one component per non-empty `/`-separated segment, in order, each classified by its segment and position |
| UriTemplate.CompilesKind | src/uri_template.rs:17-40 | a component is a Trailer iff its segment is last and starts with `*`; it is a Variable iff it is not a Trailer and is braced at both ends; otherwise it is a Literal |
| UriTemplate.CompilesUnique | src/uri_template.rs:17-40 | the classification gives exactly one component per segment |
| UriTemplate.CompileRender | src/uri_template.rs:15-43 | compiling the rendered text of a well-formed component list gives the list back |
| UriTemplate.CompileExamples | src/uri_template.rs:96-157 | the five compile tests: literals, braced literals, variables, a trailer, and a `*` segment that is not last |
| UriTemplate.MatchFrom | src/uri_template.rs:55-88 | a successful match keeps every earlier binding and binds only names of the components still to be matched |
| UriTemplate.MatchTemplate | src/uri_template.rs:49-92 | a non-empty result binds `fullpath` to the path |
| UriTemplate.MatchFromAligned | src/uri_template.rs:55-88 | matching from component i succeeds iff the remaining components align with the remaining segments |
| UriTemplate.MatchIffAligned | src/uri_template.rs:49-92 | the match is non-empty iff every component matches and no segments are left over; a trailer needs at least one segment |
| UriTemplate.MatchFromKeys | src/uri_template.rs:71-80 | a successful match binds exactly the accumulated keys plus the names of the remaining variables and trailer |
| UriTemplate.MatchFromValues | src/uri_template.rs:71-80 | each variable is bound to its segment and the trailer to the rest joined by `/` |
| UriTemplate.MatchFromKeep | src/uri_template.rs:71-80 | bindings made earlier survive later steps |
| UriTemplate.MatchBindings | src/uri_template.rs:49-92 | on success the map holds `fullpath` = the path plus exactly one binding per variable or trailer, with the right values |
| UriTemplate.MatchRoot | src/uri_template.rs:160-172 | `/` compiles to nothing; it matches `/` with only `fullpath`; `/foo` does not match |
| UriTemplate.MatchLiterals | src/uri_template.rs:175-200 | `/foo/bar/baz` matches its own template, with only `fullpath`; it fails against a longer or a shorter template |
| UriTemplate.MatchVariables | src/uri_template.rs:203-214 | `/foo/alpha/beta` against `/foo/{bar}/{baz}` gives a map of three entries |
| UriTemplate.MatchTrailer | src/uri_template.rs:217-227 | a trailer binds `alpha/beta` |
| UriTemplate.MatchEmptyTrailer | src/uri_template.rs:230-239 | `/foo/` does not match `/foo/*path` |
| Configuration.ToStrProperties | src/configuration.rs:107-126 | a string body renders as itself; a binary body as `<binary data>`; a compound body is additive over concatenation |
| Configuration.CompoundToStr | src/configuration.rs:120-123 | a compound body renders as the left-to-right concatenation of its parts |
| Configuration.FoldPartsConcat | src/configuration.rs:120-123 | the source's fold over the parts equals the concatenation of the first n parts |
| Configuration.ConcatAppend | src/configuration.rs:120-123 | concatenation of rendered parts distributes over sequence concatenation |
| Configuration.IsTextFile | src/configuration.rs:273-291 | true iff the suffix from the last `.` maps to a type starting `text/`; false without a `.` |
| Configuration.IsTextFileExtension | src/configuration.rs:273-291 | for a path ending in an extension, the answer depends only on that extension's entry |
| Configuration.MissingView | src/configuration.rs:237-240 | the template becomes `not-found.html` and every other field is unchanged |
| Configuration.StaticView | src/configuration.rs:249-271 | the path is `{{request-path}}` rendered with the context (HTML-escaped); exactly three outcomes: a template file (empty body, template = path, no context), a loaded file (binary body, no template, no context), or the missing view; status and headers are kept |
| Configuration.StaticViewTemplateHasEmptyBody | src/configuration.rs:249-271 | whenever static_view sets a template, the body it returns renders empty |
| Configuration.InitializeConfig | src/configuration.rs:177-228 | port 80, one empty host, no routes, views or SSE openers; every static-type key starts with `.`; `.jpg` maps to `image/jpeg`; a non-empty read error |
| Configuration.ToMap | src/connection.rs:30-53 | the keys of the table built from a vector of pairs are exactly the keys of the vector |
| Configuration.ToMapLast | src/connection.rs:30-53 | the last pair with a given key decides its value |
| Requests.FieldPair | src/request.rs:34-57 | a field splits at its first `=` into a name without `=` and the rest; no `=` means no pair |
| Requests.ParseFields | src/request.rs:34-65 | all fields parse iff each holds `=`; the pairs are in field order |
| Requests.ParseUrl | src/request.rs:30-72 | no `?`: the URL and no parameters; all fields `k=v`: the text before `?` and the pairs in order; any bad field: the whole URL and no parameters |
| Requests.ParseUrlEncode | src/request.rs:30-72 | parsing a path plus an encoded query gives back the path and the parameters |
| Requests.ParseUrlEmptyQuery | src/request.rs:48-65 | a trailing `?` with nothing after it is a bad field |
| Requests.ParseUrlBadField | src/request.rs:48-65 | a single field without `=` makes the whole URL the path |
| Requests.QueryStringNone | src/request.rs:659-663 | `/some/url` parses to itself and no parameters |
| Requests.QueryStringBad | src/request.rs:664-667 | `/some/url?badness` parses to itself and no parameters |
| Requests.DecodeEncodeChunk | src/request.rs:124-134 | a body framed as hex length, CRLF, body, CRLF reads back as the body |
| Requests.MakeHeaderAndBody | src/request.rs:96-136 | fails iff the headers say chunked and carry a Content-Length; otherwise it starts with the status line, and the body is chunk-framed iff chunked |
| Requests.HeaderInPlace | src/request.rs:102-121 | each header contributes its line in list order: the line of a header starts right after the status line and the lines of the headers before it |
| Requests.HeaderLinesAppend | src/request.rs:102-121 | the lines of two header lists in a row are the lines of the first list followed by those of the second |
| Requests.HeaderLinesEnd | src/request.rs:114-121 | the lines of a non-empty header list end in CRLF |
| Requests.HeaderBlockEnds | src/request.rs:96-133 | the header block always ends in CRLF CRLF |
| Requests.ImplicitContentLength | src/request.rs:114-131 | without Content-Length or chunked, `Content-Length: <body length>` closes the header lines, and it reads back as that length |
| Requests.ZeroContentLengthRewritten | src/request.rs:114-131 | an explicit `Content-Length: 0` is written, in its own position, with the real body length |
| Requests.ZeroHeaderLines | src/request.rs:114-131 | the `Content-Length: 0` line in a header list becomes the real length line |
| Requests.MatchCurlyBraces | src/request.rs:250-291 | false iff some `{{` has no later `}}` |
| Requests.LoadTemplate | src/request.rs:247-294 | a load error passes through; in debug mode unbalanced braces give "mismatched curly braces"; otherwise the text passes through |
| Requests.UrlDirname | src/request.rs:337-345 | a prefix of the path ending at its first `/`, or the path itself when it has no `/` |
| Requests.UrlDirnameIdempotent | src/request.rs:337-345 | applying url_dirname twice changes nothing |
| Requests.FileName | src/request.rs:346-374 | the last path component, without `/` |
| Requests.FileType | src/request.rs:346-374 | the extension is non-empty, holds no `.` or `/`, and ends the file name after a `.` |
| Requests.PathToType | src/request.rs:346-374 | the table's type for `.ext` when it has one, otherwise `text/html` |
| Requests.PathToTypeAgreesWithIsTextFile | src/request.rs:346-374 | for a path with an extension, is_text_file holds iff path_to_type finds a `text/` type in the table |
| Requests.FirstRoute | src/request.rs:215-239 | the first route in list order that matches method, template and accepted type, or none when no route matches |
| Requests.FindHandler | src/request.rs:163-246 | 505 iff the version does not start `1.`; 403 iff the version is fine but the path is outside the root; then a static file when its type is accepted; then the first matching route with its bindings; otherwise 404 with the missing handler |
| Requests.FindHandlerStatus | src/request.rs:163-246 | the status is one of 200, 403, 404 and 505; 200 comes from a static or view handler, 404 from the missing handler |
| Requests.EarliestRouteWins | src/request.rs:215-239 | when route i is the first to match, its view, its mime type and its bindings are chosen |
| Requests.ErrorResponsesUseMissingHandler | src/request.rs:171-200 | the 505 and 403 pages are looked up with accepted type `types/html`, so they are served by the missing handler |
| Requests.TypesHtmlNotFound | src/request.rs:171-200 | a lookup accepting only `types/html` ends in 404 with the missing handler |
| Requests.TypesHtmlIsMissing | src/request.rs:171-200 | the error-page lookup always yields the missing handler |
| Requests.MakeInitialResponse | src/request.rs:74-95 | the status line, the Content-Type, Date and Server headers, Cache-Control only in debug mode, an empty body and template, and a context mapping request-path, status-code, status-mesg and request-version to the request path, the status code and message, and the HTTP version |
| Requests.DefaultHandlersLeaveBodyForTemplate | src/request.rs:74-95 | starting from an initial response, the static and missing handlers never pair a template with a non-empty body |
| Connection.FoundHeaders | src/connection.rs:195-206 | true iff the buffer has at least 4 bytes and ends in 0D 0A 0D 0A |
| Connection.FoundHeadersAscii | src/connection.rs:195-206 | on the UTF-8 bytes of ASCII text this is exactly "ends in CRLF CRLF" |
| Connection.SerialisedHeaderIsFound | src/connection.rs:195-206 | every serialised header block is recognised as complete |
| Connection.ToRoute | src/connection.rs:381-399 | fails iff there is a `<` with no later `>`; with no `<` the mime type is `text/html`; method and route are copied |
| Connection.ToRouteSplits | src/connection.rs:381-399 | `T<m>rest` gives template T and mime type m |
| Connection.ToRouteRender | src/connection.rs:381-399 | a rendered template followed by `<m>` gives back the components and m |
| Connection.ToRoutes | src/connection.rs:30-53 | all entries convert iff each converts, in order |
| Connection.ConfigToConn | src/connection.rs:30-53 | succeeds iff every route converts; it keeps the route order, the view names and the scalar settings, and builds the static-type table and the settings table from their pair lists (the last pair for a key wins, by ToMap) |
| Connection.RejectMembers | src/connection.rs:322-335 | the collected names are exactly the failing ones |
| Connection.RejectCount | src/connection.rs:322-376 | the collected list keeps the multiplicity of each failing name |
| Connection.HostErrors | src/connection.rs:289-301 | an empty list gives only "Hosts is empty."; otherwise one "Host is empty." per empty host |
| Connection.EmptyHostErrors | src/connection.rs:294-301 | one message per empty host string |
| Connection.PortErrors | src/connection.rs:303-306 | no error iff the port is 80 or at least 1024 |
| Connection.RootErrors | src/connection.rs:313-320 | an empty root and a root that is not a directory give their messages; no error otherwise |
| Connection.EmptyFieldError | src/connection.rs:308-340 | a message iff the field is empty |
| Connection.RequiredFileErrors | src/connection.rs:322-335 | no error iff all four files exist; otherwise one message listing the missing ones |
| Connection.RequiredFilesOrder | src/connection.rs:322-335 | the missing files are listed in the fixed order forbidden, home, not-found, not-supported |
| Connection.RouteErrors | src/connection.rs:342-359 | no error iff every route has a view; otherwise one message with the missing routes sorted ascending |
| Connection.ViewErrors | src/connection.rs:361-376 | no error iff every view has a route; otherwise one message with those views sorted ascending |
| Connection.SortedListError | src/connection.rs:353-376 | a message iff the list is non-empty; it holds a sorted permutation of the list |
| Connection.ConfigErrors | src/connection.rs:285-378 | given the views table's keys each listed exactly once (as `each_key` visits them), the list of errors is empty iff every check passes (hosts, port, server info, root directory, required files, read error, every route's view in the views table, every view in the table named by some route), and no message in it is empty |
| Connection.ValidateConfig | src/connection.rs:285-379 | given the views table's keys each listed exactly once, the space-joined result is empty iff the configuration is valid, including every view of the table having a route |
| Connection.PortChecked | src/connection.rs:303-306 | the port message appears iff the port is below 1024 and not 80 |
| Connection.ViewOrderIrrelevant | src/connection.rs:361-376 | the result does not depend on the hash order of the views table |
| Connection.RoutesMustHaveViews | src/connection.rs:405-421 | two routes without views give "No views for the following routes: farewell, greeting" |
| Connection.OrphanViewReported | src/connection.rs:361-376 | a views table holding one view and no routes at all is reported as "No routes for the following views: " followed by that view |
| Connection.OneViewWithoutRoutes | src/connection.rs:361-376 | with no routes, the only view of the table is the one named in the views message |
| Connection.ViewsMustHaveRoutes | src/connection.rs:423-439 | two views without routes give "No routes for the following views: goodbye, greeting" |
| Connection.RootMustHaveRequiredFiles | src/connection.rs:441-456 | a root missing all four files gives the full missing-files message |
| Connection.NoRequiredFiles | src/connection.rs:322-335 | with no required file present, all four are listed |
| Parsers.Eot | src/bug4260.rs:12-25 | succeeds iff the current character is EOT, consuming it; otherwise fails with "EOT" and nothing consumed |
| Parsers.EotAtEnd | src/bug4260.rs:12-25 | on sentinel text, eot succeeds exactly at the last index |
| Parsers.Anycp | src/bug4260.rs:30-48 | consumes exactly one non-EOT character that satisfies the predicate, or fails without consuming |
| Parsers.Match0 | src/bug4260.rs:69-82 | always succeeds; consumes the maximal run of the predicate, stops at EOT, and returns the consumed slice |
| Parsers.Match0StopsAtEot | src/bug4260.rs:69-82 | a predicate true until the end consumes up to the sentinel |
| Parsers.Match1 | src/bug4260.rs:88-108 | fails at the start index iff the first character does not qualify; otherwise it equals match0 with a non-empty value |
| Parsers.AnycpMatch1 | src/bug4260.rs:30-108 | anycp and match1 succeed and fail together, and anycp yields match1's first character |
| Parsers.Match1_0 | src/bug4260.rs:111-116 | fails iff the first character is not of the prefix class; otherwise consumes the longest run of prefix characters (at least one), then the longest run of suffix characters after it, and returns the consumed text |
| Parsers.OptionalStr | src/bug4260.rs:121-131 | never fails; on inner failure it returns "" at the input state |
| Parsers.OptionalMatch1 | src/bug4260.rs:69-131 | an optional match1 is match0 |
| Parsers.Scan | src/bug4260.rs:163-193 | fails iff a non-zero count at a non-EOT character runs past the end of the text; otherwise advances by the count and adds the line breaks crossed, and with a zero count or at EOT returns "" and does not move |
| Parsers.LineBreaksSplit | src/bug4260.rs:163-193 | line counting is additive over adjacent ranges |
| Parsers.LineEnds | src/bug4260.rs:163-193 | CRLF, a lone CR and a lone LF each count one line |
| Parsers.SeqRetStr | src/bug4260.rs:197-272 | succeeds iff the chain succeeds, returning exactly the text consumed |
| Parsers.SeqRetStrMatch0 | src/bug4260.rs:69-82 | returning the consumed text of match0 gives match0 |
| Parsers.Fails | src/bug4260.rs:276-280 | fails with the message, with err_state = input |
| Parsers.Ret | src/bug4260.rs:366-369 | succeeds with the value and consumes nothing |
| Parsers.OptionalFails | src/bug4260.rs:121-131 | an optional failure is ret "" |
| Parsers.AtConnect | src/bug4260.rs:301-310 | joins the strings with the separator between elements only |
| Parsers.OrMesg | src/bug4260.rs:632-650 | " or " between two non-empty messages; otherwise whichever is non-empty |
| Parsers.OrMesgJoin | src/bug4260.rs:632-650 | or_mesg is the " or "-join of the non-empty messages |
| Parsers.MaxErr | src/bug4260.rs:315-362 | the furthest error index among the failures |
| Parsers.OrV | src/bug4260.rs:315-362 | an error for no alternatives; the first success when one succeeds; otherwise a failure at the furthest index with the non-empty messages from that index joined by " or " |
| Parsers.ScanFailures | src/bug4260.rs:315-362 | the scan stops at the first success, with the furthest index and its messages so far |
| Parsers.OrVTwo | src/bug4260.rs:315-362 | two failures at the same index give or_mesg of their messages |
| HttpParser.Lit | src/http_parser.rs:24-73 | succeeds iff the literal occurs at the index; a failure reports "Expected '…'" where the input first differs |
| HttpParser.Lws | src/http_parser.rs:28 | consumes only spaces and tabs |
| HttpParser.Identifier | src/http_parser.rs:40-41 | fails iff the first character cannot start an identifier; otherwise returns the consumed text |
| HttpParser.Integer | src/http_parser.rs:36-37 | fails iff there is no digit; the value is the decimal reading of the consumed digits |
| HttpParser.Crnl | src/http_parser.rs:30 | succeeds iff CRLF is next, consuming 2 characters |
| HttpParser.Url | src/http_parser.rs:32-33 | fails at the start with "Expected an URL" iff the next character is a space or EOT; otherwise consumes the longest run of non-space characters and returns it |
| HttpParser.Value | src/http_parser.rs:44-45 | fails at the start with "Expected a header value" iff the next character is CR, LF or EOT; otherwise consumes the longest run of other characters and returns it |
| HttpParser.Name | src/http_parser.rs:51-52 | fails at the start with "Expected a header name" iff the next character is `:` or EOT; otherwise consumes the longest run of other characters and returns it |
| HttpParser.UrlAt | src/http_parser.rs:32-33 | a non-empty URL without spaces, followed by a space, reads back as itself |
| HttpParser.NameAt | src/http_parser.rs:51-52 | a non-empty name without `:`, followed by `:`, reads back as itself |
| HttpParser.VersionCompose | src/http_parser.rs:35-37 | an integer, a `.` and an integer in a row read as the version pair of the two integers |
| HttpParser.ProtocolAt | src/http_parser.rs:39-41 | the text `HTTP/<major>.<minor>` CRLF reads back as the version (major, minor) |
| HttpParser.MethodAt | src/http_parser.rs:39-41 | a well-formed request line reads back as its method, URL and version |
| HttpParser.ContinuationCompose | src/http_parser.rs:43-47 | CRLF, one space or tab, then a value give a space followed by the trimmed value |
| HttpParser.ContinuationStops | src/http_parser.rs:46-47 | a CRLF not followed by a space or tab is not a continuation |
| HttpParser.ContinuationsCons | src/http_parser.rs:53 | the repetition takes one continuation and then the continuations after it |
| HttpParser.ContinuationsAt | src/http_parser.rs:43-53 | a run of continuation lines reads back as their meanings, and the repetition stops at the CRLF that ends the header |
| HttpParser.HeaderAt | src/http_parser.rs:49-54 | a well-formed header line reads back as its lower-cased name and its trimmed value joined with the continuations |
| HttpParser.Header | src/http_parser.rs:52-54 | consumes input and yields a lower-case name |
| HttpParser.Headers | src/http_parser.rs:53-54 | every header name is lower-case |
| HttpParser.Body | src/http_parser.rs:58 | everything up to the first NUL or EOT |
| HttpParser.Message | src/http_parser.rs:58-70 | header-map keys are lower-case |
| HttpParser.Request | src/http_parser.rs:61-70 | header-map keys are lower-case |
| HttpParser.Line | src/http_parser.rs:76-85 | lines are numbered from 1 |
| HttpParser.Col | src/http_parser.rs:76-85 | columns are numbered from 1 within the line |
| HttpParser.MakeParser | src/http_parser.rs:76-85 | every error reads `<mesg> on line L col C` for a position in the input |
| HttpParser.ParseSerialised | src/http_parser.rs:24-85 | every well-formed request text parses to its meaning: the method, the URL, the version, the lower-cased names with trimmed and joined values, and the body |
| HttpParser.LitFailsAt | src/http_parser.rs:24-73 | a literal that matches for n characters and then differs fails at index i+n |
| HttpParser.ProtocolFails | src/http_parser.rs:36-37 | a failure of `HTTP/` is the failure of the protocol |
| HttpParser.MethodFails | src/http_parser.rs:40-41 | a failing protocol fails the request line with the same state and message |
| HttpParser.RequestFails | src/http_parser.rs:61-70 | a failing request line fails the request |
| HttpParser.ParseFails | src/http_parser.rs:76-85 | make_parser reports the failure's message at its line and column |
| HttpParser.FirstLine | src/http_parser.rs:76-85 | before any line break, the position is on line 1 at column index+1 |
| HttpParserTests.GetMethod1 | src/http_parser.rs:98-120 | `GET / HTTP/1.1` parses to method GET, version 1.1, URL `/`, no headers, empty body |
| HttpParserTests.UnknownMethod | src/http_parser.rs:153-170 | a misspelt protocol gives "Expected 'HTTP/' on line 1 col 8" |
| HttpParserTests.HeaderValues | src/http_parser.rs:172-191 | values are trimmed, and continuation lines are joined with single spaces into `line1 line2 line3` |
| HttpParserTests.BodyText | src/http_parser.rs:193-212 | the body is the text after the blank line |
| HttpParserTests.ExtensionMethod | src/http_parser.rs:214-231 | an extension method keeps its case |
| HttpParserTests.MultiMeaning | src/http_parser.rs:44-54 | a header with two continuations means `multi` = `line1 line2 line3` |
| Sse.HeaderValue | src/sse.rs:61-64 | a header lookup finds a value iff some header has that name |
| Sse.SetHeader | src/sse.rs:61-64 | after insert the name has the new value, other names are unchanged, the name set grows by at most that name, and distinct names stay distinct |
| Sse.OpenSse | src/sse.rs:68-85 | true iff an opener is registered for the path; then the task map gains exactly that path with the opener's channel, and other tasks are unchanged |
| Sse.ProcessSse | src/sse.rs:38-65 | status 404 iff the path has neither a task nor an opener, else 200; the Content-Type follows the status; chunked; no-cache; body "\n\n"; no Content-Length; distinct header names |
| Sse.RefreshRegistered | src/sse.rs:44-49 | a registered path gets one RefreshEvent on its channel, with the tasks unchanged and status 200 |
| Sse.OpenUnregistered | src/sse.rs:50-58 | an unknown path with an opener adds exactly that task, sends nothing, and answers 200 |
| Sse.NotFoundUnregistered | src/sse.rs:50-58 | an unknown path without an opener answers 404 with `text/event-stream`, and the tasks are unchanged |
| Sse.ProcessSseRegistry | src/sse.rs:38-85 | tasks only grow, by at most the request path; existing tasks keep their channels; tasks stay a subset of the openers; at most one event is sent |
| Sse.ProcessSseSerialises | src/sse.rs:61-64 | the SSE response serialises without error, with the body chunk-framed |
| Sse.CloseSses | src/sse.rs:87-94 | one CloseEvent per enumerated task, in the enumeration order |
| Sse.CloseEachOnce | src/sse.rs:87-94 | every task receives exactly one CloseEvent and nothing else is sent |
| Sse.MakeResponse | src/sse.rs:96-107 | status 200 OK; Content-Type `text/event-stream; charset=utf-8`; chunked; no-cache; the date and server headers; no Content-Length; empty template and body |
| Strings.SplitJoin | src/request.rs:34-57 | joining pieces that do not contain the separator and splitting again gives the pieces back |
| Strings.JoinSplit | src/request.rs:34-57 | splitting and joining again gives the text back |
| Strings.Trim | src/http_parser.rs:54 | the result has no whitespace at either end |
| Strings.TrimAround | src/http_parser.rs:54 | trimming removes exactly the surrounding whitespace |
| Strings.ToLower | src/http_parser.rs:54 | lower-cases each character in place |
| Strings.ToLowerIdempotent | src/http_parser.rs:54 | lower-casing twice changes nothing, and leaves no upper-case letter |
| Strings.ParseNatToString | src/request.rs:124-134 | a number printed in base 10 or 16 reads back as that number |
| Strings.Sort | src/connection.rs:353-376 | the result is a sorted permutation of its input; by SortedUnique it is what the source's `merge_sort(le, …)` returns |
| Strings.SortedUnique | src/connection.rs:353-376 | there is only one sorted permutation, so the sort is determined by its input |

## Left out

- Socket I/O, the accept loop and the task and channel plumbing are not modelled: src/server.rs, src/client.rs, and `handle_connection`, `read_requests`, `read_headers`, `read_body` and `write_response` in src/connection.rs. Their point is concurrency and I/O.
- The sample application server/src/main.rs, the browser script server/html/home.js, the re-exports of src/rwebserve.rs and the console printer `utils::dump_string` are not modelled.
- Mustache rendering, `std::time::now_utc().rfc822()`, `Path::normalize`, `os::path_exists`, `os::path_is_dir`, `load_rsrc` and `valid_rsrc` are foreign calls. They become parameters of the operations that use them; in particular Configuration.StaticView takes mustache's HTML escaping as the function `escape` that renders `{{request-path}}`.
- The rparse crate is not part of this model. Its `literal`, `integer`, `identifier`, `repeat0`, `then`, `thene`, `r0` and line/column helpers are written out by hand, following the grammar in src/http_parser.rs:24-73. HttpParser.Line and HttpParser.Col derive the line and column of an error from its index in the text, by counting line breaks before it, rather than reading a line number tracked in the parser state as rparse does.
- The EOT sentinel character is rparse's and is not visible here. The model uses `'\u0003'`.
- HttpParser.Identifier, HttpParser.Integer: the failure messages "Expected identifier" and "Expected integer" are chosen here, because rparse's own messages are not visible.
- HttpParser.Body: the header-name rule `[^:]+` crosses line ends, so a body that holds `:` would be read as a header. The round trip ParseSerialised is stated for bodies without `:`.
- HttpParserTests: test_get_method2 (src/http_parser.rs:122-151) has no concrete lemma. Its header case and values are covered by ParseSerialised and HeaderValues.
- The `seq2`…`seq9` and `seqN_retK` variants of src/bug4260.rs are represented by SeqRetStr over a chained outcome. `forward_ref` and `chain_suffix` are not modelled. They tie recursive grammars through mutable cells.
- Parsers.OrV, Parsers.ScanFailures: the error indices must stay below the unsigned maximum, which the source uses as its "no failure yet" value.
- Utils.TruncateStr: the lengths are bounded by the unsigned width of the source, and lengths are counted in characters rather than bytes.
- Byte lengths throughout (Content-Length, truncation) are counted in characters.
- Connection.FoundHeadersAscii: `found_headers` is related to text only for ASCII text, where UTF-8 uses one byte per character; the UTF-8 encoding of other characters is not modelled.
- Requests.FindHandler: the source recurses with `forbidden.html`. That recursion would not terminate if that page resolved outside the root, so the model requires the error pages to resolve under the root.
- Requests.FindHandler: a route whose view is missing is an error here. The source's `views_table.get` would fail, with a message that is not visible.
- Requests.FileType: `Path::filetype` is not part of this model. It is taken to be the text after the last `.` of the last component, and none when that text is empty. For a path ending in `/`, such as `/foo.jpg/`, the model's last component is empty, so the file name is empty and there is no type, whereas `Path::filename` skips the empty component and would give `foo.jpg`.
- The find_handler tests html_route, route_with_bad_type, non_html_route, static_route, static_with_bad_type, bad_url, path_outside_root, read_error, bad_version and bad_template (src/request.rs:406-656) go through process_request, the socket layer and mustache. They are covered by the general FindHandler, EarliestRouteWins, ErrorResponsesUseMissingHandler and LoadTemplate contracts, not by concrete lemmas.
- The `k=v` cases of the query_strings test (src/request.rs:668-675) are covered by ParseUrlEncode rather than by concrete lemmas.
- Configuration.InitializeConfig: only a sample of the default static-type table is stated (`.jpg`). The defaults of the remaining fields are stated where other members use them.
- `utils::linear_map_from_vector` is not part of this model. The SSE headers keep vector order, and later inserts replace values in place.
- Sse: the channels are numbers, and the messages sent are returned as an event log. The push channel and the opener's side effects are not modelled.
- Sse.ProcessSse: the source's signature takes a `Config` and disagrees with its call in src/request.rs. The model follows the body and takes the connection configuration with an openers map.
- Sse.CloseSses: the hash order of the task map is a parameter.
- Configuration: the Rust `HashMap` of the response context is a Dafny `map`. The response headers are a `HashMap` too, and `make_header_and_body` walks them in its arbitrary hash order; the model fixes that order to insertion order, an association list, so the order of the header lines is the model's choice.

=== FILE: configuration.dfy ===
/** `configuration`: the server's configuration record, the request and
    response records handed to view handlers, response bodies, and the
    default handlers `missing_view` and `static_view`. */
module Configuration {
  import opened Results
  import opened Strings
  import opened UriTemplate

  /** Rust's `u16`. */
  type Port = p: int | 0 <= p < 0x1_0000

  /** `Config` without its function-valued fields: handlers are named by
      `Handler` and the resource oracles live in `ConnConfig`. `views` and
      `sse` hold the names of the routes and paths that have a handler. */
  datatype Config = Config(
    hosts: seq<string>,
    port: Port,
    serverInfo: string,
    resourcesRoot: string,
    routes: seq<(string, string, string)>,
    views: seq<string>,
    sse: seq<string>,
    staticTypes: seq<(string, string)>,
    readError: string,
    settings: seq<(string, string)>)

  /** `Route`: an HTTP method (`verb`), a compiled template, the mime type the route
      produces and the name of its view. */
  datatype Route = Route(verb: string, template: seq<Component>, mimeType: string, route: string)

  /** The connection's view of the configuration (`connection::ConnConfig`).
      The file system is reached through oracles:
      * `resolve` is `url_to_path` followed by `normalize`, as a string;
      * `validRsrc` is `valid_rsrc` on a resolved path;
      * `isTemplate` is the `is_template` closure;
      * `loadRsrc` is `load_rsrc` on the resource an URL path names. */
  datatype ConnConfig = ConnConfig(
    hosts: seq<string>,
    port: Port,
    serverInfo: string,
    resourcesRoot: string,
    routeList: seq<Route>,
    viewsTable: set<string>,
    staticTypeTable: map<string, string>,
    readError: string,
    settings: map<string, string>,
    resolve: string -> string,
    validRsrc: string -> bool,
    isTemplate: string -> bool,
    loadRsrc: string -> Result<seq<byte>>)

  /** `Request`, as passed to view handlers. */
  datatype Request = Request(
    version: string,
    verb: string,
    localAddr: string,
    remoteAddr: string,
    path: string,
    matches: map<string, string>,
    params: seq<(string, string)>,
    headers: map<string, string>,
    body: string)

  /** `Body`: what follows the headers of a response. */
  datatype Body = StringBody(text: string) | BinaryBody(bytes: seq<byte>) | CompoundBody(parts: seq<Body>)

  /** `Response`. Headers are kept in insertion order, each name once;
      the mustache context is a map from names to strings. */
  datatype Response = Response(
    status: string,
    headers: seq<(string, string)>,
    body: Body,
    template: string,
    context: map<string, string>)

  // ---- Body::to_str ------------------------------------------------------------------

  /** `Body::to_str`: text as is, binary data as a placeholder, compound
      bodies as the left fold of their parts. */
  function ToStr(b: Body): string
    decreases b
  {
    match b
    case StringBody(t) => t
    case BinaryBody(_) => "<binary data>"
    case CompoundBody(parts) => FoldParts(b, |parts|)
  }

  /** `parts.foldl("", |result, part| result + part.to_str())` over the first
      `n` parts of the compound body `b`. */
  function FoldParts(b: Body, n: nat): string
    requires b.CompoundBody? && n <= |b.parts|
    decreases b, n
  {
    if n == 0 then "" else FoldParts(b, n - 1) + ToStr(b.parts[n - 1])
  }

  /** The strings of `parts`, concatenated right to left: the reference
      reading of "the parts in order". */
  function Concat(parts: seq<Body>): string
    decreases parts
  {
    if |parts| == 0 then "" else ToStr(parts[0]) + Concat(parts[1..])
  }

  lemma {:induction false} ConcatSnoc(parts: seq<Body>, last: Body)
    ensures Concat(parts + [last]) == Concat(parts) + ToStr(last)
    decreases |parts|
  {
    if |parts| > 0 {
      assert (parts + [last])[1..] == parts[1..] + [last];
      ConcatSnoc(parts[1..], last);
    } else {
      assert Concat([last]) == ToStr(last) + Concat([]);
    }
  }

  lemma {:induction false} FoldPartsConcat(b: Body, n: nat)
    requires b.CompoundBody? && n <= |b.parts|
    ensures FoldParts(b, n) == Concat(b.parts[..n])
  {
    if n > 0 {
      FoldPartsConcat(b, n - 1);
      assert b.parts[..n] == b.parts[..n - 1] + [b.parts[n - 1]];
      ConcatSnoc(b.parts[..n - 1], b.parts[n - 1]);
    }
  }

  /** A compound body renders as the concatenation of its parts' strings,
      left to right. */
  lemma CompoundToStr(parts: seq<Body>)
    ensures ToStr(CompoundBody(parts)) == Concat(parts)
  {
    FoldPartsConcat(CompoundBody(parts), |parts|);
    assert parts[..|parts|] == parts;
  }

  lemma {:induction false} ConcatAppend(p1: seq<Body>, p2: seq<Body>)
    ensures Concat(p1 + p2) == Concat(p1) + Concat(p2)
    decreases |p1|
  {
    if |p1| > 0 {
      assert (p1 + p2)[1..] == p1[1..] + p2;
      ConcatAppend(p1[1..], p2);
    } else {
      assert p1 + p2 == p2;
    }
  }

  /** Text renders as itself, binary data as `<binary data>`, and splitting
      a compound body's parts splits its string. */
  lemma ToStrProperties(t: string, bytes: seq<byte>, p1: seq<Body>, p2: seq<Body>)
    ensures ToStr(StringBody(t)) == t
    ensures ToStr(BinaryBody(bytes)) == "<binary data>"
    ensures ToStr(CompoundBody(p1 + p2)) == ToStr(CompoundBody(p1)) + ToStr(CompoundBody(p2))
    ensures ToStr(CompoundBody([StringBody(t)])) == t
  {
    CompoundToStr(p1 + p2);
    CompoundToStr(p1);
    CompoundToStr(p2);
    ConcatAppend(p1, p2);
    CompoundToStr([StringBody(t)]);
    assert Concat([StringBody(t)]) == t + Concat([]);
  }

  // ---- default handlers -----------------------------------------------------------

  /** `missing_view`: serve `not-found.html`, which is assumed to be at the
      resource root. */
  function MissingView(response: Response): (r: Response)
    ensures r.template == "not-found.html"
    ensures r == response.(template := "not-found.html")
  {
    Response(response.status, response.headers, response.body, "not-found.html", response.context)
  }

  /** What `{{request-path}}` renders to in the context: the value under
      `request-path` put through mustache's HTML escaping `escape` (the
      mustache crate is not part of this model), or nothing when the key is
      absent. */
  function RequestPath(context: map<string, string>, escape: string -> string): string {
    if "request-path" in context then escape(context["request-path"]) else ""
  }

  /** `static_view`: a template file is handed on to be rendered, any other
      file is loaded as binary data, and a file that fails to load becomes
      `not-found.html`. Status and headers are left alone in every case. */
  function StaticView(config: ConnConfig, escape: string -> string, response: Response): (r: Response)
    ensures r.status == response.status && r.headers == response.headers
    ensures var path := RequestPath(response.context, escape);
      if config.isTemplate(path) then
        r.body == StringBody("") && r.template == path && r.context == map[]
      else if config.loadRsrc(path).Ok? then
        r.body == BinaryBody(config.loadRsrc(path).value) && r.template == "" && r.context == map[]
      else
        r == MissingView(response)
  {
    var path := RequestPath(response.context, escape);
    if config.isTemplate(path) then
      response.(body := StringBody(""), template := path, context := map[])
    else
      match config.loadRsrc(path)
      case Ok(contents) => response.(body := BinaryBody(contents), template := "", context := map[])
      case Err(_) => response.(template := "not-found.html")
  }

  /** Starting from a response without a body, as `make_initial_response`
      builds it, `static_view` never leaves a template together with a
      non-empty body, the state `get_body` asserts against. */
  lemma StaticViewTemplateHasEmptyBody(config: ConnConfig, escape: string -> string, response: Response)
    requires ToStr(response.body) == ""
    ensures var r := StaticView(config, escape, response);
            r.template != "" ==> ToStr(r.body) == ""
  {
  }

  // ---- is_text_file ---------------------------------------------------------------

  /** `i` is the index of the last `.` of `path`. */
  predicate LastDot(path: string, i: int) {
    0 <= i < |path| && path[i] == '.' && forall j :: i < j < |path| ==> path[j] != '.'
  }

  /** `is_text_file`: the suffix from the last `.` (the dot included) maps to
      a `text/` mime type; a path without a dot is not a text file. */
  function IsTextFile(table: map<string, string>, path: string): (r: bool)
    ensures r <==> exists i :: LastDot(path, i) && path[i..] in table && StartsWith(table[path[i..]], "text/")
    ensures '.' !in path ==> !r
  {
    match RFindChar(path, '.')
    case None => false
    case Some(index) =>
      assert LastDot(path, index);
      forall i | LastDot(path, i) ensures i == index {
      }
      var ext := path[index..];
      if ext in table then StartsWith(table[ext], "text/") else false
  }

  // ---- initialize_config ----------------------------------------------------------

  /** The extension table `initialize_config` installs. */
  const DefaultStaticTypes: seq<(string, string)> := [
    (".m4a", "audio/mp4"),
    (".m4b", "audio/mp4"),
    (".mp3", "audio/mpeg"),
    (".wav", "audio/vnd.wave"),

    (".gif", "image/gif"),
    (".jpeg", "image/jpeg"),
    (".jpg", "image/jpeg"),
    (".png", "image/png"),
    (".tiff", "image/tiff"),

    (".css", "text/css"),
    (".csv", "text/csv"),
    (".html", "text/html"),
    (".htm", "text/html"),
    (".txt", "text/plain"),
    (".text", "text/plain"),
    (".xml", "text/xml"),

    (".js", "text/javascript"),

    (".mp4", "video/mp4"),
    (".mov", "video/quicktime"),
    (".mpg", "video/mpeg"),
    (".mpeg", "video/mpeg"),
    (".qt", "video/quicktime")]

  const DefaultReadError: string :=
    "<!DOCTYPE html>\n\t<meta charset=utf-8>\n\t\n\t<title>Error 403 (Forbidden)!</title>\n\t\n\t<p>Could not read URL {{request-path}}.</p>"

  /** `initialize_config`: one empty host, port 80, no routes, views or
      event streams, and an extension table whose keys all start with `.`. */
  function InitializeConfig(): (r: Config)
    ensures r.port == 80 && r.hosts == [""] && r.routes == [] && r.views == [] && r.sse == []
    ensures forall k :: 0 <= k < |r.staticTypes| ==> |r.staticTypes[k].0| > 1 && r.staticTypes[k].0[0] == '.'
    ensures (".jpg", "image/jpeg") in r.staticTypes
    ensures |r.readError| > 0
  {
    var r := Config([""], 80, "", "", [], [], [], DefaultStaticTypes, DefaultReadError, []);
    assert r.staticTypes[6] == (".jpg", "image/jpeg");
    r
  }

  /** `to_boxed_str_hash`: pairs inserted into a hash map in order, so a
      later pair wins over an earlier one with the same key. */
  function ToMap(pairs: seq<(string, string)>): (r: map<string, string>)
    ensures forall k :: k in r <==> exists i :: 0 <= i < |pairs| && pairs[i].0 == k
  {
    if |pairs| == 0 then map[]
    else
      var r := ToMap(pairs[..|pairs| - 1])[pairs[|pairs| - 1].0 := pairs[|pairs| - 1].1];
      assert forall i :: 0 <= i < |pairs| - 1 ==> pairs[..|pairs| - 1][i] == pairs[i];
      r
  }

  /** A pair whose key no later pair repeats gives the map its value. */
  lemma {:induction false} ToMapLast(pairs: seq<(string, string)>, i: nat)
    requires i < |pairs|
    requires forall k :: i < k < |pairs| ==> pairs[k].0 != pairs[i].0
    ensures pairs[i].0 in ToMap(pairs) && ToMap(pairs)[pairs[i].0] == pairs[i].1
  {
    if i < |pairs| - 1 {
      var init := pairs[..|pairs| - 1];
      assert forall k :: i < k < |init| ==> init[k] == pairs[k];
      ToMapLast(init, i);
    }
  }

  /** Only the extension matters: a path ending in `.ext` (no other dot
      after it) is a text file iff the table maps `.ext` to a `text/` type,
      whatever comes before it. */
  lemma IsTextFileExtension(table: map<string, string>, stem: string, ext: string)
    requires |ext| >= 1 && ext[0] == '.' && '.' !in ext[1..]
    ensures IsTextFile(table, stem + ext) <==> ext in table && StartsWith(table[ext], "text/")
  {
    var path := stem + ext;
    forall j | |stem| < j < |path| ensures path[j] != '.' {
      assert path[j] == ext[1..][j - |stem| - 1];
    }
    assert LastDot(path, |stem|);
    assert path[|stem|..] == ext;
  }
}

=== FILE: connection.dfy ===
/** `connection`: the parts of the per-connection code that do not touch
    the socket: building the connection's configuration (`config_to_conn`,
    `to_route`), checking it (`validate_config`) and spotting the end of
    a request's headers in the bytes read so far (`found_headers`). */
module Connection {
  import opened Results
  import opened Strings
  import opened UriTemplate
  import opened Configuration
  import opened Requests

  // ---- found_headers ----------------------------------------------------------------

  const CR: byte := 0x0D
  const LF: byte := 0x0A

  /** `found_headers`: the bytes read so far end with the blank line that
      closes a request's headers. */
  function FoundHeaders(buffer: seq<byte>): (r: bool)
    ensures r <==> |buffer| >= 4 && buffer[|buffer| - 4..] == [CR, LF, CR, LF]
  {
    if |buffer| < 4 then false
    else
      var len := |buffer|;
      buffer[len - 4] == CR && buffer[len - 3] == LF && buffer[len - 2] == CR && buffer[len - 1] == LF
  }

  /** ASCII text: every character is below 0x80, where UTF-8 encodes each
      character as the one byte of the same value. */
  predicate IsAscii(s: string) {
    forall k :: 0 <= k < |s| ==> s[k] as int < 0x80
  }

  /** The UTF-8 bytes of ASCII text, one per character. */
  function AsciiBytes(s: string): (r: seq<byte>)
    requires IsAscii(s)
    ensures |r| == |s| && forall k :: 0 <= k < |s| ==> r[k] as int == s[k] as int
  {
    seq(|s|, k requires 0 <= k < |s| => s[k] as int as byte)
  }

  /** On such text `found_headers` is exactly "ends with CR LF CR LF". */
  lemma FoundHeadersAscii(s: string)
    requires IsAscii(s)
    ensures FoundHeaders(AsciiBytes(s)) <==> EndsWith(s, "\r\n\r\n")
  {
    var b := AsciiBytes(s);
    if |s| >= 4 {
      var n := |s|;
      var tail := s[n - 4..];
      if FoundHeaders(b) {
        assert b[n - 4..][0] == b[n - 4] && b[n - 4..][3] == b[n - 1];
        assert b[n - 4..][1] == b[n - 3] && b[n - 4..][2] == b[n - 2];
        assert tail == "\r\n\r\n";
      }
      if EndsWith(s, "\r\n\r\n") {
        assert tail[0] == s[n - 4] && tail[1] == s[n - 3] && tail[2] == s[n - 2] && tail[3] == s[n - 1];
      }
    }
  }

  /** The header block `make_header_and_body` writes is one that
      `found_headers` recognises. */
  lemma SerialisedHeaderIsFound(response: Response, body: string)
    requires MakeHeaderAndBody(response, body).Ok?
    requires IsAscii(MakeHeaderAndBody(response, body).value.0)
    ensures FoundHeaders(AsciiBytes(MakeHeaderAndBody(response, body).value.0))
  {
    HeaderBlockEnds(response, body);
    FoundHeadersAscii(MakeHeaderAndBody(response, body).value.0);
  }

  // ---- to_route ---------------------------------------------------------------------

  /** `to_route`: a `(method, template, route)` triple becomes a `Route`.
      A template may end with `<mime>`; without a `<` the mime type is
      `text/html`. A `<` that no `>` follows fails the source's `assert`. */
  function ToRoute(input: (string, string, string)): (r: Result<Route>)
    ensures var t := input.1;
      r.Err? <==> '<' in t && forall i, j :: 0 <= i < |t| && 0 <= j < |t| && t[i] == '<' && t[j] == '>' ==> j < i
    ensures r.Ok? ==> r.value.verb == input.0 && r.value.route == input.2
    ensures '<' !in input.1 ==> r == Ok(Route(input.0, Compile(input.1), "text/html", input.2))
  {
    var (verb, t, route) := input;
    match FindChar(t, '<')
    case Some(i) =>
      (match FindCharFrom(t, '>', i + 1)
       case Some(j) => Ok(Route(verb, Compile(t[..i]), t[i + 1..j], route))
       case None => Err("assertion failed: option::is_some(&j)"))
    case None => Ok(Route(verb, Compile(t), "text/html", route))
  }

  /** `T<m>` splits into the template `T` and the mime type `m`; anything
      after the `>` is ignored. */
  lemma ToRouteSplits(verb: string, template: string, mime: string, rest: string, route: string)
    requires '<' !in template && '>' !in mime
    ensures ToRoute((verb, template + "<" + mime + ">" + rest, route))
         == Ok(Route(verb, Compile(template), mime, route))
  {
    var t := template + "<" + mime + ">" + rest;
    var i := |template|;
    var j := |template| + 1 + |mime|;
    assert t[i] == '<' && t[j] == '>';
    assert FindChar(t, '<') == Some(i) by {
      forall k | 0 <= k < i ensures t[k] != '<' { assert t[k] == template[k]; }
    }
    assert FindCharFrom(t, '>', i + 1) == Some(j) by {
      forall k | i + 1 <= k < j ensures t[k] != '>' { assert t[k] == mime[k - i - 1]; }
    }
    assert t[..i] == template;
    assert t[i + 1..j] == mime;
  }

  /** With `CompileRender`: a route written as a rendered template plus a
      mime type comes back as those components and that type. */
  lemma ToRouteRender(verb: string, cs: seq<Component>, mime: string, route: string)
    requires WellFormed(cs) && '<' !in Render(cs) && '>' !in mime
    ensures var r := ToRoute((verb, Render(cs) + "<" + mime + ">", route));
      r.Ok? && r.value.template == cs && r.value.mimeType == mime
  {
    ToRouteSplits(verb, Render(cs), mime, "", route);
    assert Render(cs) + "<" + mime + ">" + "" == Render(cs) + "<" + mime + ">";
    CompileRender(cs);
  }

  // ---- config_to_conn ---------------------------------------------------------------

  /** `vec::map(config.routes, to_route)`: fails when any entry fails. */
  function ToRoutes(entries: seq<(string, string, string)>): (r: Result<seq<Route>>)
    ensures r.Ok? <==> forall k :: 0 <= k < |entries| ==> ToRoute(entries[k]).Ok?
    ensures r.Ok? ==> (|r.value| == |entries|
      && forall k :: 0 <= k < |entries| ==> r.value[k] == ToRoute(entries[k]).value)
    decreases |entries|
  {
    if |entries| == 0 then Ok([])
    else
      match ToRoute(entries[0])
      case Err(e) => Err(e)
      case Ok(head) =>
        match ToRoutes(entries[1..])
        case Err(e) =>
          Err(e)
        case Ok(tail) =>
          assert forall k :: 1 <= k < |entries| ==> entries[k] == entries[1..][k - 1];
          Ok([head] + tail)
  }

  /** `config_to_conn`: the configuration with its routes parsed and its
      lists turned into lookup tables. The file-system oracles are the
      parameters. */
  function ConfigToConn(config: Config, resolve: string -> string, validRsrc: string -> bool,
                        isTemplate: string -> bool, loadRsrc: string -> Result<seq<byte>>): (r: Result<ConnConfig>)
    ensures r.Ok? <==> forall k :: 0 <= k < |config.routes| ==> ToRoute(config.routes[k]).Ok?
    ensures r.Ok? ==> (|r.value.routeList| == |config.routes|
      && forall k :: 0 <= k < |config.routes| ==> r.value.routeList[k] == ToRoute(config.routes[k]).value)
    ensures r.Ok? ==> forall v :: v in r.value.viewsTable <==> v in config.views
    ensures r.Ok? ==> (r.value.hosts == config.hosts && r.value.port == config.port
      && r.value.serverInfo == config.serverInfo && r.value.resourcesRoot == config.resourcesRoot
      && r.value.readError == config.readError)
    ensures r.Ok? ==> r.value.staticTypeTable == ToMap(config.staticTypes)
    ensures r.Ok? ==> r.value.settings == ToMap(config.settings)
  {
    match ToRoutes(config.routes)
    case Err(e) => Err(e)
    case Ok(routeList) =>
      Ok(ConnConfig(config.hosts, config.port, config.serverInfo, config.resourcesRoot, routeList,
                    (set v | v in config.views), ToMap(config.staticTypes), config.readError,
                    ToMap(config.settings), resolve, validRsrc, isTemplate, loadRsrc))
  }

  // ---- validate_config --------------------------------------------------------------

  /** The elements of `xs` that fail `ok`, in order. */
  function Reject(xs: seq<string>, ok: string -> bool): (r: seq<string>)
    ensures |r| <= |xs|
    decreases |xs|
  {
    if |xs| == 0 then []
    else (if ok(xs[0]) then [] else [xs[0]]) + Reject(xs[1..], ok)
  }

  /** `Reject` keeps exactly the elements that fail `ok`. */
  lemma {:induction false} RejectMembers(xs: seq<string>, ok: string -> bool, x: string)
    ensures x in Reject(xs, ok) <==> x in xs && !ok(x)
    decreases |xs|
  {
    if |xs| > 0 {
      RejectMembers(xs[1..], ok, x);
      assert xs == [xs[0]] + xs[1..];
    }
  }

  lemma {:induction false} RejectAppend(a: seq<string>, b: seq<string>, ok: string -> bool)
    ensures Reject(a + b, ok) == Reject(a, ok) + Reject(b, ok)
    decreases |a|
  {
    if |a| == 0 {
      assert a + b == b;
      assert [] + Reject(b, ok) == Reject(b, ok);
    } else {
      var head := if ok(a[0]) then [] else [a[0]];
      assert (a + b)[0] == a[0];
      assert (a + b)[1..] == a[1..] + b;
      assert Reject(a + b, ok) == head + Reject(a[1..] + b, ok);
      RejectAppend(a[1..], b, ok);
      var x, y := Reject(a[1..], ok), Reject(b, ok);
      assert Reject(a, ok) == head + x;
      assert head + (x + y) == (head + x) + y;
    }
  }

  /** Nothing is rejected iff every element passes. */
  lemma {:induction false} RejectEmpty(xs: seq<string>, ok: string -> bool)
    ensures Reject(xs, ok) == [] <==> forall k :: 0 <= k < |xs| ==> ok(xs[k])
    decreases |xs|
  {
    if |xs| > 0 {
      RejectEmpty(xs[1..], ok);
      assert forall k :: 1 <= k < |xs| ==> xs[k] == xs[1..][k - 1];
    }
  }

  /** Each rejected element is kept as often as it occurs. */
  lemma {:induction false} RejectCount(xs: seq<string>, ok: string -> bool, x: string)
    ensures multiset(Reject(xs, ok))[x] == if ok(x) then 0 else multiset(xs)[x]
    decreases |xs|
  {
    if |xs| > 0 {
      RejectCount(xs[1..], ok, x);
      assert xs == [xs[0]] + xs[1..];
      var head := if ok(xs[0]) then [] else [xs[0]];
      assert multiset(Reject(xs, ok)) == multiset(head) + multiset(Reject(xs[1..], ok));
    }
  }

  const HostsEmpty := "Hosts is empty."
  const HostEmpty := "Host is empty."
  const BadPort := "Port should be 80 or 1024 or above."
  const ServerInfoEmpty := "server_info is empty."
  const RootEmpty := "resources_root is empty."
  const RootNotDir := "resources_root is not a directory."
  const MissingFilesPrefix := "Missing required files: "
  const ReadErrorEmpty := "read_error is empty."
  const NoViewsPrefix := "No views for the following routes: "
  const NoRoutesPrefix := "No routes for the following views: "

  /** The pages every resources root must hold, in the order they are checked. */
  const RequiredFiles: seq<string> := ["forbidden.html", "home.html", "not-found.html", "not-supported.html"]

  /** One "Host is empty." per empty host. */
  function EmptyHostErrors(hosts: seq<string>): (r: seq<string>)
    ensures |r| == multiset(hosts)[""]
    ensures forall k :: 0 <= k < |r| ==> r[k] == HostEmpty
    decreases |hosts|
  {
    if |hosts| == 0 then []
    else
      assert hosts == [hosts[0]] + hosts[1..];
      (if hosts[0] == "" then [HostEmpty] else []) + EmptyHostErrors(hosts[1..])
  }

  /** The host checks: the list must not be empty, nor any host in it. */
  function HostErrors(hosts: seq<string>): (r: seq<string>)
    ensures |hosts| == 0 <==> r == [HostsEmpty]
    ensures |hosts| > 0 ==> r == EmptyHostErrors(hosts)
  {
    if |hosts| == 0 then [HostsEmpty]
    else
      var r := EmptyHostErrors(hosts);
      assert r != [] ==> r[0] == HostEmpty != HostsEmpty;
      r
  }

  /** Ports below 1024 other than 80 are refused. */
  function PortErrors(port: Port): (r: seq<string>)
    ensures r == [] <==> port == 80 || port >= 1024
    ensures r != [] ==> r == [BadPort]
  {
    if port < 1024 && port != 80 then [BadPort] else []
  }

  /** An empty root, or one that is not a directory. */
  function RootErrors(root: string, rootIsDir: bool): (r: seq<string>)
    ensures r == [] <==> root != "" && rootIsDir
    ensures root == "" ==> r == [RootEmpty]
    ensures root != "" && !rootIsDir ==> r == [RootNotDir]
  {
    if root == "" then [RootEmpty]
    else if !rootIsDir then [RootNotDir]
    else []
  }

  /** The required pages that `fileExists` does not find, named in one message. */
  function RequiredFileErrors(fileExists: string -> bool): (r: seq<string>)
    ensures r == [] <==> forall k :: 0 <= k < |RequiredFiles| ==> fileExists(RequiredFiles[k])
    ensures r != [] ==> r == [MissingFilesPrefix + Join(Reject(RequiredFiles, fileExists), ", ")]
    ensures forall k :: 0 <= k < |r| ==> StartsWith(r[k], MissingFilesPrefix)
  {
    var names := Reject(RequiredFiles, fileExists);
    RejectEmpty(RequiredFiles, fileExists);
    if |names| > 0 then [MissingFilesPrefix + Join(names, ", ")] else []
  }

  lemma RejectOne(a: string, ok: string -> bool)
    ensures Reject([a], ok) == if ok(a) then [] else [a]
  {
    assert [a][1..] == [];
  }

  lemma RejectFour(a: string, b: string, c: string, d: string, ok: string -> bool)
    ensures Reject([a, b, c, d], ok)
         == (if ok(a) then [] else [a]) + (if ok(b) then [] else [b])
          + (if ok(c) then [] else [c]) + (if ok(d) then [] else [d])
  {
    var ab := [a] + [b];
    var abc := ab + [c];
    assert [a, b, c, d] == abc + [d];
    RejectAppend(abc, [d], ok);
    RejectAppend(ab, [c], ok);
    RejectAppend([a], [b], ok);
    RejectOne(a, ok);
    RejectOne(b, ok);
    RejectOne(c, ok);
    RejectOne(d, ok);
  }

  /** The missing pages are named in the fixed order forbidden, home,
      not-found, not-supported. */
  lemma RequiredFilesOrder(fileExists: string -> bool)
    ensures Reject(RequiredFiles, fileExists)
         == (if fileExists(RequiredFiles[0]) then [] else [RequiredFiles[0]])
          + (if fileExists(RequiredFiles[1]) then [] else [RequiredFiles[1]])
          + (if fileExists(RequiredFiles[2]) then [] else [RequiredFiles[2]])
          + (if fileExists(RequiredFiles[3]) then [] else [RequiredFiles[3]])
  {
    RejectFour(RequiredFiles[0], RequiredFiles[1], RequiredFiles[2], RequiredFiles[3], fileExists);
    assert RequiredFiles == [RequiredFiles[0], RequiredFiles[1], RequiredFiles[2], RequiredFiles[3]];
  }

  /** An empty string in a named field. */
  function EmptyFieldError(value: string, message: string): (r: seq<string>)
    ensures r == [] <==> value != ""
    ensures r != [] ==> r == [message]
  {
    if value == "" then [message] else []
  }

  /** Membership in `table`, as a function value. */
  function InSet(table: set<string>): string -> bool {
    v => v in table
  }

  /** Membership in `names`, as a function value. */
  function InSeq(names: seq<string>): string -> bool {
    v => v in names
  }

  /** The names of the routes, in list order. */
  function RouteNames(routes: seq<Route>): (r: seq<string>)
    ensures |r| == |routes| && forall k :: 0 <= k < |routes| ==> r[k] == routes[k].route
  {
    seq(|routes|, k requires 0 <= k < |routes| => routes[k].route)
  }

  /** The names in `names`, sorted, under `prefix`; nothing when there are none. */
  function SortedListError(prefix: string, names: seq<string>): (r: seq<string>)
    ensures r == [] <==> names == []
    ensures r != [] ==> exists s :: Sorted(s) && multiset(s) == multiset(names) && r == [prefix + Join(s, ", ")]
    ensures forall k :: 0 <= k < |r| ==> StartsWith(r[k], prefix)
  {
    if |names| > 0 then [prefix + Join(Sort(names), ", ")] else []
  }

  /** Routes whose view is not in the views table. */
  function RouteErrors(routes: seq<Route>, views: set<string>): (r: seq<string>)
    ensures r == [] <==> forall k :: 0 <= k < |routes| ==> routes[k].route in views
    ensures r != [] ==> exists s :: Sorted(s) && multiset(s) == multiset(Reject(RouteNames(routes), InSet(views)))
                                 && r == [NoViewsPrefix + Join(s, ", ")]
    ensures forall k :: 0 <= k < |r| ==> StartsWith(r[k], NoViewsPrefix)
  {
    var names := RouteNames(routes);
    var missing := Reject(names, InSet(views));
    RejectEmpty(names, InSet(views));
    SortedListError(NoViewsPrefix, missing)
  }

  /** Views, listed as `viewKeys` enumerates the table, that no route names. */
  function ViewErrors(viewKeys: seq<string>, routes: seq<Route>): (r: seq<string>)
    ensures r == [] <==> forall k :: 0 <= k < |viewKeys| ==> viewKeys[k] in RouteNames(routes)
    ensures r != [] ==> exists s :: Sorted(s) && multiset(s) == multiset(Reject(viewKeys, InSeq(RouteNames(routes))))
                                 && r == [NoRoutesPrefix + Join(s, ", ")]
    ensures forall k :: 0 <= k < |r| ==> StartsWith(r[k], NoRoutesPrefix)
  {
    var names := RouteNames(routes);
    var missing := Reject(viewKeys, InSeq(names));
    RejectEmpty(viewKeys, InSeq(names));
    SortedListError(NoRoutesPrefix, missing)
  }

  /** Every error `validate_config` finds, in the order it checks. The file
      system is reached through `rootIsDir` (`os::path_is_dir` on the root)
      and `fileExists` (`os::path_exists` on a file under the root);
      `viewKeys` is the order in which `each_key` visits the views table,
      so it lists each view exactly once. No check fails iff the
      configuration is valid, and no message is empty. */
  function ConfigErrors(config: ConnConfig, viewKeys: seq<string>, rootIsDir: bool,
                        fileExists: string -> bool): (r: seq<string>)
    requires Enumerates(viewKeys, config.viewsTable)
    ensures r == [] <==> Valid(config, rootIsDir, fileExists)
    ensures NoneEmpty(r)
  {
    var h := HostErrors(config.hosts);
    var p := PortErrors(config.port);
    var s := EmptyFieldError(config.serverInfo, ServerInfoEmpty);
    var rt := RootErrors(config.resourcesRoot, rootIsDir);
    var f := RequiredFileErrors(fileExists);
    var e := EmptyFieldError(config.readError, ReadErrorEmpty);
    var ro := RouteErrors(config.routeList, config.viewsTable);
    var v := ViewErrors(viewKeys, config.routeList);
    EmptyHostErrorsEmpty(config.hosts);
    ConcatEmpty(h, p, s, rt, f, e, ro, v);
    HostErrorsNonEmpty(config.hosts);
    PortErrorsNonEmpty(config.port);
    FieldErrorNonEmpty(config.serverInfo, ServerInfoEmpty);
    RootErrorsNonEmpty(config.resourcesRoot, rootIsDir);
    PrefixedNonEmpty(f, MissingFilesPrefix);
    FieldErrorNonEmpty(config.readError, ReadErrorEmpty);
    PrefixedNonEmpty(ro, NoViewsPrefix);
    PrefixedNonEmpty(v, NoRoutesPrefix);
    ConcatNonEmpty(h, p, s, rt, f, e, ro, v, h + p + s + rt + f + e + ro + v);
    assert (forall k :: 0 <= k < |viewKeys| ==> viewKeys[k] in RouteNames(config.routeList))
       <==> (forall w :: w in config.viewsTable ==> w in RouteNames(config.routeList));
    h + p + s + rt + f + e + ro + v
  }

  /** `validate_config`: the errors joined by single spaces; empty iff the
      configuration passes every check. */
  function ValidateConfig(config: ConnConfig, viewKeys: seq<string>, rootIsDir: bool,
                          fileExists: string -> bool): (r: string)
    requires Enumerates(viewKeys, config.viewsTable)
    ensures r == "" <==> Valid(config, rootIsDir, fileExists)
  {
    var errors := ConfigErrors(config, viewKeys, rootIsDir, fileExists);
    JoinEmpty(errors, " ");
    Join(errors, " ")
  }

  /** The checks of `validate_config` in the order it runs them. */
  lemma ConfigErrorsParts(config: ConnConfig, viewKeys: seq<string>, rootIsDir: bool, fileExists: string -> bool)
    requires Enumerates(viewKeys, config.viewsTable)
    ensures ConfigErrors(config, viewKeys, rootIsDir, fileExists)
         == HostErrors(config.hosts) + PortErrors(config.port) + EmptyFieldError(config.serverInfo, ServerInfoEmpty)
            + RootErrors(config.resourcesRoot, rootIsDir) + RequiredFileErrors(fileExists)
            + EmptyFieldError(config.readError, ReadErrorEmpty) + RouteErrors(config.routeList, config.viewsTable)
            + ViewErrors(viewKeys, config.routeList)
  {
  }

  /** A configuration that passes every check. */
  predicate Valid(config: ConnConfig, rootIsDir: bool, fileExists: string -> bool) {
    && |config.hosts| > 0
    && (forall k :: 0 <= k < |config.hosts| ==> config.hosts[k] != "")
    && (config.port == 80 || config.port >= 1024)
    && config.serverInfo != ""
    && config.resourcesRoot != "" && rootIsDir
    && (forall k :: 0 <= k < |RequiredFiles| ==> fileExists(RequiredFiles[k]))
    && config.readError != ""
    && (forall k :: 0 <= k < |config.routeList| ==> config.routeList[k].route in config.viewsTable)
    && (forall v :: v in config.viewsTable ==> v in RouteNames(config.routeList))
  }

  lemma EmptyHostErrorsEmpty(hosts: seq<string>)
    ensures EmptyHostErrors(hosts) == [] <==> forall k :: 0 <= k < |hosts| ==> hosts[k] != ""
  {
    if exists k :: 0 <= k < |hosts| && hosts[k] == "" {
      var k :| 0 <= k < |hosts| && hosts[k] == "";
      assert "" in multiset(hosts);
    }
  }

  lemma ConcatNonEmpty(h: seq<string>, p: seq<string>, s: seq<string>, rt: seq<string>,
                       f: seq<string>, e: seq<string>, ro: seq<string>, v: seq<string>, errors: seq<string>)
    requires NoneEmpty(h) && NoneEmpty(p) && NoneEmpty(s) && NoneEmpty(rt)
    requires NoneEmpty(f) && NoneEmpty(e) && NoneEmpty(ro) && NoneEmpty(v)
    requires errors == h + p + s + rt + f + e + ro + v
    ensures NoneEmpty(errors)
  {
    NoneEmptyAppend(h, p);
    NoneEmptyAppend(h + p, s);
    NoneEmptyAppend(h + p + s, rt);
    NoneEmptyAppend(h + p + s + rt, f);
    NoneEmptyAppend(h + p + s + rt + f, e);
    NoneEmptyAppend(h + p + s + rt + f + e, ro);
    NoneEmptyAppend(h + p + s + rt + f + e + ro, v);
  }

  lemma PortErrorsNonEmpty(port: Port)
    ensures NoneEmpty(PortErrors(port))
  {
    assert |BadPort| > 0;
  }

  lemma FieldErrorNonEmpty(value: string, message: string)
    requires |message| > 0
    ensures NoneEmpty(EmptyFieldError(value, message))
  {
  }

  lemma RootErrorsNonEmpty(root: string, rootIsDir: bool)
    ensures NoneEmpty(RootErrors(root, rootIsDir))
  {
    assert |RootEmpty| > 0 && |RootNotDir| > 0;
  }

  lemma HostErrorsNonEmpty(hosts: seq<string>)
    ensures NoneEmpty(HostErrors(hosts))
  {
    assert |HostEmpty| > 0 && |HostsEmpty| > 0;
  }

  lemma PrefixedNonEmpty(r: seq<string>, prefix: string)
    requires |prefix| > 0 && forall k :: 0 <= k < |r| ==> StartsWith(r[k], prefix)
    ensures NoneEmpty(r)
  {
  }

  /** No message in `xs` is empty. */
  predicate NoneEmpty(xs: seq<string>) {
    forall k :: 0 <= k < |xs| ==> xs[k] != ""
  }

  lemma NoneEmptyAppend(a: seq<string>, b: seq<string>)
    requires NoneEmpty(a) && NoneEmpty(b)
    ensures NoneEmpty(a + b)
  {
    forall k | 0 <= k < |a + b| ensures (a + b)[k] != "" {
      if k >= |a| { assert (a + b)[k] == b[k - |a|]; }
    }
  }

  lemma ConcatEmpty(a: seq<string>, b: seq<string>, c: seq<string>, d: seq<string>,
                    e: seq<string>, f: seq<string>, g: seq<string>, h: seq<string>)
    ensures a + b + c + d + e + f + g + h == [] <==> a == b == c == d == e == f == g == h == []
  {
    assert |a + b + c + d + e + f + g + h| == |a| + |b| + |c| + |d| + |e| + |f| + |g| + |h|;
  }

  lemma BadPortNotHost(hosts: seq<string>)
    ensures BadPort !in HostErrors(hosts)
  {
    var r := HostErrors(hosts);
    assert BadPort != HostEmpty && BadPort != HostsEmpty;
    if |hosts| > 0 {
      assert forall k :: 0 <= k < |r| ==> r[k] == HostEmpty;
    }
  }

  /** No message under a prefix that starts differently is the port message. */
  lemma BadPortNotPrefixed(r: seq<string>, prefix: string)
    requires |prefix| > 0 && prefix[0] != BadPort[0]
    requires forall k :: 0 <= k < |r| ==> StartsWith(r[k], prefix)
    ensures BadPort !in r
  {
    forall k | 0 <= k < |r| ensures r[k] != BadPort {
      assert r[k][0] == r[k][..|prefix|][0];
    }
  }

  lemma BadPortNotField(value: string, message: string)
    requires |message| > 0 && message[0] != BadPort[0]
    ensures BadPort !in EmptyFieldError(value, message)
  {
  }

  lemma BadPortNotRoot(root: string, rootIsDir: bool)
    ensures BadPort !in RootErrors(root, rootIsDir)
  {
    assert BadPort != RootEmpty && BadPort != RootNotDir;
  }

  /** The port message appears iff the port is neither 80 nor at least 1024. */
  lemma PortChecked(config: ConnConfig, viewKeys: seq<string>, rootIsDir: bool, fileExists: string -> bool)
    requires Enumerates(viewKeys, config.viewsTable)
    ensures BadPort in ConfigErrors(config, viewKeys, rootIsDir, fileExists)
        <==> config.port < 1024 && config.port != 80
  {
    var h := HostErrors(config.hosts);
    var p := PortErrors(config.port);
    var s := EmptyFieldError(config.serverInfo, ServerInfoEmpty);
    var rt := RootErrors(config.resourcesRoot, rootIsDir);
    var f := RequiredFileErrors(fileExists);
    var e := EmptyFieldError(config.readError, ReadErrorEmpty);
    var ro := RouteErrors(config.routeList, config.viewsTable);
    var v := ViewErrors(viewKeys, config.routeList);
    assert ConfigErrors(config, viewKeys, rootIsDir, fileExists) == h + p + s + rt + f + e + ro + v;
    BadPortNotHost(config.hosts);
    BadPortNotField(config.serverInfo, ServerInfoEmpty);
    BadPortNotRoot(config.resourcesRoot, rootIsDir);
    BadPortNotPrefixed(f, MissingFilesPrefix);
    BadPortNotField(config.readError, ReadErrorEmpty);
    BadPortNotPrefixed(ro, NoViewsPrefix);
    BadPortNotPrefixed(v, NoRoutesPrefix);
  }

  /** Enumerates `keys` each element of `table` exactly once. */
  predicate Enumerates(keys: seq<string>, table: set<string>) {
    (forall k :: 0 <= k < |keys| ==> keys[k] in table)
    && (forall v :: v in table ==> v in keys)
    && (forall i, j :: 0 <= i < j < |keys| ==> keys[i] != keys[j])
  }

  lemma {:induction false} DistinctCount(keys: seq<string>, x: string)
    requires forall i, j :: 0 <= i < j < |keys| ==> keys[i] != keys[j]
    ensures multiset(keys)[x] == if x in keys then 1 else 0
    decreases |keys|
  {
    if |keys| > 0 {
      var tail := keys[1..];
      assert forall i, j :: 0 <= i < j < |tail| ==> tail[i] != tail[j] by {
        forall i, j | 0 <= i < j < |tail| ensures tail[i] != tail[j] {
          assert tail[i] == keys[i + 1] && tail[j] == keys[j + 1];
        }
      }
      DistinctCount(tail, x);
      assert keys == [keys[0]] + tail;
      assert multiset(keys) == multiset{keys[0]} + multiset(tail);
      if x == keys[0] {
        assert x !in tail by {
          forall j | 0 <= j < |tail| ensures tail[j] != x { assert tail[j] == keys[j + 1]; }
        }
      }
    }
  }

  /** Rejecting from an enumeration keeps each rejected element of the
      table once. */
  lemma RejectEnumerationCount(keys: seq<string>, table: set<string>, ok: string -> bool, x: string)
    requires Enumerates(keys, table)
    ensures multiset(Reject(keys, ok))[x] == if x in table && !ok(x) then 1 else 0
  {
    RejectCount(keys, ok, x);
    DistinctCount(keys, x);
    assert x in keys <==> x in table;
  }

  /** The hash order in which the views table is visited does not show in
      the result, because the missing views are sorted. */
  lemma ViewOrderIrrelevant(config: ConnConfig, keys1: seq<string>, keys2: seq<string>,
                            rootIsDir: bool, fileExists: string -> bool)
    requires Enumerates(keys1, config.viewsTable) && Enumerates(keys2, config.viewsTable)
    ensures ValidateConfig(config, keys1, rootIsDir, fileExists) == ValidateConfig(config, keys2, rootIsDir, fileExists)
  {
    var names := RouteNames(config.routeList);
    var ok := InSeq(names);
    var m1, m2 := Reject(keys1, ok), Reject(keys2, ok);
    assert multiset(keys1) == multiset(keys2) by {
      forall x ensures multiset(keys1)[x] == multiset(keys2)[x] {
        DistinctCount(keys1, x);
        DistinctCount(keys2, x);
      }
    }
    assert multiset(m1) == multiset(m2) by {
      forall x ensures multiset(m1)[x] == multiset(m2)[x] {
        RejectCount(keys1, ok, x);
        RejectCount(keys2, ok, x);
      }
    }
    SortedUnique(Sort(m1), Sort(m2));
    assert ViewErrors(keys1, config.routeList) == ViewErrors(keys2, config.routeList);
  }

  // ---- the unit tests of validate_config ------------------------------------------------

  /** When a configuration passes every check but one, the result is that
      check's messages. */
  lemma OnlyViewErrors(config: ConnConfig, viewKeys: seq<string>, rootIsDir: bool, fileExists: string -> bool)
    requires Enumerates(viewKeys, config.viewsTable)
    requires |config.hosts| > 0 && forall k :: 0 <= k < |config.hosts| ==> config.hosts[k] != ""
    requires config.port == 80 || config.port >= 1024
    requires config.serverInfo != "" && config.resourcesRoot != "" && rootIsDir && config.readError != ""
    requires forall k :: 0 <= k < |RequiredFiles| ==> fileExists(RequiredFiles[k])
    requires forall k :: 0 <= k < |config.routeList| ==> config.routeList[k].route in config.viewsTable
    ensures ValidateConfig(config, viewKeys, rootIsDir, fileExists) == Join(ViewErrors(viewKeys, config.routeList), " ")
  {
    EmptyHostErrorsEmpty(config.hosts);
    ConfigErrorsParts(config, viewKeys, rootIsDir, fileExists);
    var errors := ConfigErrors(config, viewKeys, rootIsDir, fileExists);
    assert errors == [] + [] + [] + [] + [] + [] + [] + ViewErrors(viewKeys, config.routeList);
  }

  /** Sorting two elements puts them in order. */
  lemma SortTwo(names: seq<string>, a: string, b: string)
    requires multiset(names) == multiset([a, b]) && LexLe(a, b)
    ensures Sort(names) == [a, b]
  {
    var s := Sort(names);
    assert Sorted([a, b]);
    SortedUnique(s, [a, b]);
  }

  lemma JoinTwoAfter(prefix: string, a: string, b: string, sep: string)
    ensures prefix + Join([a, b], sep) == prefix + a + sep + b
  {
    JoinTwo(a, b, sep);
  }

  lemma SortedListIs(prefix: string, names: seq<string>, s: seq<string>)
    requires |names| > 0 && Sort(names) == s
    ensures SortedListError(prefix, names) == [prefix + Join(s, ", ")]
  {
  }

  /** Two missing names, `a` before `b`, are listed in that order. */
  lemma SortedListOfTwo(prefix: string, names: seq<string>, a: string, b: string)
    requires multiset(names) == multiset([a, b]) && LexLe(a, b)
    ensures SortedListError(prefix, names) == [prefix + a + ", " + b]
  {
    assert a in multiset(names);
    SortTwo(names, a, b);
    SortedListIs(prefix, names, [a, b]);
    JoinTwoAfter(prefix, a, b, ", ");
  }

  /** Of a table `{home, a, b}`, the views other than `home` are `a` and `b`. */
  lemma TwoOtherViews(keys: seq<string>, home: string, a: string, b: string)
    requires a != home && b != home && a != b
    requires Enumerates(keys, {home, a, b})
    ensures multiset(Reject(keys, InSeq([home]))) == multiset([a, b])
  {
    var expected := [a, b];
    forall x ensures multiset(Reject(keys, InSeq([home])))[x] == multiset(expected)[x] {
      RejectEnumerationCount(keys, {home, a, b}, InSeq([home]), x);
      assert multiset(expected)[x] == if x == a || x == b then 1 else 0;
    }
  }

  /** Views `a` and `b` without a route, `a` before `b`, are reported in
      that order, whatever order the table is visited in. */
  lemma TwoViewsWithoutRoutes(viewKeys: seq<string>, routes: seq<Route>, home: string, a: string, b: string)
    requires a != home && b != home && a != b && LexLe(a, b)
    requires |routes| == 1 && routes[0].route == home
    requires Enumerates(viewKeys, {home, a, b})
    ensures ViewErrors(viewKeys, routes) == [NoRoutesPrefix + a + ", " + b]
  {
    assert RouteNames(routes) == [home];
    TwoOtherViews(viewKeys, home, a, b);
    SortedListOfTwo(NoRoutesPrefix, Reject(viewKeys, InSeq([home])), a, b);
  }

  lemma JoinOne(a: string, sep: string)
    ensures Join([a], sep) == a
  {
  }

  /** A configuration whose only fault is one views message gives just it. */
  lemma OnlyViewMessage(config: ConnConfig, viewKeys: seq<string>, fileExists: string -> bool, message: string)
    requires Enumerates(viewKeys, config.viewsTable)
    requires |config.hosts| > 0 && forall k :: 0 <= k < |config.hosts| ==> config.hosts[k] != ""
    requires config.port == 80 || config.port >= 1024
    requires config.serverInfo != "" && config.resourcesRoot != "" && config.readError != ""
    requires forall k :: 0 <= k < |RequiredFiles| ==> fileExists(RequiredFiles[k])
    requires forall k :: 0 <= k < |config.routeList| ==> config.routeList[k].route in config.viewsTable
    requires ViewErrors(viewKeys, config.routeList) == [message]
    ensures ValidateConfig(config, viewKeys, true, fileExists) == message
  {
    OnlyViewErrors(config, viewKeys, true, fileExists);
    JoinOne(message, " ");
  }

  /** A configuration whose only fault is two views `a` and `b` without a
      route gives just that message. */
  lemma OnlyTwoViewsWithoutRoutes(config: ConnConfig, viewKeys: seq<string>, fileExists: string -> bool,
                                  home: string, a: string, b: string)
    requires a != home && b != home && a != b && LexLe(a, b)
    requires |config.hosts| > 0 && forall k :: 0 <= k < |config.hosts| ==> config.hosts[k] != ""
    requires config.port == 80 || config.port >= 1024
    requires config.serverInfo != "" && config.resourcesRoot != "" && config.readError != ""
    requires forall k :: 0 <= k < |RequiredFiles| ==> fileExists(RequiredFiles[k])
    requires |config.routeList| == 1 && config.routeList[0].route == home
    requires config.viewsTable == {home, a, b} && Enumerates(viewKeys, config.viewsTable)
    ensures ValidateConfig(config, viewKeys, true, fileExists) == NoRoutesPrefix + a + ", " + b
  {
    TwoViewsWithoutRoutes(viewKeys, config.routeList, home, a, b);
    OnlyViewMessage(config, viewKeys, fileExists, NoRoutesPrefix + a + ", " + b);
  }

  /** A view in the table that no route names is reported, even when there
      are no routes at all. */
  lemma OrphanViewReported(config: ConnConfig, viewKeys: seq<string>, fileExists: string -> bool, orphan: string)
    requires |config.hosts| > 0 && forall k :: 0 <= k < |config.hosts| ==> config.hosts[k] != ""
    requires config.port == 80 || config.port >= 1024
    requires config.serverInfo != "" && config.resourcesRoot != "" && config.readError != ""
    requires forall k :: 0 <= k < |RequiredFiles| ==> fileExists(RequiredFiles[k])
    requires config.routeList == [] && config.viewsTable == {orphan} && Enumerates(viewKeys, config.viewsTable)
    ensures ValidateConfig(config, viewKeys, true, fileExists) == NoRoutesPrefix + orphan
  {
    OneViewWithoutRoutes(viewKeys, config.viewsTable, orphan);
    OnlyViewMessage(config, viewKeys, fileExists, NoRoutesPrefix + orphan);
  }

  /** The single view of a table without routes is the one reported. */
  lemma OneViewWithoutRoutes(viewKeys: seq<string>, table: set<string>, orphan: string)
    requires table == {orphan} && Enumerates(viewKeys, table)
    ensures ViewErrors(viewKeys, []) == [NoRoutesPrefix + orphan]
  {
    var ok := InSeq(RouteNames([]));
    var missing := Reject(viewKeys, ok);
    assert multiset(missing) == multiset{orphan} by {
      forall x ensures multiset(missing)[x] == multiset{orphan}[x] {
        RejectEnumerationCount(viewKeys, table, ok, x);
      }
    }
    var r := ViewErrors(viewKeys, []);
    assert r != [];
    var s :| Sorted(s) && multiset(s) == multiset(missing) && r == [NoRoutesPrefix + Join(s, ", ")];
    assert |s| == 1 && s[0] in multiset(s);
    assert s == [orphan];
    JoinOne(orphan, ", ");
  }

  /** `views_must_have_routes`: views `home`, `greeting` and `goodbye` with a
      route for `home` only are reported as "goodbye, greeting". */
  lemma ViewsMustHaveRoutes(config: ConnConfig, viewKeys: seq<string>, fileExists: string -> bool,
                            home: string, greeting: string, goodbye: string)
    requires home == "home" && greeting == "greeting" && goodbye == "goodbye"
    requires config.hosts == ["localhost"] && config.port == 80 && config.serverInfo == "unit test"
    requires config.resourcesRoot == "server/html" && config.readError != ""
    requires |config.routeList| == 1 && config.routeList[0].route == home
    requires config.viewsTable == {home, greeting, goodbye} && Enumerates(viewKeys, config.viewsTable)
    requires forall k :: 0 <= k < |RequiredFiles| ==> fileExists(RequiredFiles[k])
    ensures ValidateConfig(config, viewKeys, true, fileExists) == "No routes for the following views: goodbye, greeting"
  {
    assert LexLe(goodbye, greeting) by {
      assert goodbye[0] == greeting[0] && goodbye[1] < greeting[1];
    }
    assert forall k :: 0 <= k < |config.hosts| ==> config.hosts[k] != "";
    OnlyTwoViewsWithoutRoutes(config, viewKeys, fileExists, home, goodbye, greeting);
    ViewsMessage(goodbye, greeting);
  }

  /** Only evaluates the string literal of the expected message. */
  lemma ViewsMessage(goodbye: string, greeting: string)
    requires greeting == "greeting" && goodbye == "goodbye"
    ensures NoRoutesPrefix + goodbye + ", " + greeting == "No routes for the following views: goodbye, greeting"
  {
  }

  lemma OnlyRouteErrors(config: ConnConfig, viewKeys: seq<string>, rootIsDir: bool, fileExists: string -> bool)
    requires Enumerates(viewKeys, config.viewsTable)
    requires |config.hosts| > 0 && forall k :: 0 <= k < |config.hosts| ==> config.hosts[k] != ""
    requires config.port == 80 || config.port >= 1024
    requires config.serverInfo != "" && config.resourcesRoot != "" && rootIsDir && config.readError != ""
    requires forall k :: 0 <= k < |RequiredFiles| ==> fileExists(RequiredFiles[k])
    requires forall k :: 0 <= k < |viewKeys| ==> viewKeys[k] in RouteNames(config.routeList)
    ensures ValidateConfig(config, viewKeys, rootIsDir, fileExists)
         == Join(RouteErrors(config.routeList, config.viewsTable), " ")
  {
    EmptyHostErrorsEmpty(config.hosts);
    ConfigErrorsParts(config, viewKeys, rootIsDir, fileExists);
    var errors := ConfigErrors(config, viewKeys, rootIsDir, fileExists);
    assert errors == [] + [] + [] + [] + [] + [] + RouteErrors(config.routeList, config.viewsTable) + [];
  }

  /** Routes `b` and `a` without a view, `a` before `b`, are reported in
      sorted order. */
  lemma TwoRoutesWithoutViews(routes: seq<Route>, home: string, a: string, b: string)
    requires a != home && b != home && a != b && LexLe(a, b)
    requires RouteNames(routes) == [home, b, a]
    ensures RouteErrors(routes, {home}) == [NoViewsPrefix + a + ", " + b]
  {
    var names := RouteNames(routes);
    var missing := Reject(names, InSet({home}));
    assert multiset(missing) == multiset([a, b]) by {
      forall x ensures multiset(missing)[x] == multiset([a, b])[x] {
        RejectCount(names, InSet({home}), x);
        assert multiset(names)[x] == (if x == home then 1 else 0) + (if x == b then 1 else 0) + (if x == a then 1 else 0);
      }
    }
    SortedListOfTwo(NoViewsPrefix, missing, a, b);
  }

  /** `routes_must_have_views`: routes `home`, `greeting` and `farewell`
      with a view for `home` only are reported as "farewell, greeting". */
  lemma RoutesMustHaveViews(config: ConnConfig, viewKeys: seq<string>, fileExists: string -> bool,
                            home: string, greeting: string, farewell: string)
    requires home == "home" && greeting == "greeting" && farewell == "farewell"
    requires config.hosts == ["localhost"] && config.port == 80 && config.serverInfo == "unit test"
    requires config.resourcesRoot == "server/html" && config.readError != ""
    requires RouteNames(config.routeList) == [home, greeting, farewell]
    requires config.viewsTable == {home} && viewKeys == [home]
    requires forall k :: 0 <= k < |RequiredFiles| ==> fileExists(RequiredFiles[k])
    ensures ValidateConfig(config, viewKeys, true, fileExists) == "No views for the following routes: farewell, greeting"
  {
    assert LexLe(farewell, greeting) by {
      assert farewell[0] < greeting[0];
    }
    assert forall k :: 0 <= k < |config.hosts| ==> config.hosts[k] != "";
    TwoRoutesWithoutViews(config.routeList, home, farewell, greeting);
    OnlyRouteErrors(config, viewKeys, true, fileExists);
    JoinOne(NoViewsPrefix + farewell + ", " + greeting, " ");
    RoutesMessage(farewell, greeting);
  }

  /** Only evaluates the string literal of the expected message. */
  lemma RoutesMessage(farewell: string, greeting: string)
    requires greeting == "greeting" && farewell == "farewell"
    ensures NoViewsPrefix + farewell + ", " + greeting == "No views for the following routes: farewell, greeting"
  {
  }

  lemma OnlyFileErrors(config: ConnConfig, viewKeys: seq<string>, rootIsDir: bool, fileExists: string -> bool)
    requires Enumerates(viewKeys, config.viewsTable)
    requires |config.hosts| > 0 && forall k :: 0 <= k < |config.hosts| ==> config.hosts[k] != ""
    requires config.port == 80 || config.port >= 1024
    requires config.serverInfo != "" && config.resourcesRoot != "" && rootIsDir && config.readError != ""
    requires forall k :: 0 <= k < |config.routeList| ==> config.routeList[k].route in config.viewsTable
    requires forall k :: 0 <= k < |viewKeys| ==> viewKeys[k] in RouteNames(config.routeList)
    ensures ValidateConfig(config, viewKeys, rootIsDir, fileExists) == Join(RequiredFileErrors(fileExists), " ")
  {
    EmptyHostErrorsEmpty(config.hosts);
    ConfigErrorsParts(config, viewKeys, rootIsDir, fileExists);
    var errors := ConfigErrors(config, viewKeys, rootIsDir, fileExists);
    assert errors == [] + [] + [] + [] + RequiredFileErrors(fileExists) + [] + [] + [];
  }

  lemma JoinFour(a: string, b: string, c: string, d: string, sep: string)
    ensures Join([a, b, c, d], sep) == a + sep + b + sep + c + sep + d
  {
    assert [a, b, c, d][1..] == [b, c, d];
    assert [b, c, d][1..] == [c, d];
    JoinTwo(c, d, sep);
  }

  lemma JoinFourAfter(prefix: string, a: string, b: string, c: string, d: string, sep: string)
    ensures prefix + Join([a, b, c, d], sep) == prefix + a + sep + b + sep + c + sep + d
  {
    JoinFour(a, b, c, d, sep);
  }

  /** With none of the required pages present, all four are named. */
  lemma NoRequiredFiles(fileExists: string -> bool)
    requires forall k :: 0 <= k < |RequiredFiles| ==> !fileExists(RequiredFiles[k])
    ensures RequiredFileErrors(fileExists) == [MissingFilesPrefix + Join(RequiredFiles, ", ")]
  {
    RejectNone(RequiredFiles, fileExists);
  }

  /** Nothing passes `ok`, so nothing is dropped. */
  lemma {:induction false} RejectNone(xs: seq<string>, ok: string -> bool)
    requires forall k :: 0 <= k < |xs| ==> !ok(xs[k])
    ensures Reject(xs, ok) == xs
    decreases |xs|
  {
    if |xs| > 0 {
      assert !ok(xs[0]);
      RejectNone(xs[1..], ok);
      assert xs == [xs[0]] + xs[1..];
    }
  }

  /** `root_must_have_required_files`: a root holding none of the required
      pages is reported with all four, in order. */
  lemma RootMustHaveRequiredFiles(config: ConnConfig, viewKeys: seq<string>, fileExists: string -> bool, home: string)
    requires home == "home"
    requires config.hosts == ["localhost"] && config.port == 80 && config.serverInfo == "unit test"
    requires config.resourcesRoot == "/tmp" && config.readError != ""
    requires RouteNames(config.routeList) == [home]
    requires config.viewsTable == {home} && viewKeys == [home]
    requires forall k :: 0 <= k < |RequiredFiles| ==> !fileExists(RequiredFiles[k])
    ensures ValidateConfig(config, viewKeys, true, fileExists)
         == "Missing required files: forbidden.html, home.html, not-found.html, not-supported.html"
  {
    assert forall k :: 0 <= k < |config.hosts| ==> config.hosts[k] != "";
    assert forall k :: 0 <= k < |config.routeList| ==> config.routeList[k].route in config.viewsTable by {
      forall k | 0 <= k < |config.routeList| ensures config.routeList[k].route in config.viewsTable {
        assert config.routeList[k].route == RouteNames(config.routeList)[k];
      }
    }
    OnlyFileErrors(config, viewKeys, true, fileExists);
    NoRequiredFiles(fileExists);
    var m := MissingFilesPrefix + Join(RequiredFiles, ", ");
    JoinOne(m, " ");
    FilesMessage(m);
  }

  lemma FilesMessage(m: string)
    requires m == MissingFilesPrefix + Join(RequiredFiles, ", ")
    ensures m == "Missing required files: forbidden.html, home.html, not-found.html, not-supported.html"
  {
    var r := RequiredFiles;
    assert r == [r[0], r[1], r[2], r[3]];
    JoinFourAfter(MissingFilesPrefix, r[0], r[1], r[2], r[3], ", ");
    var m1 := MissingFilesPrefix + r[0];
    FilesMessage1(m1);
    var m2 := m1 + ", " + r[1];
    FilesMessage2(m1, m2);
    var m3 := m2 + ", " + r[2];
    FilesMessage3(m2, m3);
    FilesMessage4(m3, m);
  }

  /** Only evaluates a string literal: the first step of the missing-files message. */
  lemma FilesMessage1(m1: string)
    requires m1 == MissingFilesPrefix + RequiredFiles[0]
    ensures m1 == "Missing required files: forbidden.html"
  {
  }

  /** Only evaluates a string literal: the second step of the missing-files message. */
  lemma FilesMessage2(m1: string, m2: string)
    requires m1 == "Missing required files: forbidden.html" && m2 == m1 + ", " + RequiredFiles[1]
    ensures m2 == "Missing required files: forbidden.html, home.html"
  {
  }

  /** Only evaluates a string literal: the third step of the missing-files message. */
  lemma FilesMessage3(m2: string, m3: string)
    requires m2 == "Missing required files: forbidden.html, home.html" && m3 == m2 + ", " + RequiredFiles[2]
    ensures m3 == "Missing required files: forbidden.html, home.html, not-found.html"
  {
  }

  /** Only evaluates a string literal: the last step of the missing-files message. */
  lemma FilesMessage4(m3: string, m4: string)
    requires m3 == "Missing required files: forbidden.html, home.html, not-found.html"
    requires m4 == m3 + ", " + RequiredFiles[3]
    ensures m4 == "Missing required files: forbidden.html, home.html, not-found.html, not-supported.html"
  {
  }
}

=== FILE: http_parser.dfy ===
/** The HTTP/1.1 request grammar of `http_parser.rs` (the request line of
    section 5.1 of RFC 2616 and the message headers of section 4.2),
    written directly over the parser primitives:

      request      := method headers crnl body
      method       := identifier lws url lws 'HTTP/' integer '.' integer crnl
      header       := name ':' value continuation* crnl
      continuation := crnl [ \t] value
      name := [^:]+      value := [^\r\n]+      url := [^ ]+
      body := everything up to a NUL

    Header names are lower-cased, values trimmed, continuations appended
    as one space and their trimmed text. */
module HttpParser {
  import opened Results
  import opened Strings
  import opened Parsers
  import Configuration

  datatype HttpRequest = HttpRequest(
    verb: string,
    majorVersion: nat,
    minorVersion: nat,
    url: string,
    headers: map<string, string>,
    body: string)

  /** A parser outcome that stays in the text it read: a success moves the
      index forward, not past the sentinel, and a failure names a position
      at or after the start. Nothing else in the state changes. */
  predicate Stays<T>(s: State, r: Status<T>) {
    && (r.Succeeded? ==>
          r.newState == s.(index := r.newState.index) && s.index <= r.newState.index < |s.text|)
    && (r.Failed? ==>
          r.oldState == s && r.errState == s.(index := r.errState.index)
          && s.index <= r.errState.index < |s.text|)
  }

  /** A failure of a later step, re-rooted at the state the whole sequence
      started from. */
  function Lift<T, U>(s: State, f: Status<T>): (r: Status<U>)
    requires f.Failed?
    ensures r.Failed? && r.oldState == s && r.errState == f.errState && r.mesg == f.mesg
  {
    Failed(s, f.errState, f.mesg)
  }

  /** `tag`: the same outcome with the failure message replaced. */
  function Tag<T>(r: Status<T>, mesg: string): (t: Status<T>)
    ensures t.Succeeded? <==> r.Succeeded?
    ensures t.Succeeded? ==> t == r
    ensures t.Failed? ==> t.oldState == r.oldState && t.errState == r.errState && t.mesg == mesg
  {
    match r
    case Succeeded(_, _) => r
    case Failed(o, e, _) => Failed(o, e, mesg)
  }

  // ---- literals ----------------------------------------------------------------

  /** How many characters of `lit` appear in `text` from `i + k` on, given
      that the first `k` do. */
  function Common(text: string, lit: string, i: nat, k: nat): (n: nat)
    requires i + k <= |text| && k <= |lit| && text[i..i + k] == lit[..k]
    ensures k <= n <= |lit| && i + n <= |text|
    ensures forall m :: 0 <= m < n ==> text[i + m] == lit[m]
    ensures n < |lit| ==> i + n == |text| || text[i + n] != lit[n]
    decreases |lit| - k
  {
    if k < |lit| && i + k < |text| && text[i + k] == lit[k] then
      assert text[i..i + k + 1] == text[i..i + k] + [text[i + k]];
      assert lit[..k + 1] == lit[..k] + [lit[k]];
      Common(text, lit, i, k + 1)
    else k
  }

  /** A common part with a literal free of `EOT` ends before the `EOT`. */
  lemma CommonBeforeEnd(text: string, lit: string, i: nat, n: nat)
    requires Terminated(text) && i < |text| && EOT !in lit
    requires n <= |lit| && i + n <= |text| && text[i..i + n] == lit[..n]
    ensures i + n < |text|
  {
    if n > 0 {
      assert text[i + n - 1] == lit[n - 1];
    }
  }

  /** The message of a failed literal. */
  function Expected(lit: string): string {
    "Expected '" + lit + "'"
  }

  /** `literal`: exactly the characters of `lit`; a failure points at the
      first character that differs. */
  function Lit(lit: string, s: State): (r: Status<string>)
    requires Readable(s) && EOT !in lit
    ensures Stays(s, r)
    ensures r.Succeeded? <==> OccursAt(s.text, lit, s.index)
    ensures r.Succeeded? ==> r.newState.index == s.index + |lit| && r.value == lit
    ensures r.Failed? ==>
      && r.mesg == Expected(lit)
      && r.errState.index - s.index < |lit|
      && (forall k :: s.index <= k < r.errState.index ==> s.text[k] == lit[k - s.index])
      && s.text[r.errState.index] != lit[r.errState.index - s.index]
  {
    var n := Common(s.text, lit, s.index, 0);
    CommonBeforeEnd(s.text, lit, s.index, n);
    if n == |lit| then
      Succeeded(s.(index := s.index + n), lit)
    else
      assert s.index + |lit| <= |s.text| ==> s.text[s.index..s.index + |lit|][n] == s.text[s.index + n];
      Failed(s, s.(index := s.index + n), Expected(lit))
  }

  // ---- tokens ------------------------------------------------------------------

  predicate IsBlank(c: char) { c == ' ' || c == '\t' }
  predicate IsNotSpace(c: char) { c != ' ' }
  predicate IsValueChar(c: char) { c != '\r' && c != '\n' }
  predicate IsNameChar(c: char) { c != ':' }
  predicate IsBodyChar(c: char) { c != '\0' }
  predicate IsDecimal(c: char) { '0' <= c <= '9' }
  predicate IsIdentStart(c: char) { 'a' <= c <= 'z' || 'A' <= c <= 'Z' || c == '_' }
  predicate IsIdentChar(c: char) { IsIdentStart(c) || IsDecimal(c) }

  /** `lws`: spaces and tabs, possibly none. */
  function Lws(s: State): (r: Status<string>)
    requires Readable(s)
    ensures r.Succeeded? && Stays(s, r)
    ensures forall k :: 0 <= k < |r.value| ==> IsBlank(r.value[k])
  {
    Match0(IsBlank, s)
  }

  /** `identifier`: a letter or underscore, then letters, digits and
      underscores. */
  function Identifier(s: State): (r: Status<string>)
    requires Readable(s)
    ensures Stays(s, r)
    ensures r.Failed? <==> !IsIdentStart(s.text[s.index])
    ensures r.Failed? ==> r.errState == s && r.mesg == "Expected identifier"
    ensures r.Succeeded? ==> r.value == Consumed(s, r.newState)
  {
    Tag(Match1_0(IsIdentStart, IsIdentChar, s), "Expected identifier")
  }

  /** `integer`: decimal digits and the number they write. */
  function Integer(s: State): (r: Status<nat>)
    requires Readable(s)
    ensures Stays(s, r)
    ensures r.Failed? <==> !IsDecimal(s.text[s.index])
    ensures r.Failed? ==> r.errState == s && r.mesg == "Expected integer"
    ensures r.Succeeded? ==>
      ParseNat(Consumed(s, r.newState), 10) == Some(r.value)
  {
    match Match1(IsDecimal, s)
    case Failed(o, e, _) => Failed(o, e, "Expected integer")
    case Succeeded(t, digits) =>
      DecimalParses(digits);
      Succeeded(t, ParseNat(digits, 10).value)
  }

  /** Decimal digits always read as a number. */
  lemma DecimalParses(digits: string)
    requires forall k :: 0 <= k < |digits| ==> IsDecimal(digits[k])
    ensures ParseNat(digits, 10).Some?
  {
    DecimalPrefixParses(digits, |digits|);
    assert digits[..|digits|] == digits;
  }

  /** Every prefix of a run of decimal digits reads as a number. */
  lemma {:induction false} DecimalPrefixParses(digits: string, n: nat)
    requires n <= |digits| && forall k :: 0 <= k < |digits| ==> IsDecimal(digits[k])
    ensures ParseNat(digits[..n], 10).Some?
    decreases n
  {
    if n > 0 {
      DecimalPrefixParses(digits, n - 1);
      assert digits[..n][..n - 1] == digits[..n - 1];
    }
  }

  /** `crnl`: a CR LF pair. */
  function Crnl(s: State): (r: Status<string>)
    requires Readable(s)
    ensures Stays(s, r)
    ensures r.Succeeded? <==> OccursAt(s.text, "\r\n", s.index)
    ensures r.Succeeded? ==> r.newState.index == s.index + 2
    ensures r.Failed? ==> r.mesg == "Expected CRNL"
  {
    Tag(Lit("\r\n", s), "Expected CRNL")
  }

  // ---- request line ------------------------------------------------------------

  datatype RequestLine = RequestLine(verb: string, url: string, major: nat, minor: nat)

  /** `version := integer '.' integer`. */
  function Version(s: State): (r: Status<(nat, nat)>)
    requires Readable(s)
    ensures Stays(s, r)
  {
    var major := Integer(s);
    if major.Failed? then Lift(s, major) else
    var dot := Lit(".", major.newState);
    if dot.Failed? then Lift(s, dot) else
    var minor := Integer(dot.newState);
    if minor.Failed? then Lift(s, minor) else
    Succeeded(minor.newState, (major.value, minor.value))
  }

  /** `'HTTP/' version crnl`, the end of the request line. */
  function Protocol(s: State): (r: Status<(nat, nat)>)
    requires Readable(s)
    ensures Stays(s, r)
  {
    var http := Lit("HTTP/", s);
    if http.Failed? then Lift(s, http) else
    var version := Version(http.newState);
    if version.Failed? then Lift(s, version) else
    var end := Crnl(version.newState);
    if end.Failed? then Lift(s, end) else
    Succeeded(end.newState, version.value)
  }

  /** What `match1(pred)` tagged with `mesg` gives at `s`: a failure at `s`
      iff the next character is EOT or does not qualify; otherwise the
      longest non-empty run of qualifying characters, consumed. */
  predicate MatchedRun(pred: char -> bool, mesg: string, s: State, r: Status<string>)
    requires Readable(s)
  {
    && (r.Failed? <==> s.text[s.index] == EOT || !pred(s.text[s.index]))
    && (r.Failed? ==> r.errState == s && r.mesg == mesg)
    && (r.Succeeded? ==>
          && s.index < r.newState.index < |s.text|
          && r.value == Consumed(s, r.newState)
          && (forall k :: s.index <= k < r.newState.index ==> pred(s.text[k]))
          && (s.text[r.newState.index] == EOT || !pred(s.text[r.newState.index])))
  }

  /** `url := [^ ]+`. */
  function Url(s: State): (r: Status<string>)
    requires Readable(s)
    ensures Stays(s, r)
    ensures MatchedRun(IsNotSpace, "Expected an URL", s, r)
  {
    Tag(Match1(IsNotSpace, s), "Expected an URL")
  }

  /** `method := identifier lws url lws 'HTTP/' version crnl`. */
  function Method(s: State): (r: Status<RequestLine>)
    requires Readable(s)
    ensures Stays(s, r)
  {
    var name := Identifier(s);
    if name.Failed? then Lift(s, name) else
    var url := Url(Lws(name.newState).newState);
    if url.Failed? then Lift(s, url) else
    var protocol := Protocol(Lws(url.newState).newState);
    if protocol.Failed? then Lift(s, protocol) else
    var (major, minor) := protocol.value;
    Succeeded(protocol.newState, RequestLine(name.value, url.value, major, minor))
  }

  // ---- headers -----------------------------------------------------------------

  /** `value := [^\r\n]+`. */
  function Value(s: State): (r: Status<string>)
    requires Readable(s)
    ensures Stays(s, r)
    ensures MatchedRun(IsValueChar, "Expected a header value", s, r)
    ensures r.Succeeded? ==> forall k :: 0 <= k < |r.value| ==> IsValueChar(r.value[k])
  {
    Tag(Match1(IsValueChar, s), "Expected a header value")
  }

  /** `continuation := crnl [ \t] value`, giving a space and the trimmed
      value. */
  function Continuation(s: State): (r: Status<string>)
    requires Readable(s)
    ensures Stays(s, r)
    ensures r.Succeeded? ==> r.newState.index >= s.index + 4
  {
    var end := Crnl(s);
    if end.Failed? then Lift(s, end) else
    var blank := Anycp(IsBlank, end.newState);
    if blank.Failed? then Lift(s, blank) else
    var v := Value(blank.newState);
    if v.Failed? then Lift(s, v) else
    Succeeded(v.newState, " " + Trim(v.value))
  }

  /** `continuation*`: as many continuations as parse, and the state after
      the last one. */
  function Continuations(s: State): (r: (seq<string>, State))
    requires Readable(s)
    ensures r.1 == s.(index := r.1.index) && s.index <= r.1.index < |s.text|
    decreases |s.text| - s.index
  {
    var c := Continuation(s);
    if c.Failed? then ([], s)
    else
      var rest := Continuations(c.newState);
      ([c.value] + rest.0, rest.1)
  }

  /** `name := [^:]+`. */
  function Name(s: State): (r: Status<string>)
    requires Readable(s)
    ensures Stays(s, r)
    ensures MatchedRun(IsNameChar, "Expected a header name", s, r)
  {
    Tag(Match1(IsNameChar, s), "Expected a header name")
  }

  /** `header := name ':' value continuation* crnl`: the lower-cased name,
      and the trimmed value followed by the continuations. */
  function Header(s: State): (r: Status<(string, string)>)
    requires Readable(s)
    ensures Stays(s, r)
    ensures r.Succeeded? ==> r.newState.index > s.index
    ensures r.Succeeded? ==> ToLower(r.value.0) == r.value.0
  {
    var name := Name(s);
    if name.Failed? then Lift(s, name) else
    var colon := Lit(":", name.newState);
    if colon.Failed? then Lift(s, colon) else
    var v := Value(colon.newState);
    if v.Failed? then Lift(s, v) else
    var cont := Continuations(v.newState);
    var end := Crnl(cont.1);
    if end.Failed? then Lift(s, end) else
    ToLowerIdempotent(name.value);
    Succeeded(end.newState, (ToLower(name.value), Trim(v.value) + Join(cont.0, "")))
  }

  /** `header*`. */
  function Headers(s: State): (r: (seq<(string, string)>, State))
    requires Readable(s)
    ensures r.1 == s.(index := r.1.index) && s.index <= r.1.index < |s.text|
    ensures forall k :: 0 <= k < |r.0| ==> ToLower(r.0[k].0) == r.0[k].0
    decreases |s.text| - s.index
  {
    var h := Header(s);
    if h.Failed? then ([], s)
    else
      var rest := Headers(h.newState);
      ([h.value] + rest.0, rest.1)
  }

  // ---- request -----------------------------------------------------------------

  /** `body`: everything up to a NUL or the end. */
  function Body(s: State): (r: Status<string>)
    requires Readable(s)
    ensures r.Succeeded? && Stays(s, r)
    ensures r.value == Consumed(s, r.newState)
    ensures forall k :: 0 <= k < |r.value| ==> r.value[k] != '\0' && r.value[k] != EOT
    ensures s.text[r.newState.index] == EOT || s.text[r.newState.index] == '\0'
  {
    Match0(IsBodyChar, s)
  }

  /** `headers crnl body` after the request line `line`. */
  function Message(line: RequestLine, s: State): (r: Status<HttpRequest>)
    requires Readable(s)
    ensures Stays(s, r)
    ensures r.Succeeded? ==> forall k :: k in r.value.headers ==> ToLower(k) == k
  {
    var hs := Headers(s);
    var blank := Crnl(hs.1);
    if blank.Failed? then Lift(s, blank) else
    var body := Body(blank.newState);
    var headers := Configuration.ToMap(hs.0);
    assert forall k :: k in headers ==> ToLower(k) == k;
    Succeeded(body.newState, HttpRequest(line.verb, line.major, line.minor, line.url, headers, body.value))
  }

  /** `request := method headers crnl body`, the headers entered into a map
      in order so that a repeated name keeps its last value. */
  function Request(s: State): (r: Status<HttpRequest>)
    requires Readable(s)
    ensures Stays(s, r)
    ensures r.Succeeded? ==> forall k :: k in r.value.headers ==> ToLower(k) == k
  {
    var line := Method(s);
    if line.Failed? then Lift(s, line) else
    var m := Message(line.value, line.newState);
    if m.Failed? then Lift(s, m) else m
  }

  // ---- error positions ---------------------------------------------------------

  /** The index where the line holding `idx` starts. */
  function LineStart(text: string, idx: nat): (j: nat)
    requires idx <= |text|
    ensures j <= idx
    ensures j == 0 || text[j - 1] == '\r' || text[j - 1] == '\n'
    ensures forall k :: j <= k < idx ==> text[k] != '\r' && text[k] != '\n'
  {
    if idx == 0 then 0
    else if text[idx - 1] == '\r' || text[idx - 1] == '\n' then idx
    else LineStart(text, idx - 1)
  }

  /** The 1-based line of index `idx`: one more than the line ends before it. */
  function Line(text: string, idx: nat): (n: nat)
    requires idx <= |text|
    ensures n >= 1
  {
    1 + LineBreaks(text, 0, idx)
  }

  /** The 1-based column of index `idx`. */
  function Col(text: string, idx: nat): (n: nat)
    requires idx <= |text|
    ensures 1 <= n <= idx + 1
  {
    idx - LineStart(text, idx) + 1
  }

  /** `make_parser`'s closure: the request parsed from `request` followed
      by the sentinel, or the failure message with its line and column. */
  function MakeParser(request: string): (r: Result<HttpRequest>)
    ensures r.Err? ==> exists e: nat, mesg ::
      e <= |request| &&
      r.error == mesg + " on line " + Dec(Line(request + [EOT], e)) + " col " + Dec(Col(request + [EOT], e))
  {
    var text := request + [EOT];
    match Request(State(text, 0, 1))
    case Succeeded(_, v) => Ok(v)
    case Failed(_, e, mesg) =>
      Err(mesg + " on line " + Dec(Line(text, e.index)) + " col " + Dec(Col(text, e.index)))
  }

  // ---- the wire form ---------------------------------------------------------------

  /** A header as written: `name:value`, then continuation lines (each
      starting with a space or tab), then CR LF. */
  datatype RawHeader = RawHeader(name: string, value: string, continuations: seq<string>)

  /** A request as written: the method, the blanks after it, the URL, the
      blanks after it, the version, the headers and the body. */
  datatype RawRequest = RawRequest(
    verb: string, gap1: string, url: string, gap2: string,
    major: nat, minor: nat, headers: seq<RawHeader>, body: string)

  function ProtocolText(major: nat, minor: nat): string {
    "HTTP/" + (Dec(major) + ("." + (Dec(minor) + "\r\n")))
  }

  function LineText(r: RawRequest): string {
    r.verb + (r.gap1 + (r.url + (r.gap2 + ProtocolText(r.major, r.minor))))
  }

  function ContText(cs: seq<string>): string {
    if |cs| == 0 then "" else "\r\n" + (cs[0] + ContText(cs[1..]))
  }

  function HeaderText(h: RawHeader): string {
    h.name + (":" + (h.value + (ContText(h.continuations) + "\r\n")))
  }

  function HeadersText(hs: seq<RawHeader>): string {
    if |hs| == 0 then "" else HeaderText(hs[0]) + HeadersText(hs[1..])
  }

  /** The text of a request. */
  function Serialise(r: RawRequest): string {
    LineText(r) + (HeadersText(r.headers) + ("\r\n" + r.body))
  }

  /** What a continuation line contributes: a space and its trimmed text. */
  function ContMeanings(cs: seq<string>): seq<string> {
    if |cs| == 0 then []
    else [" " + Trim(if |cs[0]| >= 1 then cs[0][1..] else "")] + ContMeanings(cs[1..])
  }

  /** The name and value a written header stands for. */
  function HeaderMeaning(h: RawHeader): (string, string) {
    (ToLower(h.name), Trim(h.value) + Join(ContMeanings(h.continuations), ""))
  }

  function HeaderMeanings(hs: seq<RawHeader>): seq<(string, string)> {
    if |hs| == 0 then [] else [HeaderMeaning(hs[0])] + HeaderMeanings(hs[1..])
  }

  /** The request a written request stands for. */
  function Meaning(r: RawRequest): HttpRequest {
    HttpRequest(r.verb, r.major, r.minor, r.url,
                Configuration.ToMap(HeaderMeanings(r.headers)), r.body)
  }

  /** Every character of `p` satisfies `pred` and none is the sentinel. */
  predicate Every(pred: char -> bool, p: string) {
    forall k :: 0 <= k < |p| ==> p[k] != EOT && pred(p[k])
  }

  /** A continuation line after its CR LF: a blank, then a value. */
  predicate GoodContinuation(c: string) {
    |c| >= 2 && IsBlank(c[0]) && Every(IsValueChar, c[1..])
  }

  predicate GoodContinuations(cs: seq<string>) {
    forall k :: 0 <= k < |cs| ==> GoodContinuation(cs[k])
  }

  /** A header the grammar reads back: a name without colons that does not
      start with a blank (it would continue the previous header), a value
      and well-formed continuation lines. */
  predicate GoodHeader(h: RawHeader) {
    && |h.name| >= 1 && !IsBlank(h.name[0]) && Every(IsNameChar, h.name)
    && |h.value| >= 1 && Every(IsValueChar, h.value)
    && GoodContinuations(h.continuations)
  }

  predicate IsIdentifier(v: string) {
    |v| >= 1 && IsIdentStart(v[0]) && forall k :: 0 <= k < |v| ==> IsIdentChar(v[k])
  }

  /** A request line the grammar reads back: the URL may not start with a
      blank (the blanks before it would take it) and the blanks after it
      start with a space (a tab would belong to the URL). */
  predicate GoodLine(r: RawRequest) {
    && IsIdentifier(r.verb)
    && |r.gap1| >= 1 && Every(IsBlank, r.gap1)
    && |r.url| >= 1 && !IsBlank(r.url[0]) && Every(IsNotSpace, r.url)
    && |r.gap2| >= 1 && r.gap2[0] == ' ' && Every(IsBlank, r.gap2)
  }

  /** A body the grammar reads back whole. It must not hold a colon: the
      header grammar would take the text before it for one more header. */
  predicate GoodBody(b: string) {
    Every(IsBodyChar, b) && ':' !in b
  }

  predicate GoodHeaders(hs: seq<RawHeader>) {
    forall k :: 0 <= k < |hs| ==> GoodHeader(hs[k])
  }

  /** A request the grammar reads back. */
  predicate GoodRequest(r: RawRequest) {
    GoodLine(r) && GoodHeaders(r.headers) && GoodBody(r.body)
  }

  // ---- reading pieces back ---------------------------------------------------------

  lemma OccursSplit(text: string, a: string, b: string, i: nat)
    requires OccursAt(text, a + b, i)
    ensures OccursAt(text, a, i) && OccursAt(text, b, i + |a|)
  {
    assert text[i..i + |a|] == (a + b)[..|a|];
    assert text[i + |a|..i + |a| + |b|] == (a + b)[|a|..];
  }

  lemma OccursChar(text: string, a: string, i: nat, k: nat)
    requires OccursAt(text, a, i) && k < |a|
    ensures text[i + k] == a[k]
  {
    assert text[i + k] == text[i..i + |a|][k];
  }

  lemma OccursEvery(text: string, a: string, i: nat)
    requires OccursAt(text, a, i)
    ensures forall k :: i <= k < i + |a| ==> text[k] == a[k - i]
  {
    forall k | i <= k < i + |a|
      ensures text[k] == a[k - i]
    {
      OccursChar(text, a, i, k - i);
    }
  }

  /** `match0` reads exactly `piece` when the character after it stops it. */
  lemma Match0Exactly(pred: char -> bool, s: State, piece: string)
    requires Readable(s) && OccursAt(s.text, piece, s.index) && s.index + |piece| < |s.text|
    requires Every(pred, piece)
    requires s.text[s.index + |piece|] == EOT || !pred(s.text[s.index + |piece|])
    ensures Match0(pred, s) == Succeeded(s.(index := s.index + |piece|), piece)
  {
    forall k | s.index <= k < s.index + |piece|
      ensures s.text[k] != EOT && pred(s.text[k])
    {
      OccursChar(s.text, piece, s.index, k - s.index);
    }
    RunEndUnique(s.text, pred, s.index, s.index + |piece|);
  }

  /** `match1` reads exactly a non-empty `piece` when the character after
      it stops it. */
  lemma Match1Exactly(pred: char -> bool, s: State, piece: string)
    requires Readable(s) && OccursAt(s.text, piece, s.index) && s.index + |piece| < |s.text|
    requires |piece| >= 1 && Every(pred, piece)
    requires s.text[s.index + |piece|] == EOT || !pred(s.text[s.index + |piece|])
    ensures Match1(pred, s) == Succeeded(s.(index := s.index + |piece|), piece)
  {
    Match0Exactly(pred, s, piece);
    OccursChar(s.text, piece, s.index, 0);
  }

  lemma IdentifierExactly(s: State, verb: string)
    requires Readable(s) && OccursAt(s.text, verb, s.index) && s.index + |verb| < |s.text|
    requires IsIdentifier(verb) && !IsIdentChar(s.text[s.index + |verb|])
    ensures Identifier(s) == Succeeded(s.(index := s.index + |verb|), verb)
  {
    OccursEvery(s.text, verb, s.index);
    var e := s.index + |verb|;
    assert s.text[s.index..e] == verb;
  }

  /** Every digit `Dec` writes is a decimal digit. */
  lemma {:induction false} DecDigits(n: nat)
    ensures forall k :: 0 <= k < |Dec(n)| ==> IsDecimal(Dec(n)[k])
    decreases n
  {
    if n >= 10 {
      DecDigits(n / 10);
      assert Dec(n) == Dec(n / 10) + [DigitChar(n % 10)];
    }
  }

  /** `a` is a decimal numeral for `n`. */
  predicate Numeral(a: string, n: nat) {
    |a| >= 1 && Every(IsDecimal, a) && ParseNat(a, 10) == Some(n)
  }

  lemma DecNumeral(n: nat)
    ensures Numeral(Dec(n), n)
  {
    DecDigits(n);
    ParseNatToString(n, 10);
  }

  // Each token parser at a known place: the state before is
  // `State(text, i, line)`, the state after `State(text, j, line)`.

  lemma LitAt(lit: string, text: string, line: int, i: nat, j: nat)
    requires Terminated(text) && OccursAt(text, lit, i) && j == i + |lit| && j < |text|
    requires EOT !in lit
    ensures Lit(lit, State(text, i, line)) == Succeeded(State(text, j, line), lit)
  {
  }

  lemma CrnlAt(text: string, line: int, i: nat, j: nat)
    requires Terminated(text) && OccursAt(text, "\r\n", i) && j == i + 2 && j < |text|
    ensures Crnl(State(text, i, line)) == Succeeded(State(text, j, line), "\r\n")
  {
    LitAt("\r\n", text, line, i, j);
  }

  lemma IdentifierAt(text: string, line: int, i: nat, j: nat, verb: string)
    requires Terminated(text) && OccursAt(text, verb, i) && j == i + |verb| && j < |text|
    requires IsIdentifier(verb) && !IsIdentChar(text[j])
    ensures Identifier(State(text, i, line)) == Succeeded(State(text, j, line), verb)
  {
    IdentifierExactly(State(text, i, line), verb);
  }

  lemma LwsAt(text: string, line: int, i: nat, j: nat, gap: string)
    requires Terminated(text) && OccursAt(text, gap, i) && j == i + |gap| && j < |text|
    requires Every(IsBlank, gap) && !IsBlank(text[j])
    ensures Lws(State(text, i, line)) == Succeeded(State(text, j, line), gap)
  {
    Match0Exactly(IsBlank, State(text, i, line), gap);
  }

  lemma UrlAt(text: string, line: int, i: nat, j: nat, url: string)
    requires Terminated(text) && OccursAt(text, url, i) && j == i + |url| && j < |text|
    requires |url| >= 1 && Every(IsNotSpace, url) && text[j] == ' '
    ensures Url(State(text, i, line)) == Succeeded(State(text, j, line), url)
  {
    Match1Exactly(IsNotSpace, State(text, i, line), url);
  }

  lemma IntegerAt(text: string, line: int, i: nat, j: nat, a: string, n: nat)
    requires Terminated(text) && OccursAt(text, a, i) && j == i + |a| && j < |text|
    requires Numeral(a, n) && !IsDecimal(text[j])
    ensures Integer(State(text, i, line)) == Succeeded(State(text, j, line), n)
  {
    Match1Exactly(IsDecimal, State(text, i, line), a);
  }

  lemma NameAt(text: string, line: int, i: nat, j: nat, name: string)
    requires Terminated(text) && OccursAt(text, name, i) && j == i + |name| && j < |text|
    requires |name| >= 1 && Every(IsNameChar, name) && text[j] == ':'
    ensures Name(State(text, i, line)) == Succeeded(State(text, j, line), name)
  {
    Match1Exactly(IsNameChar, State(text, i, line), name);
  }

  lemma ValueAt(text: string, line: int, i: nat, j: nat, v: string)
    requires Terminated(text) && OccursAt(text, v, i) && j == i + |v| && j < |text|
    requires |v| >= 1 && Every(IsValueChar, v) && text[j] == '\r'
    ensures Value(State(text, i, line)) == Succeeded(State(text, j, line), v)
  {
    Match1Exactly(IsValueChar, State(text, i, line), v);
  }

  lemma BodyAt(text: string, line: int, i: nat, j: nat, body: string)
    requires Terminated(text) && OccursAt(text, body, i) && j == i + |body| && j == |text| - 1
    requires Every(IsBodyChar, body)
    ensures Body(State(text, i, line)) == Succeeded(State(text, j, line), body)
  {
    Match0Exactly(IsBodyChar, State(text, i, line), body);
  }

  // ---- request line ---------------------------------------------------------------

  lemma VersionCompose(text: string, line: int, i: nat, j1: nat, j2: nat, j3: nat, major: nat, minor: nat)
    requires Terminated(text) && i < |text|
    requires Integer(State(text, i, line)) == Succeeded(State(text, j1, line), major)
    requires Lit(".", State(text, j1, line)) == Succeeded(State(text, j2, line), ".")
    requires Integer(State(text, j2, line)) == Succeeded(State(text, j3, line), minor)
    ensures Version(State(text, i, line)) == Succeeded(State(text, j3, line), (major, minor))
  {
  }

  lemma ProtocolCompose(text: string, line: int, i: nat, j1: nat, j2: nat, j3: nat, major: nat, minor: nat)
    requires Terminated(text) && i < |text|
    requires Lit("HTTP/", State(text, i, line)) == Succeeded(State(text, j1, line), "HTTP/")
    requires Version(State(text, j1, line)) == Succeeded(State(text, j2, line), (major, minor))
    requires Crnl(State(text, j2, line)) == Succeeded(State(text, j3, line), "\r\n")
    ensures Protocol(State(text, i, line)) == Succeeded(State(text, j3, line), (major, minor))
  {
  }

  /** Where the pieces of `'HTTP/' a '.' b CRLF` lie when the whole lies
      at `i`. */
  lemma ProtocolPieces(text: string, i: nat, a: string, b: string) returns (i1: nat, i2: nat, i3: nat, i4: nat)
    requires OccursAt(text, "HTTP/" + (a + ("." + (b + "\r\n"))), i)
    ensures i1 == i + 5 && i2 == i1 + |a| && i3 == i2 + 1 && i4 == i3 + |b|
    ensures OccursAt(text, "HTTP/", i) && OccursAt(text, a, i1) && OccursAt(text, ".", i2)
    ensures OccursAt(text, b, i3) && OccursAt(text, "\r\n", i4)
    ensures text[i2] == '.' && text[i4] == '\r'
    ensures i + |"HTTP/" + (a + ("." + (b + "\r\n")))| == i4 + 2
  {
    i1 := i + 5;
    i2 := i1 + |a|;
    i3 := i2 + 1;
    i4 := i3 + |b|;
    OccursSplit(text, "HTTP/", a + ("." + (b + "\r\n")), i);
    OccursSplit(text, a, "." + (b + "\r\n"), i1);
    OccursSplit(text, ".", b + "\r\n", i2);
    OccursSplit(text, b, "\r\n", i3);
    OccursChar(text, ".", i2, 0);
    OccursChar(text, "\r\n", i4, 0);
  }

  /** `'HTTP/' version crnl` reads back the version it writes. */
  lemma ProtocolAt(text: string, line: int, i: nat, j: nat, major: nat, minor: nat)
    requires Terminated(text) && OccursAt(text, ProtocolText(major, minor), i)
    requires j == i + |ProtocolText(major, minor)| && j < |text|
    ensures Protocol(State(text, i, line)) == Succeeded(State(text, j, line), (major, minor))
  {
    var a, b := Dec(major), Dec(minor);
    DecNumeral(major);
    DecNumeral(minor);
    var i1, i2, i3, i4 := ProtocolPieces(text, i, a, b);
    var i5 := j;
    LitAt("HTTP/", text, line, i, i1);
    IntegerAt(text, line, i1, i2, a, major);
    LitAt(".", text, line, i2, i3);
    IntegerAt(text, line, i3, i4, b, minor);
    CrnlAt(text, line, i4, i5);
    VersionCompose(text, line, i1, i2, i3, i4, major, minor);
    ProtocolCompose(text, line, i, i1, i4, i5, major, minor);
  }

  lemma MethodCompose(text: string, line: int, i: nat, j1: nat, j2: nat, j3: nat, j4: nat, j5: nat,
                      verb: string, gap1: string, url: string, gap2: string, major: nat, minor: nat)
    requires Terminated(text) && i < |text|
    requires Identifier(State(text, i, line)) == Succeeded(State(text, j1, line), verb)
    requires Lws(State(text, j1, line)) == Succeeded(State(text, j2, line), gap1)
    requires Url(State(text, j2, line)) == Succeeded(State(text, j3, line), url)
    requires Lws(State(text, j3, line)) == Succeeded(State(text, j4, line), gap2)
    requires Protocol(State(text, j4, line)) == Succeeded(State(text, j5, line), (major, minor))
    ensures Method(State(text, i, line))
         == Succeeded(State(text, j5, line), RequestLine(verb, url, major, minor))
  {
  }

  /** Where the pieces of a request line lie when the whole lies at `i`,
      and the first character of each. */
  lemma LinePieces(text: string, i: nat, r: RawRequest) returns (i1: nat, i2: nat, i3: nat, i4: nat)
    requires OccursAt(text, LineText(r), i)
    requires |r.gap1| >= 1 && |r.url| >= 1 && |r.gap2| >= 1
    ensures i1 == i + |r.verb| && i2 == i1 + |r.gap1| && i3 == i2 + |r.url| && i4 == i3 + |r.gap2|
    ensures i + |LineText(r)| == i4 + |ProtocolText(r.major, r.minor)|
    ensures OccursAt(text, r.verb, i) && OccursAt(text, r.gap1, i1) && OccursAt(text, r.url, i2)
    ensures OccursAt(text, r.gap2, i3) && OccursAt(text, ProtocolText(r.major, r.minor), i4)
    ensures text[i1] == r.gap1[0] && text[i2] == r.url[0] && text[i3] == r.gap2[0] && text[i4] == 'H'
  {
    var p := ProtocolText(r.major, r.minor);
    i1 := i + |r.verb|;
    OccursSplit(text, r.verb, r.gap1 + (r.url + (r.gap2 + p)), i);
    i2, i3, i4 := GapsPieces(text, i1, r.gap1, r.url, r.gap2, p);
  }

  /** The part of `LinePieces` after the method name, over plain strings. */
  lemma GapsPieces(text: string, i1: nat, g1: string, u: string, g2: string, p: string)
    returns (i2: nat, i3: nat, i4: nat)
    requires OccursAt(text, g1 + (u + (g2 + p)), i1)
    requires |g1| >= 1 && |u| >= 1 && |g2| >= 1 && |p| >= 1
    ensures i2 == i1 + |g1| && i3 == i2 + |u| && i4 == i3 + |g2|
    ensures OccursAt(text, g1, i1) && OccursAt(text, u, i2) && OccursAt(text, g2, i3) && OccursAt(text, p, i4)
    ensures text[i1] == g1[0] && text[i2] == u[0] && text[i3] == g2[0] && text[i4] == p[0]
  {
    i2 := i1 + |g1|;
    i3 := i2 + |u|;
    i4 := i3 + |g2|;
    OccursSplit(text, g1, u + (g2 + p), i1);
    OccursSplit(text, u, g2 + p, i2);
    OccursSplit(text, g2, p, i3);
    OccursChar(text, g1, i1, 0);
    OccursChar(text, u, i2, 0);
    OccursChar(text, g2, i3, 0);
    OccursChar(text, p, i4, 0);
  }

  /** A well-formed request line reads back its method, URL and version. */
  lemma MethodAt(text: string, line: int, i: nat, i5: nat, r: RawRequest, rl: RequestLine)
    requires Terminated(text) && GoodLine(r)
    requires OccursAt(text, LineText(r), i) && i5 == i + |LineText(r)| && i5 < |text|
    requires rl == RequestLine(r.verb, r.url, r.major, r.minor)
    ensures Method(State(text, i, line)) == Succeeded(State(text, i5, line), rl)
  {
    var i1, i2, i3, i4 := LinePieces(text, i, r);
    IdentifierAt(text, line, i, i1, r.verb);
    LwsAt(text, line, i1, i2, r.gap1);
    UrlAt(text, line, i2, i3, r.url);
    LwsAt(text, line, i3, i4, r.gap2);
    ProtocolAt(text, line, i4, i5, r.major, r.minor);
    MethodCompose(text, line, i, i1, i2, i3, i4, i5, r.verb, r.gap1, r.url, r.gap2, r.major, r.minor);
  }

  // ---- headers --------------------------------------------------------------------

  lemma OccursFirst(text: string, a: string, i: nat)
    ensures OccursAt(text, a, i) && |a| >= 1 ==> text[i] == a[0]
  {
    if OccursAt(text, a, i) && |a| >= 1 {
      OccursChar(text, a, i, 0);
    }
  }

  lemma ContinuationCompose(text: string, line: int, i: nat, j1: nat, j2: nat, j3: nat, v: string, c: string)
    requires Terminated(text) && i < |text|
    requires Crnl(State(text, i, line)) == Succeeded(State(text, j1, line), "\r\n")
    requires text[j1] != EOT && IsBlank(text[j1]) && j2 == j1 + 1
    requires Value(State(text, j2, line)) == Succeeded(State(text, j3, line), v)
    requires c == " " + Trim(v)
    ensures Continuation(State(text, i, line)) == Succeeded(State(text, j3, line), c)
  {
  }

  lemma ContinuationsCons(text: string, line: int, i: nat, j: nat, e: nat, c: string, rest: seq<string>)
    requires Terminated(text) && i < |text|
    requires Continuation(State(text, i, line)) == Succeeded(State(text, j, line), c)
    requires Continuations(State(text, j, line)) == (rest, State(text, e, line))
    ensures Continuations(State(text, i, line)) == ([c] + rest, State(text, e, line))
  {
  }

  /** No continuation follows a CR LF whose next character is not a blank. */
  lemma ContinuationStops(text: string, line: int, i: nat, f: nat)
    requires Terminated(text) && OccursAt(text, "\r\n", i) && f == i + 2 && f < |text|
    requires !IsBlank(text[f])
    ensures Continuation(State(text, i, line)).Failed?
  {
    CrnlAt(text, line, i, f);
  }

  /** Where the first continuation line and the rest lie. */
  lemma ContinuationPieces(text: string, i: nat, cs: seq<string>, e: nat) returns (i1: nat, i2: nat, i3: nat)
    requires |cs| >= 1 && |cs[0]| >= 1
    requires OccursAt(text, ContText(cs), i) && e == i + |ContText(cs)| && OccursAt(text, "\r\n", e)
    ensures i1 == i + 2 && i2 == i1 + 1 && i3 == i1 + |cs[0]| && e == i3 + |ContText(cs[1..])|
    ensures OccursAt(text, "\r\n", i) && OccursAt(text, cs[0][1..], i2)
    ensures OccursAt(text, ContText(cs[1..]), i3)
    ensures text[i1] == cs[0][0] && text[i3] == '\r'
  {
    i1 := i + 2;
    i2 := i1 + 1;
    i3 := i1 + |cs[0]|;
    OccursSplit(text, "\r\n", cs[0] + ContText(cs[1..]), i);
    OccursSplit(text, cs[0], ContText(cs[1..]), i1);
    assert cs[0] == [cs[0][0]] + cs[0][1..];
    OccursSplit(text, [cs[0][0]], cs[0][1..], i1);
    OccursChar(text, cs[0], i1, 0);
    OccursFirst(text, "\r\n", e);
    if |cs| >= 2 {
      OccursChar(text, ContText(cs[1..]), i3, 0);
    }
  }

  /** `continuation*` reads back every well-formed continuation line and
      stops at the CR LF that ends the header. */
  lemma GoodContinuationsSplit(cs: seq<string>)
    requires |cs| >= 1 && GoodContinuations(cs)
    ensures GoodContinuation(cs[0]) && GoodContinuations(cs[1..])
  {
    assert forall k :: 0 <= k < |cs| - 1 ==> cs[1..][k] == cs[k + 1];
  }

  /** `continuation*` reads back every well-formed continuation line and
      stops at the CR LF that ends the header. */
  lemma {:induction false} ContinuationsAt(text: string, line: int, i: nat, e: nat, f: nat,
                                           cs: seq<string>, cm: seq<string>)
    requires Terminated(text) && GoodContinuations(cs)
    requires OccursAt(text, ContText(cs), i) && e == i + |ContText(cs)| && OccursAt(text, "\r\n", e)
    requires f == e + 2 && f < |text| && !IsBlank(text[f])
    requires cm == ContMeanings(cs)
    ensures Continuations(State(text, i, line)) == (cm, State(text, e, line))
    decreases |cs|
  {
    if |cs| == 0 {
      ContinuationStops(text, line, i, f);
    } else {
      GoodContinuationsSplit(cs);
      var i1, i2, i3 := ContinuationPieces(text, i, cs, e);
      var v := cs[0][1..];
      var c := " " + Trim(v);
      var rest := ContMeanings(cs[1..]);
      ContinuationsAt(text, line, i3, e, f, cs[1..], rest);
      CrnlAt(text, line, i, i1);
      ValueAt(text, line, i2, i3, v);
      ContinuationCompose(text, line, i, i1, i2, i3, v, c);
      ContinuationsCons(text, line, i, i3, e, c, rest);
    }
  }

  lemma HeaderCompose(text: string, line: int, i: nat, j1: nat, j2: nat, j3: nat, j4: nat, j5: nat,
                      name: string, v: string, conts: seq<string>, hv: (string, string))
    requires Terminated(text) && i < |text|
    requires Name(State(text, i, line)) == Succeeded(State(text, j1, line), name)
    requires Lit(":", State(text, j1, line)) == Succeeded(State(text, j2, line), ":")
    requires Value(State(text, j2, line)) == Succeeded(State(text, j3, line), v)
    requires Continuations(State(text, j3, line)) == (conts, State(text, j4, line))
    requires Crnl(State(text, j4, line)) == Succeeded(State(text, j5, line), "\r\n")
    requires hv == (ToLower(name), Trim(v) + Join(conts, ""))
    ensures Header(State(text, i, line)) == Succeeded(State(text, j5, line), hv)
  {
  }

  /** Where the pieces of a header lie when the whole lies at `i`. */
  lemma HeaderPieces(text: string, i: nat, h: RawHeader) returns (i1: nat, i2: nat, i3: nat, i4: nat)
    requires OccursAt(text, HeaderText(h), i)
    ensures i1 == i + |h.name| && i2 == i1 + 1 && i3 == i2 + |h.value|
    ensures i4 == i3 + |ContText(h.continuations)| && i + |HeaderText(h)| == i4 + 2
    ensures OccursAt(text, h.name, i) && OccursAt(text, ":", i1) && OccursAt(text, h.value, i2)
    ensures OccursAt(text, ContText(h.continuations), i3) && OccursAt(text, "\r\n", i4)
    ensures text[i1] == ':' && text[i3] == '\r'
  {
    var c := ContText(h.continuations);
    assert |c| == 0 || c[0] == '\r';
    i1, i2, i3, i4 := FieldPieces(text, i, h.name, h.value, c);
  }

  /** `HeaderPieces` over plain strings: `name:value` followed by the
      continuation text `c` and a line end. */
  lemma FieldPieces(text: string, i: nat, name: string, value: string, c: string)
    returns (i1: nat, i2: nat, i3: nat, i4: nat)
    requires OccursAt(text, name + (":" + (value + (c + "\r\n"))), i)
    requires |c| == 0 || c[0] == '\r'
    ensures i1 == i + |name| && i2 == i1 + 1 && i3 == i2 + |value| && i4 == i3 + |c|
    ensures i + |name + (":" + (value + (c + "\r\n")))| == i4 + 2
    ensures OccursAt(text, name, i) && OccursAt(text, ":", i1) && OccursAt(text, value, i2)
    ensures OccursAt(text, c, i3) && OccursAt(text, "\r\n", i4)
    ensures text[i1] == ':' && text[i3] == '\r'
  {
    i1 := i + |name|;
    i2 := i1 + 1;
    i3 := i2 + |value|;
    i4 := i3 + |c|;
    OccursSplit(text, name, ":" + (value + (c + "\r\n")), i);
    OccursSplit(text, ":", value + (c + "\r\n"), i1);
    OccursSplit(text, value, c + "\r\n", i2);
    OccursSplit(text, c, "\r\n", i3);
    OccursChar(text, ":", i1, 0);
    OccursChar(text, c + "\r\n", i3, 0);
  }

  /** A well-formed header reads back its meaning when the character after
      it does not start a continuation line. */
  lemma HeaderAt(text: string, line: int, i: nat, i5: nat, h: RawHeader, hv: (string, string))
    requires Terminated(text) && GoodHeader(h)
    requires OccursAt(text, HeaderText(h), i) && i5 == i + |HeaderText(h)| && i5 < |text|
    requires !IsBlank(text[i5]) && hv == HeaderMeaning(h)
    ensures Header(State(text, i, line)) == Succeeded(State(text, i5, line), hv)
  {
    var i1, i2, i3, i4 := HeaderPieces(text, i, h);
    var cm := ContMeanings(h.continuations);
    NameAt(text, line, i, i1, h.name);
    LitAt(":", text, line, i1, i2);
    ValueAt(text, line, i2, i3, h.value);
    ContinuationsAt(text, line, i3, i4, i5, h.continuations, cm);
    CrnlAt(text, line, i4, i5);
    HeaderCompose(text, line, i, i1, i2, i3, i4, i5, h.name, h.value, cm, hv);
  }

  /** The header grammar fails on text without a colon: the name runs to
      the sentinel, where the colon is missing. */
  lemma HeaderStops(text: string, line: int, i: nat, tail: string)
    requires Terminated(text) && OccursAt(text, tail, i) && i + |tail| == |text| - 1
    requires |tail| >= 1 && Every(IsNameChar, tail)
    ensures Header(State(text, i, line)).Failed?
  {
    var e := |text| - 1;
    Match1Exactly(IsNameChar, State(text, i, line), tail);
    OccursFirst(text, ":", e);
  }

  /** Where the first header and the rest lie, and the character after the
      first header. */
  lemma HeadersPieces(text: string, i: nat, e: nat, hs: seq<RawHeader>, tail: string) returns (j: nat)
    requires |hs| >= 1 && GoodHeaders(hs)
    requires OccursAt(text, HeadersText(hs), i) && e == i + |HeadersText(hs)| && OccursAt(text, tail, e)
    requires |tail| >= 1 && tail[0] == '\r'
    ensures j == i + |HeaderText(hs[0])| && j + |HeadersText(hs[1..])| == e
    ensures OccursAt(text, HeaderText(hs[0]), i) && OccursAt(text, HeadersText(hs[1..]), j)
    ensures j < |text| && !IsBlank(text[j])
  {
    j := i + |HeaderText(hs[0])|;
    OccursSplit(text, HeaderText(hs[0]), HeadersText(hs[1..]), i);
    if |hs| >= 2 {
      var rest := hs[1..];
      assert rest[0] == hs[1];
      OccursSplit(text, HeaderText(rest[0]), HeadersText(rest[1..]), j);
      OccursSplit(text, rest[0].name, ":" + (rest[0].value + (ContText(rest[0].continuations) + "\r\n")), j);
      OccursChar(text, rest[0].name, j, 0);
      assert GoodHeader(hs[1]);
    } else {
      assert HeadersText(hs[1..]) == "";
      OccursChar(text, tail, j, 0);
    }
  }

  lemma GoodHeadersSplit(hs: seq<RawHeader>)
    requires |hs| >= 1 && GoodHeaders(hs)
    ensures GoodHeader(hs[0]) && GoodHeaders(hs[1..])
  {
    assert forall k :: 0 <= k < |hs| - 1 ==> hs[1..][k] == hs[k + 1];
  }

  lemma HeadersCons(text: string, line: int, i: nat, j: nat, e: nat,
                    h: (string, string), rest: seq<(string, string)>)
    requires Terminated(text) && i < |text|
    requires Header(State(text, i, line)) == Succeeded(State(text, j, line), h)
    requires Headers(State(text, j, line)) == (rest, State(text, e, line))
    ensures Headers(State(text, i, line)) == ([h] + rest, State(text, e, line))
  {
  }

  /** `header*` reads back every well-formed header and stops at the blank
      line, provided nothing after it holds a colon. */
  lemma {:induction false} HeadersAt(text: string, line: int, i: nat, e: nat, hs: seq<RawHeader>,
                                     tail: string, hm: seq<(string, string)>)
    requires Terminated(text) && GoodHeaders(hs)
    requires OccursAt(text, HeadersText(hs), i) && e == i + |HeadersText(hs)| && OccursAt(text, tail, e)
    requires e + |tail| == |text| - 1
    requires |tail| >= 1 && tail[0] == '\r' && Every(IsNameChar, tail)
    requires hm == HeaderMeanings(hs)
    ensures Headers(State(text, i, line)) == (hm, State(text, e, line))
    decreases |hs|
  {
    if |hs| == 0 {
      HeaderStops(text, line, i, tail);
    } else {
      GoodHeadersSplit(hs);
      var j := HeadersPieces(text, i, e, hs, tail);
      var h := HeaderMeaning(hs[0]);
      var rest := HeaderMeanings(hs[1..]);
      HeadersAt(text, line, j, e, hs[1..], tail, rest);
      HeaderAt(text, line, i, j, hs[0], h);
      HeadersCons(text, line, i, j, e, h, rest);
    }
  }

  // ---- request ---------------------------------------------------------------------

  lemma MessageCompose(text: string, line: int, i: nat, j1: nat, j2: nat, j3: nat,
                       rl: RequestLine, hs: seq<(string, string)>, body: string)
    requires Terminated(text) && i < |text|
    requires Headers(State(text, i, line)) == (hs, State(text, j1, line))
    requires Crnl(State(text, j1, line)) == Succeeded(State(text, j2, line), "\r\n")
    requires Body(State(text, j2, line)) == Succeeded(State(text, j3, line), body)
    ensures Message(rl, State(text, i, line)) == Succeeded(State(text, j3, line),
      HttpRequest(rl.verb, rl.major, rl.minor, rl.url, Configuration.ToMap(hs), body))
  {
  }

  /** The text after the headers, a CR LF and a colon-free body, reads as
      a header name. */
  lemma TailNames(body: string)
    requires GoodBody(body)
    ensures Every(IsNameChar, "\r\n" + body) && ("\r\n" + body)[0] == '\r'
  {
    var t := "\r\n" + body;
    forall k | 2 <= k < |t|
      ensures t[k] != EOT && IsNameChar(t[k])
    {
      assert t[k] == body[k - 2];
    }
  }

  /** Where the headers, the blank line and the body lie. */
  lemma MessagePieces(text: string, i: nat, hs: seq<RawHeader>, body: string) returns (j1: nat, j2: nat)
    requires OccursAt(text, HeadersText(hs) + ("\r\n" + body), i)
    ensures j1 == i + |HeadersText(hs)| && j2 == j1 + 2
    ensures OccursAt(text, HeadersText(hs), i) && OccursAt(text, "\r\n" + body, j1)
    ensures OccursAt(text, "\r\n", j1) && OccursAt(text, body, j2)
  {
    j1 := i + |HeadersText(hs)|;
    j2 := j1 + 2;
    OccursSplit(text, HeadersText(hs), "\r\n" + body, i);
    OccursSplit(text, "\r\n", body, j1);
  }

  /** The headers, blank line and body of a well-formed request read back
      as its header map and body. */
  lemma MessageAt(text: string, line: int, i: nat, e: nat, hs: seq<RawHeader>, body: string,
                  rl: RequestLine, m: HttpRequest)
    requires Terminated(text) && GoodHeaders(hs) && GoodBody(body)
    requires OccursAt(text, HeadersText(hs) + ("\r\n" + body), i)
    requires e == |text| - 1 && i + |HeadersText(hs)| + 2 + |body| == e
    requires m == HttpRequest(rl.verb, rl.major, rl.minor, rl.url, Configuration.ToMap(HeaderMeanings(hs)), body)
    ensures Message(rl, State(text, i, line)) == Succeeded(State(text, e, line), m)
  {
    var j1, j2 := MessagePieces(text, i, hs, body);
    TailNames(body);
    HeadersAt(text, line, i, j1, hs, "\r\n" + body, HeaderMeanings(hs));
    CrnlAt(text, line, j1, j2);
    BodyAt(text, line, j2, e, body);
    MessageCompose(text, line, i, j1, j2, e, rl, HeaderMeanings(hs), body);
  }

  lemma RequestCompose(text: string, line: int, i: nat, j1: nat, j2: nat, rl: RequestLine, m: HttpRequest)
    requires Terminated(text) && i < |text|
    requires Method(State(text, i, line)) == Succeeded(State(text, j1, line), rl)
    requires Message(rl, State(text, j1, line)) == Succeeded(State(text, j2, line), m)
    ensures Request(State(text, i, line)) == Succeeded(State(text, j2, line), m)
  {
  }

  /** Where the request line and the rest of a serialised request lie. */
  lemma SerialisedPieces(r: RawRequest, text: string) returns (j: nat)
    requires text == Serialise(r) + [EOT]
    ensures Terminated(text) && j == |LineText(r)|
    ensures OccursAt(text, LineText(r), 0)
    ensures OccursAt(text, HeadersText(r.headers) + ("\r\n" + r.body), j)
    ensures j + |HeadersText(r.headers)| + 2 + |r.body| == |text| - 1
  {
    j := |LineText(r)|;
    var rest := HeadersText(r.headers) + ("\r\n" + r.body);
    assert text == LineText(r) + rest + [EOT];
    assert text[0..j] == LineText(r);
    assert text[j..j + |rest|] == rest;
  }

  /** The round trip: the parser reads any well-formed request back as
      the request it stands for. */
  lemma ParseSerialised(r: RawRequest)
    requires GoodRequest(r)
    ensures MakeParser(Serialise(r)) == Ok(Meaning(r))
  {
    var text := Serialise(r) + [EOT];
    var rl := RequestLine(r.verb, r.url, r.major, r.minor);
    var j := SerialisedPieces(r, text);
    var e := |text| - 1;
    var m := Meaning(r);
    MessageAt(text, 1, j, e, r.headers, r.body, rl, m);
    MethodAt(text, 1, 0, j, r, rl);
    RequestCompose(text, 1, 0, j, e, rl, m);
  }

  // ---- reading failures back ------------------------------------------------------

  /** `literal` at a place where only the first `n` characters of `lit`
      appear fails there, pointing at the first character that differs. */
  lemma LitFailsAt(lit: string, text: string, line: int, i: nat, n: nat)
    requires Terminated(text) && EOT !in lit && n < |lit| && i + n < |text|
    requires OccursAt(text, lit[..n], i) && text[i + n] != lit[n]
    ensures Lit(lit, State(text, i, line)) == Failed(State(text, i, line), State(text, i + n, line), Expected(lit))
  {
    OccursEvery(text, lit[..n], i);
    CommonIs(text, lit, i, 0, n);
  }

  /** `Common` stops at the first character that differs. */
  lemma {:induction false} CommonIs(text: string, lit: string, i: nat, k: nat, n: nat)
    requires i + n < |text| && k <= n < |lit| && text[i..i + k] == lit[..k]
    requires forall m :: i + k <= m < i + n ==> text[m] == lit[..n][m - i]
    requires text[i + n] != lit[n]
    ensures Common(text, lit, i, k) == n
    decreases n - k
  {
    if k < n {
      assert text[i + k] == lit[..n][k];
      assert text[i..i + k + 1] == text[i..i + k] + [text[i + k]];
      assert lit[..k + 1] == lit[..k] + [lit[k]];
      CommonIs(text, lit, i, k + 1, n);
    }
  }

  lemma ProtocolFails(text: string, line: int, i: nat, f: Status<string>)
    requires Terminated(text) && i < |text|
    requires Lit("HTTP/", State(text, i, line)) == f && f.Failed?
    ensures Protocol(State(text, i, line)) == Failed(State(text, i, line), f.errState, f.mesg)
  {
  }

  /** The request line fails where its protocol does. */
  lemma MethodFails(text: string, line: int, i: nat, j1: nat, j2: nat, j3: nat, j4: nat,
                    verb: string, gap1: string, url: string, gap2: string, f: Status<(nat, nat)>)
    requires Terminated(text) && i < |text|
    requires Identifier(State(text, i, line)) == Succeeded(State(text, j1, line), verb)
    requires Lws(State(text, j1, line)) == Succeeded(State(text, j2, line), gap1)
    requires Url(State(text, j2, line)) == Succeeded(State(text, j3, line), url)
    requires Lws(State(text, j3, line)) == Succeeded(State(text, j4, line), gap2)
    requires Protocol(State(text, j4, line)) == f && f.Failed?
    ensures Method(State(text, i, line)) == Failed(State(text, i, line), f.errState, f.mesg)
  {
  }

  lemma RequestFails(text: string, line: int, i: nat, f: Status<RequestLine>)
    requires Terminated(text) && i < |text|
    requires Method(State(text, i, line)) == f && f.Failed?
    ensures Request(State(text, i, line)) == Failed(State(text, i, line), f.errState, f.mesg)
  {
  }

  /** A failed parse gives its message and the line and column where the
      failure points. */
  lemma ParseFails(request: string, text: string, f: Status<HttpRequest>)
    requires text == request + [EOT]
    requires Request(State(text, 0, 1)) == f && f.Failed? && f.errState.index <= |text|
    ensures MakeParser(request)
         == Err(f.mesg + " on line " + Dec(Line(text, f.errState.index)) + " col " + Dec(Col(text, f.errState.index)))
  {
  }

  /** On the first line the column is one more than the index. */
  lemma FirstLine(text: string, e: nat)
    requires e <= |text|
    requires forall k :: 0 <= k < e ==> text[k] != '\r' && text[k] != '\n'
    ensures Line(text, e) == 1 && Col(text, e) == e + 1
  {
    NoLineBreaks(text, 0, e);
    FirstLineStart(text, e);
  }

  lemma {:induction false} FirstLineStart(text: string, e: nat)
    requires e <= |text|
    requires forall k :: 0 <= k < e ==> text[k] != '\r' && text[k] != '\n'
    ensures LineStart(text, e) == 0
    decreases e
  {
    if e > 0 {
      FirstLineStart(text, e - 1);
    }
  }
}

=== FILE: http_parser_tests.dfy ===
/** The request parser's unit tests, stated as lemmas about `MakeParser`. */
module HttpParserTests {
  import opened Results
  import opened Strings
  import opened Parsers
  import opened HttpParser
  import Configuration

  /** A well-formed request's text parses to its meaning. */
  lemma ParsesTo(request: string, raw: RawRequest, m: HttpRequest)
    requires GoodRequest(raw) && Serialise(raw) == request && m == Meaning(raw)
    ensures MakeParser(request) == Ok(m)
  {
    ParseSerialised(raw);
  }

  /** `test_get_method1`: a request line and no headers. */
  lemma GetMethod1(request: string, verb: string, url: string)
    requires request == "GET / HTTP/1.1\r\n\r\n" && verb == "GET" && url == "/"
    ensures MakeParser(request) == Ok(HttpRequest(verb, 1, 1, url, map[], ""))
  {
    var raw := RawRequest(verb, " ", url, " ", 1, 1, [], "");
    GetMethod1Raw(request, raw);
    ParsesTo(request, raw, HttpRequest(verb, 1, 1, url, map[], ""));
  }

  lemma GetMethod1Raw(request: string, raw: RawRequest)
    requires request == "GET / HTTP/1.1\r\n\r\n"
    requires raw == RawRequest("GET", " ", "/", " ", 1, 1, [], "")
    ensures GoodRequest(raw) && Serialise(raw) == request
    ensures Meaning(raw) == HttpRequest(raw.verb, 1, 1, raw.url, map[], "")
  {
    LineGet(raw);
    assert HeaderMeanings([]) == [];
  }

  /** `test_body`: one header, then a body running to the end of the text. */
  lemma BodyText(request: string, verb: string, host: string, body: string)
    requires verb == "GET" && host == "xxx" && body == "some text\nand more text"
    requires request == "GET / HTTP/1.1\r\n" + ("Host: xxx\r\n" + ("\r\n" + body))
    ensures MakeParser(request) == Ok(HttpRequest(verb, 1, 1, "/", map["host" := host], body))
  {
    var h := RawHeader("Host", " " + host, []);
    var raw := RawRequest(verb, " ", "/", " ", 1, 1, [h], body);
    LineGet(raw);
    HostRequest(request, "GET / HTTP/1.1\r\n", raw, h, host, body);
    ParsesTo(request, raw, HttpRequest(verb, 1, 1, "/", map["host" := host], body));
  }

  /** `test_extension_method`: a method the standard does not name, with
      blanks of both kinds after it, keeps its spelling. */
  lemma ExtensionMethod(request: string, verb: string, host: string, body: string)
    requires verb == "Explode" && host == "xxx" && body == "some text\nand more text"
    requires request == "Explode \t / HTTP/1.1\r\n" + ("Host: xxx\r\n" + ("\r\n" + body))
    ensures MakeParser(request) == Ok(HttpRequest(verb, 1, 1, "/", map["host" := host], body))
  {
    var h := RawHeader("Host", " " + host, []);
    var raw := RawRequest(verb, " \t ", "/", " ", 1, 1, [h], body);
    LineExplode(raw);
    HostRequest(request, "Explode \t / HTTP/1.1\r\n", raw, h, host, body);
    ParsesTo(request, raw, HttpRequest(verb, 1, 1, "/", map["host" := host], body));
  }

  /** The request line `Explode \t / HTTP/1.1`. */
  lemma LineExplode(raw: RawRequest)
    requires raw.verb == "Explode" && raw.gap1 == " \t " && raw.url == "/" && raw.gap2 == " "
    requires raw.major == 1 && raw.minor == 1
    ensures LineText(raw) == "Explode \t / HTTP/1.1\r\n" && GoodLine(raw)
  {
    assert Dec(1) == "1";
    assert IsIdentifier(raw.verb);
  }

  /** A request line, a `Host` header and a body. */
  lemma HostRequest(request: string, line: string, raw: RawRequest, h: RawHeader, host: string, body: string)
    requires host == "xxx" && body == "some text\nand more text"
    requires LineText(raw) == line && GoodLine(raw)
    requires request == line + ("Host: xxx\r\n" + ("\r\n" + body))
    requires h == RawHeader("Host", " " + host, [])
    requires raw.headers == [h] && raw.body == body && raw.major == 1 && raw.minor == 1
    ensures GoodRequest(raw) && Serialise(raw) == request
    ensures Meaning(raw) == HttpRequest(raw.verb, 1, 1, raw.url, map["host" := host], body)
  {
    HostLine(raw, h, host);
    assert GoodRequest(raw) by {
      assert GoodHeader(h);
      TextBody(body);
    }
    HostMeaning(h, host);
  }

  /** The header of `test_body` as written. */
  lemma HostLine(raw: RawRequest, h: RawHeader, host: string)
    requires host == "xxx" && h == RawHeader("Host", " " + host, []) && raw.headers == [h]
    ensures Serialise(raw) == LineText(raw) + ("Host: xxx\r\n" + ("\r\n" + raw.body))
  {
    assert HeadersText([h]) == "Host: xxx\r\n" by {
      assert [h][1..] == [];
    }
  }

  lemma TextBody(b: string)
    requires b == "some text\nand more text"
    ensures GoodBody(b)
  {
    assert forall k :: 0 <= k < |b| ==> b[k] != ':' && IsBodyChar(b[k]) && b[k] != EOT;
  }

  /** A `Host` header written with one leading space means `host`. */
  lemma HostMeaning(h: RawHeader, host: string)
    requires h == RawHeader("Host", " " + host, []) && host == "xxx"
    ensures Configuration.ToMap(HeaderMeanings([h])) == map["host" := host]
  {
    TrimAround(" ", host, "");
    assert " " + host + "" == h.value;
    assert ToLower(h.name) == "host";
    assert Join(ContMeanings([]), "") == "";
    assert Trim(h.value) == host;
    assert Trim(h.value) + "" == host;
    assert HeaderMeaning(h) == ("host", host);
    assert [h][1..] == [];
    assert HeaderMeanings([h]) == [("host", host)];
    ToMapOne("host", host);
  }

  lemma ToMapOne(k: string, v: string)
    ensures Configuration.ToMap([(k, v)]) == map[k := v]
  {
    assert [(k, v)][..0] == [];
  }

  /** `test_header_values`: values lose the blanks around them, and
      continuation lines join the value with one space each. */
  lemma HeaderValues(request: string, host: string, blah: string, multi: string)
    requires host == "Host:   \t xxx\r\n" && blah == "Blah:   \t bbb \t\r\n"
    requires multi == "Multi: line1\r\n  \tline2\r\n  line3\r\n"
    requires request == "GET / HTTP/1.1\r\n" + ((host + (blah + (multi + ""))) + ("\r\n" + ""))
    ensures MakeParser(request)
         == Ok(HttpRequest("GET", 1, 1, "/", map["host" := "xxx", "blah" := "bbb", "multi" := "line1 line2 line3"], ""))
  {
    var h1 := RawHeader("Host", "   \t xxx", []);
    var h2 := RawHeader("Blah", "   \t bbb \t", []);
    var h3 := RawHeader("Multi", " line1", ["  \tline2", "  line3"]);
    var raw := RawRequest("GET", " ", "/", " ", 1, 1, [h1, h2, h3], "");
    HostHeader(h1, host);
    BlahHeader(h2, blah);
    MultiHeader(h3, multi);
    ThreeHeaders(h1, h2, h3, "host", "xxx", "blah", "bbb", "multi", "line1 line2 line3");
    RequestOf(raw, request, host + (blah + (multi + "")));
    ParsesTo(request, raw,
      HttpRequest("GET", 1, 1, "/", map["host" := "xxx", "blah" := "bbb", "multi" := "line1 line2 line3"], ""));
  }

  /** `GET / HTTP/1.1`, the given headers and an empty body. */
  lemma RequestOf(raw: RawRequest, request: string, headers: string)
    requires raw.verb == "GET" && raw.gap1 == " " && raw.url == "/" && raw.gap2 == " "
    requires raw.major == 1 && raw.minor == 1 && raw.body == ""
    requires HeadersText(raw.headers) == headers && GoodHeaders(raw.headers)
    requires request == "GET / HTTP/1.1\r\n" + (headers + ("\r\n" + ""))
    ensures Serialise(raw) == request && GoodRequest(raw)
  {
    LineGet(raw);
    assert GoodBody(raw.body);
  }

  /** The request line `GET / HTTP/1.1`. */
  lemma LineGet(raw: RawRequest)
    requires raw.verb == "GET" && raw.gap1 == " " && raw.url == "/" && raw.gap2 == " "
    requires raw.major == 1 && raw.minor == 1
    ensures LineText(raw) == "GET / HTTP/1.1\r\n" && GoodLine(raw)
  {
    assert Dec(1) == "1";
    assert IsIdentifier(raw.verb);
  }

  /** Three headers: their text, their well-formedness and the map they
      stand for. */
  lemma ThreeHeaders(h1: RawHeader, h2: RawHeader, h3: RawHeader,
                     n1: string, v1: string, n2: string, v2: string, n3: string, v3: string)
    requires HeaderMeaning(h1) == (n1, v1) && HeaderMeaning(h2) == (n2, v2) && HeaderMeaning(h3) == (n3, v3)
    requires GoodHeader(h1) && GoodHeader(h2) && GoodHeader(h3)
    ensures HeadersText([h1, h2, h3]) == HeaderText(h1) + (HeaderText(h2) + (HeaderText(h3) + ""))
    ensures GoodHeaders([h1, h2, h3])
    ensures Configuration.ToMap(HeaderMeanings([h1, h2, h3])) == map[n1 := v1, n2 := v2, n3 := v3]
  {
    ThreeParts(h1, h2, h3);
    ThreeMap((n1, v1), (n2, v2), (n3, v3));
  }

  lemma ThreeParts(h1: RawHeader, h2: RawHeader, h3: RawHeader)
    ensures HeadersText([h1, h2, h3]) == HeaderText(h1) + (HeaderText(h2) + (HeaderText(h3) + ""))
    ensures HeaderMeanings([h1, h2, h3]) == [HeaderMeaning(h1), HeaderMeaning(h2), HeaderMeaning(h3)]
    ensures GoodHeader(h1) && GoodHeader(h2) && GoodHeader(h3) ==> GoodHeaders([h1, h2, h3])
  {
    SeqThree(h1, h2, h3);
    HeadersCons(h3, []);
    HeadersCons(h2, [h3]);
    HeadersCons(h1, [h2, h3]);
    GoodHeadersCons(h3, []);
    GoodHeadersCons(h2, [h3]);
    GoodHeadersCons(h1, [h2, h3]);
  }

  /** Only evaluates a sequence literal: the tail steps of a three-element list. */
  lemma SeqThree<T>(a: T, b: T, c: T)
    ensures [a, b, c] == [a] + [b, c] && [b, c] == [b] + [c] && [c] == [c] + []
  {
  }

  lemma GoodHeadersCons(h: RawHeader, rest: seq<RawHeader>)
    ensures GoodHeader(h) && GoodHeaders(rest) ==> GoodHeaders([h] + rest)
  {
    if GoodHeader(h) && GoodHeaders(rest) {
      forall k | 0 <= k < |[h] + rest| ensures GoodHeader(([h] + rest)[k]) {
        if k > 0 {
          assert ([h] + rest)[k] == rest[k - 1];
        }
      }
    }
  }

  lemma ThreeMap(p1: (string, string), p2: (string, string), p3: (string, string))
    ensures Configuration.ToMap([p1, p2, p3]) == map[p1.0 := p1.1, p2.0 := p2.1, p3.0 := p3.1]
  {
    assert [p1, p2, p3] == [p1] + [p2] + [p3];
    ToMapSnoc([], p1.0, p1.1);
    ToMapSnoc([p1], p2.0, p2.1);
    ToMapSnoc([p1] + [p2], p3.0, p3.1);
  }

  /** The text and meaning of a header list, one header at a time. */
  lemma HeadersCons(h: RawHeader, rest: seq<RawHeader>)
    ensures HeadersText([h] + rest) == HeaderText(h) + HeadersText(rest)
    ensures HeaderMeanings([h] + rest) == [HeaderMeaning(h)] + HeaderMeanings(rest)
  {
    assert ([h] + rest)[1..] == rest;
  }

  /** A later pair overrides an earlier one in `ToMap`. */
  lemma ToMapSnoc(ps: seq<(string, string)>, k: string, v: string)
    ensures Configuration.ToMap(ps + [(k, v)]) == Configuration.ToMap(ps)[k := v]
  {
    assert (ps + [(k, v)])[..|ps|] == ps;
  }

  lemma HostHeader(h: RawHeader, line: string)
    requires h == RawHeader("Host", "   \t xxx", []) && line == "Host:   \t xxx\r\n"
    ensures HeaderText(h) == line && GoodHeader(h) && HeaderMeaning(h) == ("host", "xxx")
  {
    assert HeaderText(h) == line by {
      assert ContText([]) == "";
    }
    assert GoodHeader(h) by {
      ValueChars(h.value);
    }
    PlainMeaning(h, "host", "   \t ", "xxx", "");
  }

  lemma BlahHeader(h: RawHeader, line: string)
    requires h == RawHeader("Blah", "   \t bbb \t", []) && line == "Blah:   \t bbb \t\r\n"
    ensures HeaderText(h) == line && GoodHeader(h) && HeaderMeaning(h) == ("blah", "bbb")
  {
    assert HeaderText(h) == line by {
      assert ContText([]) == "";
    }
    assert GoodHeader(h) by {
      ValueChars(h.value);
    }
    PlainMeaning(h, "blah", "   \t ", "bbb", " \t");
  }

  /** The meaning of a header without continuation lines whose value is
      `word` between blanks. */
  lemma PlainMeaning(h: RawHeader, lower: string, pre: string, word: string, post: string)
    requires h.continuations == [] && ToLower(h.name) == lower && h.value == pre + word + post
    requires forall k :: 0 <= k < |pre| ==> IsWhitespace(pre[k])
    requires forall k :: 0 <= k < |post| ==> IsWhitespace(post[k])
    requires |word| >= 1 && !IsWhitespace(word[0]) && !IsWhitespace(word[|word| - 1])
    ensures HeaderMeaning(h) == (lower, word)
  {
    TrimAround(pre, word, post);
    assert Join(ContMeanings([]), "") == "";
    assert word + "" == word;
  }

  /** No character of `v` ends a line or is the sentinel. */
  lemma ValueChars(v: string)
    requires forall k :: 0 <= k < |v| ==> v[k] == ' ' || v[k] == '\t' || 'a' <= v[k] <= 'z' || '0' <= v[k] <= '9'
    ensures Every(IsValueChar, v)
  {
  }

  lemma MultiHeader(h: RawHeader, line: string)
    requires h == RawHeader("Multi", " line1", ["  \tline2", "  line3"])
    requires line == "Multi: line1\r\n  \tline2\r\n  line3\r\n"
    ensures HeaderText(h) == line && GoodHeader(h) && HeaderMeaning(h) == ("multi", "line1 line2 line3")
  {
    var c1, c2 := h.continuations[0], h.continuations[1];
    MultiPieces(h, c1, c2);
    ContTwo(h.continuations, c1, c2);
    MultiLine(h.name, h.value, c1, c2, line);
    MultiGood(h);
    MultiMeaning(h);
  }

  /** The text of two continuation lines. */
  lemma ContTwo(cs: seq<string>, c1: string, c2: string)
    requires cs == [c1, c2]
    ensures ContText(cs) == "\r\n" + (c1 + ("\r\n" + (c2 + "")))
  {
    assert cs[1..] == [c2] && [c2][1..] == [];
    assert ContText([c2]) == "\r\n" + (c2 + ContText([]));
    assert ContText(cs) == "\r\n" + (c1 + ContText([c2]));
  }

  /** Only evaluates the string literals of the multi-line header of these tests. */
  lemma MultiLine(name: string, value: string, c1: string, c2: string, line: string)
    requires name == "Multi" && value == " line1" && c1 == "  \tline2" && c2 == "  line3"
    requires line == "Multi: line1\r\n  \tline2\r\n  line3\r\n"
    ensures name + (":" + (value + (("\r\n" + (c1 + ("\r\n" + (c2 + "")))) + "\r\n"))) == line
  {
  }

  lemma MultiGood(h: RawHeader)
    requires h == RawHeader("Multi", " line1", ["  \tline2", "  line3"])
    ensures GoodHeader(h)
  {
    ValueChars(h.value);
    GoodTwoContinuations(h.continuations);
  }

  lemma GoodTwoContinuations(cs: seq<string>)
    requires cs == ["  \tline2", "  line3"]
    ensures GoodContinuations(cs)
  {
    ValueChars(cs[0][1..]);
    ValueChars(cs[1][1..]);
    assert GoodContinuation(cs[0]) && GoodContinuation(cs[1]);
  }

  lemma MultiMeaning(h: RawHeader)
    requires h == RawHeader("Multi", " line1", ["  \tline2", "  line3"])
    ensures HeaderMeaning(h) == ("multi", "line1 line2 line3")
  {
    var c1, c2 := h.continuations[0], h.continuations[1];
    var first, w1, w2 := "line1", "line2", "line3";
    MultiPieces(h, c1, c2);
    TrimWord(h.value, first);
    TrimWord(c1[1..], w1);
    TrimWord(c2[1..], w2);
    ContMeaningsTwo(h.continuations, c1, c2, w1, w2);
    JoinedWords(first, w1, w2, "line1 line2 line3");
    LowerName(h.name, "multi");
    MeaningIs(h, "multi", first, [" " + w1, " " + w2], "line1 line2 line3");
  }

  lemma MultiPieces(h: RawHeader, c1: string, c2: string)
    requires h == RawHeader("Multi", " line1", ["  \tline2", "  line3"])
    requires c1 == h.continuations[0] && c2 == h.continuations[1]
    ensures h.continuations == [c1, c2] && c1[1..] == " \tline2" && c2[1..] == " line3"
    ensures h.value == " line1"
  {
  }

  /** The values of `test_header_values` trim to their words. */
  lemma TrimWord(v: string, w: string)
    requires (v == " line1" && w == "line1") || (v == " \tline2" && w == "line2") || (v == " line3" && w == "line3")
    ensures Trim(v) == w
  {
    if v == " line1" {
      PlainWord(v, " ", w, "");
    } else if v == " \tline2" {
      PlainWord(v, " \t", w, "");
    } else {
      PlainWord(v, " ", w, "");
    }
  }

  /** Only evaluates string literals: the lower-case form of the header
      names of these tests. */
  lemma LowerName(name: string, lower: string)
    requires (name == "Multi" && lower == "multi") || (name == "Host" && lower == "host")
          || (name == "Blah" && lower == "blah")
    ensures ToLower(name) == lower
  {
  }

  lemma JoinedWords(first: string, w1: string, w2: string, value: string)
    requires first == "line1" && w1 == "line2" && w2 == "line3" && value == "line1 line2 line3"
    ensures first + Join([" " + w1, " " + w2], "") == value
  {
    JoinTwo(" " + w1, " " + w2, "");
  }

  /** A header's meaning from its parts. */
  lemma MeaningIs(h: RawHeader, lower: string, first: string, conts: seq<string>, value: string)
    requires ToLower(h.name) == lower && Trim(h.value) == first
    requires ContMeanings(h.continuations) == conts && first + Join(conts, "") == value
    ensures HeaderMeaning(h) == (lower, value)
  {
  }

  lemma ContMeaningsTwo(cs: seq<string>, c1: string, c2: string, w1: string, w2: string)
    requires cs == [c1, c2] && |c1| >= 1 && |c2| >= 1
    requires Trim(c1[1..]) == w1 && Trim(c2[1..]) == w2
    ensures ContMeanings(cs) == [" " + w1, " " + w2]
  {
    assert cs[1..] == [c2] && [c2][1..] == [];
    assert ContMeanings([c2]) == [" " + Trim(c2[1..])] + ContMeanings([]);
    assert ContMeanings(cs) == [" " + Trim(c1[1..])] + ContMeanings([c2]);
  }

  /** `v` is `word` between blanks, so it trims to `word`. */
  lemma PlainWord(v: string, pre: string, word: string, post: string)
    requires v == pre + word + post
    requires forall k :: 0 <= k < |pre| ==> IsWhitespace(pre[k])
    requires forall k :: 0 <= k < |post| ==> IsWhitespace(post[k])
    requires |word| >= 1 && !IsWhitespace(word[0]) && !IsWhitespace(word[|word| - 1])
    ensures Trim(v) == word
  {
    TrimAround(pre, word, post);
  }

  /** `test_unknown_method`: a misspelt protocol is reported at the first
      character that differs. */
  lemma UnknownMethod(request: string)
    requires request == "GET / HXTP/1.1\r\n\r\n"
    ensures MakeParser(request) == Err("Expected 'HTTP/' on line 1 col 8")
  {
    var text := request + [EOT];
    UnknownPieces(request, text);
    ProtocolMisspelt(request, text);
    UnknownMessage();
  }

  /** A request line `GET / ` followed by a protocol whose second character
      is wrong fails at index 7 of the first line. */
  lemma ProtocolMisspelt(request: string, text: string)
    requires text == request + [EOT]
    requires Terminated(text) && |text| > 8
    requires OccursAt(text, "GET", 0) && IsIdentifier("GET") && !IsIdentChar(text[3])
    requires OccursAt(text, " ", 3) && Every(IsBlank, " ") && !IsBlank(text[4])
    requires OccursAt(text, "/", 4) && Every(IsNotSpace, "/") && text[5] == ' '
    requires OccursAt(text, " ", 5) && !IsBlank(text[6])
    requires EOT !in "HTTP/" && OccursAt(text, "HTTP/"[..1], 6) && text[7] != "HTTP/"[1]
    requires forall k :: 0 <= k < 7 ==> text[k] != '\r' && text[k] != '\n'
    ensures MakeParser(request) == Err(Expected("HTTP/") + " on line " + Dec(1) + " col " + Dec(8))
  {
    IdentifierAt(text, 1, 0, 3, "GET");
    LwsAt(text, 1, 3, 4, " ");
    UrlAt(text, 1, 4, 5, "/");
    LwsAt(text, 1, 5, 6, " ");
    LitFailsAt("HTTP/", text, 1, 6, 1);
    ProtocolFails(text, 1, 6, Lit("HTTP/", State(text, 6, 1)));
    MethodFails(text, 1, 0, 3, 4, 5, 6, "GET", " ", "/", " ", Protocol(State(text, 6, 1)));
    RequestFails(text, 1, 0, Method(State(text, 0, 1)));
    ParseFails(request, text, Request(State(text, 0, 1)));
    FirstLine(text, 7);
  }

  lemma UnknownPieces(request: string, text: string)
    requires request == "GET / HXTP/1.1\r\n\r\n" && text == request + [EOT]
    ensures Terminated(text) && |text| > 8
    ensures OccursAt(text, "GET", 0) && IsIdentifier("GET") && !IsIdentChar(text[3])
    ensures OccursAt(text, " ", 3) && Every(IsBlank, " ") && !IsBlank(text[4])
    ensures OccursAt(text, "/", 4) && Every(IsNotSpace, "/") && text[5] == ' '
    ensures OccursAt(text, " ", 5) && !IsBlank(text[6])
    ensures EOT !in "HTTP/" && OccursAt(text, "HTTP/"[..1], 6) && text[7] != "HTTP/"[1]
    ensures forall k :: 0 <= k < 7 ==> text[k] != '\r' && text[k] != '\n'
  {
    assert text[0..3] == "GET" && text[3..4] == " " && text[4..5] == "/" && text[5..6] == " ";
    assert "HTTP/"[..1] == "H" && text[6..7] == "H";
  }

  /** Only evaluates the string literal of the expected error message. */
  lemma UnknownMessage()
    ensures Expected("HTTP/") + " on line " + Dec(1) + " col " + Dec(8) == "Expected 'HTTP/' on line 1 col 8"
  {
    assert Dec(1) == "1" && Dec(8) == "8";
  }
}

=== FILE: imap.dfy ===
/** `imap`: the server's immutable (and sendable) multimap, an association
    list of key/value pairs in which a key may appear more than once.
    Lookups scan from the front, so the first pair with a key wins. */
module IMap {
  import opened Results

  type IMap<K, V> = seq<(K, V)>

  /** Some pair of `m` has key `k`. */
  predicate HasKey<K(==), V>(m: IMap<K, V>, k: K) {
    exists i :: 0 <= i < |m| && m[i].0 == k
  }

  /** `vec::find(self, |e| e.first() == key)`: the index of the first pair with key `k`. */
  function FirstIndex<K(==), V>(m: IMap<K, V>, k: K): (r: Option<nat>)
    ensures r.Some? ==> r.value < |m| && m[r.value].0 == k
    ensures r.Some? ==> forall j :: 0 <= j < r.value ==> m[j].0 != k
    ensures r.None? <==> !HasKey(m, k)
  {
    if |m| == 0 then None
    else if m[0].0 == k then Some(0)
    else match FirstIndex(m[1..], k)
      case None => None
      case Some(i) => Some(i + 1)
  }

  /** `size`: the number of pairs, duplicates included, so never less than
      the number of values under any one key, and zero iff no key is
      present. */
  function Size<K(==,!new), V>(m: IMap<K, V>): (r: nat)
    ensures r == 0 <==> forall k :: !HasKey(m, k)
    ensures forall k :: |GetAll(m, k)| <= r
  {
    if |m| > 0 then assert HasKey(m, m[0].0); |m| else 0
  }

  /** `size` counts pairs: the empty map has none, a single pair is one,
      and the sizes of two maps side by side add up. */
  lemma SizeCountsPairs<K(!new), V>(m1: IMap<K, V>, m2: IMap<K, V>, k: K, v: V)
    ensures Size<K, V>([]) == 0
    ensures Size([(k, v)]) == 1
    ensures Size(m1 + m2) == Size(m1) + Size(m2)
  {
  }

  /** `contains_key`. */
  function ContainsKey<K(==), V>(m: IMap<K, V>, k: K): (r: bool)
    ensures r <==> HasKey(m, k)
  {
    FirstIndex(m, k).Some?
  }

  /** `get`: the value of the first pair with key `k`; the server task fails
      when there is none. */
  function Get<K(==), V>(m: IMap<K, V>, k: K): (r: Result<V>)
    ensures r.Err? <==> !HasKey(m, k)
    ensures r.Ok? ==> exists i :: 0 <= i < |m| && m[i] == (k, r.value)
                                  && forall j :: 0 <= j < i ==> m[j].0 != k
  {
    match FirstIndex(m, k)
    case Some(i) => Ok(m[i].1)
    case None => Err("Failed to find key")
  }

  /** `get_all`: every value stored under `k`, in stored order, duplicates kept. */
  function GetAll<K(==), V>(m: IMap<K, V>, k: K): (r: seq<V>)
    ensures |r| <= |m|
    ensures forall v :: v in r ==> (k, v) in m
    ensures |r| > 0 <==> HasKey(m, k)
  {
    if |m| == 0 then []
    else if m[0].0 == k then
      var rest := GetAll(m[1..], k);
      assert forall v :: v in rest ==> (k, v) in m[1..];
      [m[0].1] + rest
    else
      var rest := GetAll(m[1..], k);
      assert forall v :: v in rest ==> (k, v) in m[1..];
      assert HasKey(m, k) ==> HasKey(m[1..], k) by {
        if HasKey(m, k) {
          var i :| 0 <= i < |m| && m[i].0 == k;
          assert m[1..][i - 1].0 == k;
        }
      }
      rest
  }

  /** `find`: like `get`, but `None` instead of a failure. */
  function Find<K(==), V>(m: IMap<K, V>, k: K): (r: Option<V>)
    ensures r.Some? <==> ContainsKey(m, k)
    ensures r == Get(m, k).ToOption()
  {
    match FirstIndex(m, k)
    case Some(i) => Some(m[i].1)
    case None => None
  }

  /** `get_all` distributes over concatenation: values come out in the order
      they were stored and duplicates are kept. */
  lemma {:induction false} GetAllAppend<K, V>(m1: IMap<K, V>, m2: IMap<K, V>, k: K)
    ensures GetAll(m1 + m2, k) == GetAll(m1, k) + GetAll(m2, k)
    decreases |m1|
  {
    if |m1| > 0 {
      assert (m1 + m2)[1..] == m1[1..] + m2;
      assert (m1 + m2)[0] == m1[0];
      GetAllAppend(m1[1..], m2, k);
      if m1[0].0 == k {
        assert GetAll(m1 + m2, k) == [m1[0].1] + GetAll(m1[1..] + m2, k);
        assert GetAll(m1, k) == [m1[0].1] + GetAll(m1[1..], k);
      } else {
        assert GetAll(m1 + m2, k) == GetAll(m1[1..] + m2, k);
      }
    } else {
      assert m1 + m2 == m2;
    }
  }

  /** A single pair contributes its value exactly when its key matches. */
  lemma GetAllSingleton<K, V>(key: K, v: V, k: K)
    ensures GetAll([(key, v)], k) == if key == k then [v] else []
  {
  }

  /** The first value `get_all` returns is the one `get` and `find` return. */
  lemma {:induction false} GetAllHeadIsGet<K, V>(m: IMap<K, V>, k: K)
    requires HasKey(m, k)
    ensures GetAll(m, k)[0] == Get(m, k).value
    ensures Find(m, k) == Some(GetAll(m, k)[0])
    decreases |m|
  {
    if m[0].0 != k {
      var i :| 0 <= i < |m| && m[i].0 == k;
      assert m[1..][i - 1].0 == k;
      GetAllHeadIsGet(m[1..], k);
    }
  }

  /** `size` counts pairs, not keys: adding a pair under a key that is
      already present still grows the map by one, and `get_all` then sees
      both values while `get` keeps answering with the first. */
  lemma AddDuplicate<K(!new), V>(m: IMap<K, V>, k: K, v: V)
    requires ContainsKey(m, k)
    ensures Size(m + [(k, v)]) == Size(m) + 1
    ensures GetAll(m + [(k, v)], k) == GetAll(m, k) + [v]
    ensures Get(m + [(k, v)], k) == Get(m, k)
  {
    GetAllAppend(m, [(k, v)], k);
    GetAllHeadIsGet(m, k);
    GetAllHeadIsGet(m + [(k, v)], k);
  }

  /** The calls `each` makes: `block` is applied to the pairs in order until it
      returns false; `calls` are the pairs it was applied to. */
  method Each<K, V>(m: IMap<K, V>, block: (K, V) -> bool) returns (calls: seq<(K, V)>)
    ensures |calls| <= |m| && forall i :: 0 <= i < |calls| ==> calls[i] == m[i]
    ensures forall i :: 0 <= i < |calls| - 1 ==> block(calls[i].0, calls[i].1)
    ensures |calls| < |m| ==> |calls| > 0 && !block(calls[|calls| - 1].0, calls[|calls| - 1].1)
  {
    calls := [];
    var i := 0;
    while i < |m|
      invariant 0 <= i <= |m|
      invariant calls == m[..i]
      invariant forall j :: 0 <= j < i ==> block(m[j].0, m[j].1)
    {
      calls := calls + [m[i]];
      if !block(m[i].0, m[i].1) {
        return;
      }
      i := i + 1;
    }
  }

  /** `each_key`: like `each`, with the block seeing only keys. */
  method EachKey<K, V>(m: IMap<K, V>, block: K -> bool) returns (calls: seq<K>)
    ensures |calls| <= |m|
    ensures forall i :: 0 <= i < |calls| ==> calls[i] == m[i].0
    ensures forall i :: 0 <= i < |calls| - 1 ==> block(calls[i])
    ensures |calls| < |m| ==> |calls| > 0 && !block(calls[|calls| - 1])
  {
    var pairs := Each(m, (k, v) => block(k));
    calls := seq(|pairs|, i requires 0 <= i < |pairs| => pairs[i].0);
  }

  /** `each_value`: like `each`, with the block seeing only values. */
  method EachValue<K, V>(m: IMap<K, V>, block: V -> bool) returns (calls: seq<V>)
    ensures |calls| <= |m|
    ensures forall i :: 0 <= i < |calls| ==> calls[i] == m[i].1
    ensures forall i :: 0 <= i < |calls| - 1 ==> block(calls[i])
    ensures |calls| < |m| ==> |calls| > 0 && !block(calls[|calls| - 1])
  {
    var pairs := Each(m, (k, v) => block(v));
    calls := seq(|pairs|, i requires 0 <= i < |pairs| => pairs[i].1);
  }
}

=== FILE: parsers.dfy ===
/** The parser primitives of `bug4260.rs`, a copy of part of the rparse
    library. A parser reads a `State` whose text ends in the EOT sentinel
    and answers `Succeeded` with the state after the match and a value, or
    `Failed` with the state it started from, the state where the failure
    was noticed and a message.

    A Rust parser is a closure; here a combinator takes the OUTCOME of its
    inner parsers on the same input as an argument, which is the same
    thing because parsers have no side effects. */
module Parsers {
  import opened Results
  import opened Strings

  /** The end-of-text sentinel the parsers stop at. Its value is defined
      inside rparse; this model fixes it to U+0003. */
  const EOT: char := '\U{0003}'

  /** The largest `uint`, which `or_v` uses as its "no failure yet" mark. */
  const UintMax: nat := 0xFFFF_FFFF_FFFF_FFFF

  datatype State = State(text: string, index: nat, line: int)

  datatype Status<+T> =
    | Succeeded(newState: State, value: T)
    | Failed(oldState: State, errState: State, mesg: string)

  /** The text holds an EOT at its end (rparse's guarantee to every
      parser) ... */
  predicate Terminated(text: string) {
    |text| > 0 && text[|text| - 1] == EOT
  }

  /** ... and nowhere else. */
  predicate Sentinel(text: string) {
    Terminated(text) && forall k :: 0 <= k < |text| - 1 ==> text[k] != EOT
  }

  /** The state a parser may read: its index is at or before the EOT. */
  predicate Readable(s: State) {
    Terminated(s.text) && s.index < |s.text|
  }

  /** The text a parser consumed going from `s` to `t`; empty when `t` is
      not at or after `s`. */
  function Consumed(s: State, t: State): string {
    if s.index <= t.index <= |s.text| then s.text[s.index..t.index] else ""
  }

  /** The text a parse of `s` starts with. */
  function Start(s: string): (text: string)
    requires EOT !in s
    ensures |text| == |s| + 1 && text[..|s|] == s && Sentinel(text)
  {
    s + [EOT]
  }

  // ---- weird parsers -----------------------------------------------------------

  /** `eot`: matches the sentinel. */
  function Eot(input: State): (r: Status<()>)
    requires input.index < |input.text|
    ensures r.Succeeded? <==> input.text[input.index] == EOT
    ensures r.Succeeded? ==> r.newState == input.(index := input.index + 1)
    ensures r.Failed? ==> r == Failed(input, input, "EOT")
  {
    if input.text[input.index] == EOT then
      Succeeded(input.(index := input.index + 1), ())
    else
      Failed(input, input, "EOT")
  }

  /** With the sentinel only at the end, `eot` succeeds exactly on the last
      character, and then the whole text has been consumed. */
  lemma EotAtEnd(input: State)
    requires Sentinel(input.text) && input.index < |input.text|
    ensures Eot(input).Succeeded? <==> input.index == |input.text| - 1
    ensures Eot(input).Succeeded? ==> Eot(input).newState.index == |input.text|
  {
  }

  // ---- char parsers ------------------------------------------------------------

  /** `anycp`: one character that is not EOT and satisfies `pred`. */
  function Anycp(pred: char -> bool, input: State): (r: Status<char>)
    requires input.index < |input.text|
    ensures r.Succeeded? <==> input.text[input.index] != EOT && pred(input.text[input.index])
    ensures r.Succeeded? ==>
      r.newState == input.(index := input.index + 1) && r.value == input.text[input.index]
    ensures r.Failed? ==> r == Failed(input, input, "")
  {
    var i := if input.text[input.index] != EOT && pred(input.text[input.index])
      then input.index + 1 else input.index;
    if i > input.index then Succeeded(input.(index := i), input.text[input.index])
    else Failed(input, input.(index := i), "")
  }

  // ---- string parsers ----------------------------------------------------------

  /** Where the run of non-EOT characters satisfying `pred` that starts at
      `i` ends: every character before it qualifies, the one at it does not. */
  function RunEnd(text: string, pred: char -> bool, i: nat): (j: nat)
    requires Terminated(text) && i < |text|
    ensures i <= j < |text|
    ensures forall k :: i <= k < j ==> text[k] != EOT && pred(text[k])
    ensures text[j] == EOT || !pred(text[j])
    decreases |text| - i
  {
    if text[i] != EOT && pred(text[i]) then RunEnd(text, pred, i + 1) else i
  }

  /** The end of a maximal run is unique: any position with the two
      properties of `RunEnd` is `RunEnd`. */
  lemma RunEndUnique(text: string, pred: char -> bool, i: nat, j: nat)
    requires Terminated(text) && i <= j < |text|
    requires forall k :: i <= k < j ==> text[k] != EOT && pred(text[k])
    requires text[j] == EOT || !pred(text[j])
    ensures RunEnd(text, pred, i) == j
  {
  }

  /** `match0`: zero or more characters satisfying `pred`; never fails and
      leaves the line alone. */
  function Match0(pred: char -> bool, input: State): (r: Status<string>)
    requires Readable(input)
    ensures r.Succeeded?
    ensures input.index <= r.newState.index < |input.text|
    ensures r.newState == input.(index := r.newState.index)
    ensures r.value == Consumed(input, r.newState)
    ensures forall k :: input.index <= k < r.newState.index ==>
      input.text[k] != EOT && pred(input.text[k])
    ensures input.text[r.newState.index] == EOT || !pred(input.text[r.newState.index])
  {
    var i := RunEnd(input.text, pred, input.index);
    Succeeded(input.(index := i), input.text[input.index..i])
  }

  /** When every character up to the sentinel qualifies, `match0` stops
      exactly at the sentinel. */
  lemma Match0StopsAtEot(pred: char -> bool, input: State)
    requires Sentinel(input.text) && input.index < |input.text|
    requires forall k :: input.index <= k < |input.text| - 1 ==> pred(input.text[k])
    ensures Match0(pred, input).newState.index == |input.text| - 1
    ensures Match0(pred, input).value == input.text[input.index..|input.text| - 1]
  {
    RunEndUnique(input.text, pred, input.index, |input.text| - 1);
  }

  /** `match1`: one or more characters satisfying `pred`. */
  function Match1(pred: char -> bool, input: State): (r: Status<string>)
    requires Readable(input)
    ensures r.Failed? <==> input.text[input.index] == EOT || !pred(input.text[input.index])
    ensures r.Failed? ==> r == Failed(input, input, "")
    ensures r.Succeeded? ==> r == Match0(pred, input) && |r.value| >= 1
  {
    var i := RunEnd(input.text, pred, input.index);
    if i > input.index then Succeeded(input.(index := i), input.text[input.index..i])
    else Failed(input, input.(index := i), "")
  }

  /** `anycp` succeeds where `match1` does, with the first character of
      the run, and fails the same way. */
  lemma AnycpMatch1(pred: char -> bool, input: State)
    requires Readable(input)
    ensures Anycp(pred, input).Succeeded? <==> Match1(pred, input).Succeeded?
    ensures Anycp(pred, input).Succeeded? ==>
      Anycp(pred, input).value == Match1(pred, input).value[0]
    ensures Anycp(pred, input).Failed? ==>
      Anycp(pred, input).errState == Match1(pred, input).errState
      && Anycp(pred, input).mesg == Match1(pred, input).mesg
  {
  }

  /** `match1_0`: one or more `prefix` characters followed by zero or more
      `suffix` characters; fails as `match1(prefix)` does. */
  function Match1_0(prefix: char -> bool, suffix: char -> bool, input: State): (r: Status<string>)
    requires Readable(input)
    ensures r.Failed? <==> input.text[input.index] == EOT || !prefix(input.text[input.index])
    ensures r.Failed? ==> r == Failed(input, input, "")
    ensures r.Succeeded? ==>
      && input.index < r.newState.index < |input.text|
      && r.newState == input.(index := r.newState.index)
      && r.value == Consumed(input, r.newState)
      && (forall k :: input.index <= k < r.newState.index ==>
            input.text[k] != EOT && (prefix(input.text[k]) || suffix(input.text[k])))
      && (input.text[r.newState.index] == EOT || !suffix(input.text[r.newState.index]))
    ensures r.Succeeded? ==>
      var m := RunEnd(input.text, prefix, input.index);
      && input.index < m <= r.newState.index
      && (forall k :: m <= k < r.newState.index ==> suffix(input.text[k]))
      && r.newState.index == RunEnd(input.text, suffix, m)
  {
    match Match1(prefix, input)
    case Failed(o, e, m) => Failed(o, e, m)
    case Succeeded(mid, p) =>
      var q := Match0(suffix, mid);
      assert input.text[input.index..q.newState.index]
          == input.text[input.index..mid.index] + input.text[mid.index..q.newState.index];
      Succeeded(q.newState, p + q.value)
  }

  /** `optional_str`: the inner parser's success, or `""` and no progress. */
  function OptionalStr(input: State, inner: Status<string>): (r: Status<string>)
    ensures r.Succeeded?
    ensures inner.Succeeded? ==> r == inner
    ensures inner.Failed? ==> r.newState == input && r.value == ""
  {
    match inner
    case Succeeded(s, v) => Succeeded(s, v)
    case Failed(_, _, _) => Succeeded(input, "")
  }

  /** Making `match1` optional gives `match0`. */
  lemma OptionalMatch1(pred: char -> bool, input: State)
    requires Readable(input)
    ensures OptionalStr(input, Match1(pred, input)) == Match0(pred, input)
  {
    if Match1(pred, input).Failed? {
      RunEndUnique(input.text, pred, input.index, input.index);
    }
  }

  // ---- scan --------------------------------------------------------------------

  /** Whether the character at `k` ends a line: a CR, or an LF that does
      not follow a CR (so CR LF counts once). */
  predicate LineBreakAt(text: string, k: nat)
    requires k < |text|
  {
    text[k] == '\r' || (text[k] == '\n' && (k == 0 || text[k - 1] != '\r'))
  }

  /** The number of line ends among the characters `lo` up to `hi`. */
  function LineBreaks(text: string, lo: nat, hi: nat): (n: nat)
    requires lo <= hi <= |text|
    ensures n <= hi - lo
    decreases hi
  {
    if lo == hi then 0
    else LineBreaks(text, lo, hi - 1) + (if LineBreakAt(text, hi - 1) then 1 else 0)
  }

  /** Line ends add up over adjacent ranges. */
  lemma {:induction false} LineBreaksSplit(text: string, a: nat, b: nat, c: nat)
    requires a <= b <= c <= |text|
    ensures LineBreaks(text, a, c) == LineBreaks(text, a, b) + LineBreaks(text, b, c)
    decreases c - b
  {
    if b < c {
      LineBreaksSplit(text, a, b, c - 1);
    }
  }

  /** A CR LF pair is one line end, and so are a lone CR and a lone LF. */
  lemma LineEnds(text: string, k: nat)
    requires 0 < k && k + 2 <= |text| && text[k - 1] != '\r'
    ensures text[k..k + 2] == "\r\n" ==> LineBreaks(text, k, k + 2) == 1
    ensures text[k] == '\r' && text[k + 1] != '\r' && text[k + 1] != '\n' ==>
      LineBreaks(text, k, k + 2) == 1
    ensures text[k] == '\n' && text[k + 1] != '\r' && text[k + 1] != '\n' ==>
      LineBreaks(text, k, k + 2) == 1
  {
    assert LineBreaks(text, k, k + 1) == (if LineBreakAt(text, k) then 1 else 0);
  }

  /** A range with no CR or LF holds no line end. */
  lemma {:induction false} NoLineBreaks(text: string, lo: nat, hi: nat)
    requires lo <= hi <= |text|
    requires forall k :: lo <= k < hi ==> text[k] != '\r' && text[k] != '\n'
    ensures LineBreaks(text, lo, hi) == 0
    decreases hi
  {
    if lo < hi {
      NoLineBreaks(text, lo, hi - 1);
    }
  }

  /** `scan`: consumes the number of characters `fun` counts from the
      current index, counting the line ends it passes over. With a zero
      count or at the sentinel it matches nothing. A count that runs past
      the end of the text makes the loop index out of bounds, which fails
      the task. */
  method Scan(fun: (string, nat) -> nat, input: State) returns (r: Result<Status<string>>)
    requires Readable(input)
    ensures var count := fun(input.text, input.index);
      r.Err? <==> count > 0 && input.text[input.index] != EOT && input.index + count > |input.text|
    ensures r.Ok? ==> r.value.Succeeded?
    ensures r.Ok? ==> var count := fun(input.text, input.index);
      if count > 0 && input.text[input.index] != EOT then
        && input.index + count <= |input.text|
        && r.value.newState == State(input.text, input.index + count,
                                     input.line + LineBreaks(input.text, input.index, input.index + count))
        && r.value.value == input.text[input.index..input.index + count]
      else
        r.value.newState == input && r.value.value == ""
  {
    var i := input.index;
    var line := input.line;
    var count := fun(input.text, i);
    if count > 0 && input.text[i] != EOT {
      var k := 0;
      while k < count
        invariant 0 <= k <= count
        invariant i == input.index + k <= |input.text|
        invariant line == input.line + LineBreaks(input.text, input.index, i)
      {
        if i >= |input.text| {
          return Err("index out of bounds");
        }
        if input.text[i] == '\r' {
          line := line + 1;
        } else if input.text[i] == '\n' && (i == 0 || input.text[i - 1] != '\r') {
          line := line + 1;
        }
        i := i + 1;
        k := k + 1;
      }
      r := Ok(Succeeded(input.(index := i, line := line), input.text[input.index..i]));
    } else {
      r := Ok(Succeeded(input.(index := i, line := line), ""));
    }
  }

  // ---- sequences ---------------------------------------------------------------

  /** `seq2_ret_str` to `seq5_ret_str`: given the outcome of the chained
      parsers on `input`, the text they consumed, or their failure
      re-rooted at `input`. */
  function SeqRetStr<U>(input: State, chained: Status<U>): (r: Status<string>)
    requires chained.Succeeded? ==> input.index <= chained.newState.index <= |input.text|
    ensures r.Succeeded? <==> chained.Succeeded?
    ensures r.Succeeded? ==>
      (r.newState == chained.newState
       && input.text[..input.index] + r.value == input.text[..chained.newState.index])
    ensures r.Failed? ==>
      r.oldState == input && r.errState == chained.errState && r.mesg == chained.mesg
  {
    match chained
    case Succeeded(s, _) => Succeeded(s, input.text[input.index..s.index])
    case Failed(_, e, m) => Failed(input, e, m)
  }

  /** The text `match0` consumed is the value it returns. */
  lemma SeqRetStrMatch0(pred: char -> bool, input: State)
    requires Readable(input)
    ensures SeqRetStr(input, Match0(pred, input)) == Match0(pred, input)
  {
  }

  // ---- generic parsers ---------------------------------------------------------

  /** `fails`: fails where it stands. */
  function Fails<T>(mesg: string, input: State): (r: Status<T>)
    ensures r.Failed? && r.oldState == input && r.errState == input && r.mesg == mesg
  {
    Failed(input, input, mesg)
  }

  /** `ret`: succeeds without consuming anything. */
  function Ret<T>(value: T, input: State): (r: Status<T>)
    ensures r.Succeeded? && r.newState == input && r.value == value
  {
    Succeeded(input, value)
  }

  /** An optional `fails` is `ret("")`. */
  lemma OptionalFails(mesg: string, input: State)
    ensures OptionalStr(input, Fails(mesg, input)) == Ret("", input)
  {
  }

  /** `at_connect`: the strings with `sep` between neighbours. */
  method AtConnect(v: seq<string>, sep: string) returns (s: string)
    ensures s == Join(v, sep)
    ensures |v| == 0 ==> s == ""
    ensures |v| >= 1 ==> StartsWith(s, v[0]) && EndsWith(s, v[|v| - 1])
  {
    s := "";
    var first := true;
    var i := 0;
    while i < |v|
      invariant 0 <= i <= |v|
      invariant first <==> i == 0
      invariant s == Join(v[..i], sep)
      invariant i >= 1 ==> StartsWith(s, v[0]) && EndsWith(s, v[i - 1])
    {
      if first {
        first := false;
        assert v[..i + 1] == [v[0]];
      } else {
        s := s + sep;
        JoinSnoc(v[..i], v[i], sep);
        assert v[..i + 1] == v[..i] + [v[i]];
        assert (s + v[i])[..|v[0]|] == s[..|v[0]|];
      }
      s := s + v[i];
      i := i + 1;
    }
    assert v[..|v|] == v;
  }

  /** `or_mesg`: both messages joined by " or ", or whichever is not empty. */
  function OrMesg(mesg1: string, mesg2: string): (r: string)
    ensures mesg1 != "" && mesg2 != "" ==> r == mesg1 + " or " + mesg2
    ensures mesg1 == "" ==> r == mesg2
    ensures mesg2 == "" ==> r == mesg1
  {
    if mesg1 != "" && mesg2 != "" then mesg1 + " or " + mesg2
    else if mesg1 != "" then mesg1
    else if mesg2 != "" then mesg2
    else ""
  }

  /** `or_mesg` is `at_connect` of the non-empty messages, as `or_v`
      builds its message. */
  lemma OrMesgJoin(mesg1: string, mesg2: string)
    ensures OrMesg(mesg1, mesg2) == Join(NonEmpty([mesg1, mesg2]), " or ")
  {
    assert [mesg1, mesg2][1..] == [mesg2];
    assert [mesg2][1..] == [];
  }

  // ---- or_v --------------------------------------------------------------------

  predicate AllFailed<T>(outcomes: seq<Status<T>>) {
    forall k :: 0 <= k < |outcomes| ==> outcomes[k].Failed?
  }

  /** The furthest index any of the failures got to. */
  function MaxErr<T>(outcomes: seq<Status<T>>): (m: nat)
    requires |outcomes| > 0 && AllFailed(outcomes)
    ensures forall k :: 0 <= k < |outcomes| ==> outcomes[k].errState.index <= m
    ensures exists k :: 0 <= k < |outcomes| && outcomes[k].errState.index == m
  {
    var last := outcomes[|outcomes| - 1];
    if |outcomes| == 1 then last.errState.index
    else
      var m := MaxErr(outcomes[..|outcomes| - 1]);
      assert forall k :: 0 <= k < |outcomes| - 1 ==> outcomes[k] == outcomes[..|outcomes| - 1][k];
      if last.errState.index > m then last.errState.index else m
  }

  /** The messages of the failures that got to `index`, in order. */
  function MessagesAt<T>(outcomes: seq<Status<T>>, index: nat): (r: seq<string>)
    requires AllFailed(outcomes)
    ensures |r| <= |outcomes|
  {
    if |outcomes| == 0 then []
    else
      var last := outcomes[|outcomes| - 1];
      MessagesAt(outcomes[..|outcomes| - 1], index)
        + (if last.errState.index == index then [last.mesg] else [])
  }

  /** No failure got beyond every index at or above which nothing failed. */
  lemma {:induction false} MessagesBeyond<T>(outcomes: seq<Status<T>>, index: nat)
    requires AllFailed(outcomes)
    requires forall k :: 0 <= k < |outcomes| ==> outcomes[k].errState.index < index
    ensures MessagesAt(outcomes, index) == []
  {
    if |outcomes| > 0 {
      var init := outcomes[..|outcomes| - 1];
      assert forall k :: 0 <= k < |init| ==> init[k] == outcomes[k];
      MessagesBeyond(init, index);
    }
  }

  lemma FailedFirst<T>(o: Status<T>)
    requires o.Failed?
    ensures AllFailed([o]) && MaxErr([o]) == o.errState.index
    ensures MessagesAt([o], o.errState.index) == [o.mesg]
  {
    assert [o][..0] == [];
  }

  /** How one more failure moves the furthest index and its messages. */
  lemma FailedNext<T>(pre: seq<Status<T>>, o: Status<T>)
    requires |pre| >= 1 && AllFailed(pre) && o.Failed?
    ensures AllFailed(pre + [o]) && (pre + [o])[..|pre|] == pre
    ensures var m, e := MaxErr(pre), o.errState.index;
      if e > m then
        MaxErr(pre + [o]) == e && MessagesAt(pre + [o], e) == [o.mesg]
      else
        MaxErr(pre + [o]) == m
        && MessagesAt(pre + [o], m) == MessagesAt(pre, m) + (if e == m then [o.mesg] else [])
  {
    var all := pre + [o];
    assert all[..|pre|] == pre;
    assert AllFailed(all) by {
      forall k | 0 <= k < |all| ensures all[k].Failed? {
        if k < |pre| { assert all[k] == pre[k]; }
      }
    }
    if o.errState.index > MaxErr(pre) {
      MessagesBeyond(pre, o.errState.index);
    }
  }

  /** `outcomes[k]` is the first success. */
  predicate FirstSuccess<T>(outcomes: seq<Status<T>>, k: nat) {
    k < |outcomes| && outcomes[k].Succeeded? && AllFailed(outcomes[..k])
  }

  /** `or_v`: the first alternative that succeeds; when all fail, a failure
      at the furthest index any of them reached, whose message joins the
      non-empty messages of the failures there by " or ". An empty list of
      alternatives trips the source's assertion. */
  method OrV<T>(input: State, outcomes: seq<Status<T>>) returns (r: Result<Status<T>>)
    requires forall k :: 0 <= k < |outcomes| && outcomes[k].Failed? ==>
      outcomes[k].errState.index < UintMax
    ensures r.Err? <==> |outcomes| == 0
    ensures r.Err? ==> r.error == "assertion failed: vec::is_not_empty(*parsers)"
    ensures r.Ok? && !AllFailed(outcomes) ==>
      exists k: nat :: FirstSuccess(outcomes, k) && r.value == outcomes[k]
    ensures r.Ok? && AllFailed(outcomes) ==>
      var m := MaxErr(outcomes);
      r.value == Failed(input, input.(index := m), Join(NonEmpty(MessagesAt(outcomes, m)), " or "))
  {
    if |outcomes| == 0 {
      return Err("assertion failed: vec::is_not_empty(*parsers)");
    }
    var i, maxIndex, errors := ScanFailures(outcomes);
    if i < |outcomes| {
      assert FirstSuccess(outcomes, i);
      return Ok(outcomes[i]);
    }
    assert outcomes[..i] == outcomes;
    var mesg := AtConnect(NonEmpty(errors), " or ");
    r := Ok(Failed(input, input.(index := maxIndex), mesg));
  }

  /** `or_v`'s loop: it stops at the first success `outcomes[i]`, or runs
      to the end keeping the furthest failure index and its messages. */
  method ScanFailures<T>(outcomes: seq<Status<T>>) returns (i: nat, maxIndex: nat, errors: seq<string>)
    requires |outcomes| > 0
    requires forall k :: 0 <= k < |outcomes| && outcomes[k].Failed? ==>
      outcomes[k].errState.index < UintMax
    ensures i <= |outcomes| && AllFailed(outcomes[..i])
    ensures i < |outcomes| ==> outcomes[i].Succeeded?
    ensures i == |outcomes| ==> maxIndex == MaxErr(outcomes[..i]) && errors == MessagesAt(outcomes[..i], maxIndex)
  {
    errors := [];
    maxIndex := UintMax;
    i := 0;
    while i < |outcomes|
      invariant 0 <= i <= |outcomes| && AllFailed(outcomes[..i])
      invariant i == 0 ==> maxIndex == UintMax && errors == []
      invariant i >= 1 ==> maxIndex == MaxErr(outcomes[..i]) && errors == MessagesAt(outcomes[..i], maxIndex)
    {
      var o := outcomes[i];
      if o.Succeeded? {
        return;
      }
      if i >= 1 {
        MaxErrBelow(outcomes[..i], UintMax);
      }
      maxIndex, errors := Absorb(outcomes[..i], o, maxIndex, errors);
      TakeOneMore(outcomes, i);
      i := i + 1;
    }
  }

  lemma MaxErrBelow<T>(outcomes: seq<Status<T>>, bound: nat)
    requires |outcomes| > 0 && AllFailed(outcomes)
    requires forall k :: 0 <= k < |outcomes| ==> outcomes[k].errState.index < bound
    ensures MaxErr(outcomes) < bound
  {
  }

  lemma TakeOneMore<T>(s: seq<T>, i: nat)
    requires i < |s|
    ensures s[..i + 1] == s[..i] + [s[i]]
  {
  }

  /** One more failure in `or_v`'s loop: the furthest index and the
      messages found there, starting from the "none yet" marker `UintMax`. */
  method Absorb<T>(seen: seq<Status<T>>, o: Status<T>, maxIndex: nat, errors: seq<string>)
    returns (m: nat, es: seq<string>)
    requires AllFailed(seen) && o.Failed? && o.errState.index < UintMax
    requires |seen| == 0 ==> maxIndex == UintMax && errors == []
    requires |seen| >= 1 ==> maxIndex == MaxErr(seen) < UintMax && errors == MessagesAt(seen, maxIndex)
    ensures AllFailed(seen + [o]) && m == MaxErr(seen + [o]) && es == MessagesAt(seen + [o], m)
  {
    var e := o.errState.index;
    if |seen| == 0 {
      FailedFirst(o);
      assert seen + [o] == [o];
    } else {
      FailedNext(seen, o);
    }
    if e > maxIndex || maxIndex == UintMax {
      m, es := e, [o.mesg];
    } else if e == maxIndex {
      m, es := maxIndex, errors + [o.mesg];
    } else {
      m, es := maxIndex, errors;
    }
  }

  /** Two alternatives failing at the same place report `or_mesg` of their
      messages. */
  lemma OrVTwo<T>(input: State, a: Status<T>, b: Status<T>)
    requires a.Failed? && b.Failed? && a.errState.index == b.errState.index
    ensures MaxErr([a, b]) == a.errState.index
    ensures Join(NonEmpty(MessagesAt([a, b], a.errState.index)), " or ") == OrMesg(a.mesg, b.mesg)
  {
    assert [a, b][..1] == [a];
    assert [a][..0] == [];
    OrMesgJoin(a.mesg, b.mesg);
  }
}

=== FILE: request.dfy ===
/** `request`: turning a parsed request into a response — query strings,
    handler selection, template checks, and the serialisation of the
    response header and body. */
module Requests {
  import opened Results
  import opened Strings
  import opened UriTemplate
  import opened Configuration

  // ---- parse_url -----------------------------------------------------------------

  /** One `name=value` field of a query string, split at its first `=`;
      `None` for a field without `=`. */
  function FieldPair(p: string): (r: Option<(string, string)>)
    ensures r.Some? <==> '=' in p
    ensures r.Some? ==> '=' !in r.value.0 && p == r.value.0 + "=" + r.value.1
  {
    match FindChar(p, '=')
    case None => None
    case Some(i) =>
      assert p == p[..i] + "=" + p[i + 1..];
      assert '=' !in p[..i] by {
        forall j | 0 <= j < i ensures p[..i][j] != '=' {
        }
      }
      Some((p[..i], p[i + 1..]))
  }

  /** Every field has an `=`. */
  predicate WellFormedFields(fields: seq<string>) {
    forall k :: 0 <= k < |fields| ==> '=' in fields[k]
  }

  /** The pairs of all fields, or `None` when one of them is bad. */
  function ParseFields(fields: seq<string>): (r: Option<seq<(string, string)>>)
    ensures r.Some? <==> WellFormedFields(fields)
    ensures r.Some? ==> |r.value| == |fields|
    ensures r.Some? ==> forall k :: 0 <= k < |fields| ==> FieldPair(fields[k]) == Some(r.value[k])
  {
    if |fields| == 0 then Some([])
    else
      var head := FieldPair(fields[0]);
      var rest := ParseFields(fields[1..]);
      assert forall k :: 1 <= k < |fields| ==> fields[k] == fields[1..][k - 1];
      if head.Some? && rest.Some? then
        Some([head.value] + rest.value)
      else
        assert exists k :: 0 <= k < |fields| && '=' !in fields[k] by {
          if head.Some? {
            var k :| 0 <= k < |fields| - 1 && '=' !in fields[1..][k];
            assert fields[k + 1] == fields[1..][k];
          }
        }
        None
  }

  /** `parse_url`: the text before the first `?` is the path and the text
      after it a `&`-separated list of fields. A query string with a field
      lacking `=` is not a query string: the whole URL is the path and
      there are no parameters. */
  function ParseUrl(url: string): (r: (string, seq<(string, string)>))
    ensures '?' !in url ==> r == (url, [])
    ensures '?' in url ==>
      var i := FindChar(url, '?').value;
      var fields := Split(url[i + 1..], '&');
      if WellFormedFields(fields) then
        && r.0 == url[..i] && |r.1| == |fields|
        && forall k :: 0 <= k < |fields| ==> FieldPair(fields[k]) == Some(r.1[k])
      else
        r == (url, [])
  {
    match FindChar(url, '?')
    case None => (url, [])
    case Some(i) =>
      var fields := Split(url[i + 1..], '&');
      match ParseFields(fields)
      case Some(params) => (url[..i], params)
      case None =>
        (url, [])
  }

  /** The query string of `params`: `name=value` fields joined by `&`. */
  function EncodeQuery(params: seq<(string, string)>): string {
    Join(EncodeFields(params), "&")
  }

  function EncodeFields(params: seq<(string, string)>): (r: seq<string>)
    ensures |r| == |params|
    ensures forall k :: 0 <= k < |r| ==> r[k] == params[k].0 + "=" + params[k].1
  {
    seq(|params|, k requires 0 <= k < |params| => params[k].0 + "=" + params[k].1)
  }

  /** Names free of `=` and `&`, values free of `&`: what a query string can carry. */
  predicate Encodable(params: seq<(string, string)>) {
    forall k :: 0 <= k < |params| ==>
      '=' !in params[k].0 && '&' !in params[k].0 && '&' !in params[k].1
  }

  /** `parse_url` takes apart the URL a path and a non-empty parameter list
      make up. */
  lemma ParseUrlEncode(path: string, params: seq<(string, string)>)
    requires '?' !in path
    requires |params| >= 1 && Encodable(params)
    ensures ParseUrl(path + "?" + EncodeQuery(params)) == (path, params)
  {
    var fields := EncodeFields(params);
    var query := EncodeQuery(params);
    var url := path + "?" + query;
    assert url[|path|] == '?';
    assert forall j :: 0 <= j < |path| ==> url[j] == path[j];
    assert FindChar(url, '?') == Some(|path|);
    assert url[|path| + 1..] == query;
    assert url[..|path|] == path;
    forall k | 0 <= k < |fields| ensures '&' !in fields[k] {
      assert fields[k] == params[k].0 + "=" + params[k].1;
    }
    SplitJoin(fields, '&');
    assert Split(query, '&') == fields;
    forall k | 0 <= k < |fields| ensures FieldPair(fields[k]) == Some(params[k]) {
      FieldSplit(params[k].0, params[k].1);
    }
    var r := ParseFields(fields);
    assert r.Some? by {
      forall k | 0 <= k < |fields| ensures '=' in fields[k] {
        assert FieldPair(fields[k]).Some?;
      }
    }
    assert r.value == params;
  }

  lemma FieldSplit(name: string, value: string)
    requires '=' !in name
    ensures FieldPair(name + "=" + value) == Some((name, value))
  {
    var p := name + "=" + value;
    assert p[|name|] == '=';
    assert forall j :: 0 <= j < |name| ==> p[j] == name[j];
    assert FindChar(p, '=') == Some(|name|);
    assert p[..|name|] == name && p[|name| + 1..] == value;
  }

  /** A URL ending in a bare `?` has a bad field: it is served as it stands. */
  lemma ParseUrlEmptyQuery(path: string)
    requires '?' !in path
    ensures ParseUrl(path + "?") == (path + "?", [])
  {
    var url := path + "?";
    assert url[|path|] == '?';
    assert forall j :: 0 <= j < |path| ==> url[j] == path[j];
    assert FindChar(url, '?') == Some(|path|);
    assert url[|path| + 1..] == "";
    assert Split("", '&') == [""];
  }

  /** A single field without `=` is not a query string. */
  lemma ParseUrlBadField(path: string, field: string)
    requires '?' !in path && '&' !in field && '=' !in field
    ensures ParseUrl(path + "?" + field) == (path + "?" + field, [])
  {
    var url := path + "?" + field;
    assert url[|path|] == '?';
    assert forall j :: 0 <= j < |path| ==> url[j] == path[j];
    assert FindChar(url, '?') == Some(|path|);
    assert url[|path| + 1..] == field;
    assert FindChar(field, '&') == None;
    assert Split(field, '&') == [field];
    assert '=' !in [field][0];
  }

  /** The query-string cases the server is known to handle. */
  lemma QueryStringNone(url: string)
    requires url == "/some/url"
    ensures ParseUrl(url) == (url, [])
  {
    assert '?' !in url by {
      assert forall k :: 0 <= k < |url| ==> url[k] != '?';
    }
  }

  lemma QueryStringBad(url: string)
    requires url == "/some/url?badness"
    ensures ParseUrl(url) == (url, [])
  {
    var path, field := "/some/url", "badness";
    assert '?' !in path by {
      assert forall k :: 0 <= k < |path| ==> path[k] != '?';
    }
    assert '&' !in field && '=' !in field by {
      assert forall k :: 0 <= k < |field| ==> field[k] != '&' && field[k] != '=';
    }
    ParseUrlBadField(path, field);
    assert url == path + "?" + field;
  }

  // ---- make_header_and_body ----------------------------------------------------------

  function ContentLengthLine(len: nat): string {
    "Content-Length: " + Dec(len) + "\r\n"
  }

  /** The line one header contributes; an explicit `Content-Length: 0` is
      replaced by the real body length. */
  function HeaderLine(header: (string, string), bodyLen: nat): string {
    if header.0 == "Content-Length" && header.1 == "0" then ContentLengthLine(bodyLen)
    else header.0 + ": " + header.1 + "\r\n"
  }

  /** The strings `line` gives the headers, in order. */
  function Lines(headers: seq<(string, string)>, line: ((string, string)) -> string): string
    decreases |headers|
  {
    if |headers| == 0 then "" else line(headers[0]) + Lines(headers[1..], line)
  }

  function LineFor(bodyLen: nat): ((string, string)) -> string {
    header => HeaderLine(header, bodyLen)
  }

  /** The lines of the headers, in order. */
  function HeaderLines(headers: seq<(string, string)>, bodyLen: nat): string {
    Lines(headers, LineFor(bodyLen))
  }

  predicate HasContentLength(headers: seq<(string, string)>) {
    exists k :: 0 <= k < |headers| && headers[k].0 == "Content-Length"
  }

  predicate IsChunked(headers: seq<(string, string)>) {
    exists k :: 0 <= k < |headers| && headers[k] == ("Transfer-Encoding", "chunked")
  }

  /** A body sent as one chunk: its length in upper-case hexadecimal, CRLF,
      the body, CRLF (section 3.6.1 of RFC 2616). */
  function EncodeChunk(body: string): string {
    Hex(|body|) + "\r\n" + body + "\r\n"
  }

  /** Reading one chunk back: hexadecimal digits up to the first CR, CRLF,
      that many characters, CRLF, and nothing else. */
  function DecodeChunk(s: string): Option<string> {
    match FindChar(s, '\r')
    case None => None
    case Some(i) =>
      match ParseNat(s[..i], 16)
      case None => None
      case Some(n) =>
        if 0 < i && i + 2 + n + 2 == |s| && s[i..i + 2] == "\r\n" && s[i + 2 + n..] == "\r\n"
        then Some(s[i + 2..i + 2 + n])
        else None
  }

  lemma DecodeEncodeChunk(body: string)
    ensures DecodeChunk(EncodeChunk(body)) == Some(body)
  {
    var digits := Hex(|body|);
    var s := EncodeChunk(body);
    var i := |digits|;
    HexDigits(|body|);
    assert s[i] == '\r';
    forall j | 0 <= j < i ensures s[j] != '\r' {
      assert s[j] == digits[j];
      assert IsDigitChar(digits[j]);
    }
    assert FindChar(s, '\r') == Some(i);
    assert s[..i] == digits;
    ParseNatToString(|body|, 16);
    assert s[i..i + 2] == "\r\n";
    assert s[i + 2..i + 2 + |body|] == body;
    assert s[i + 2 + |body|..] == "\r\n";
  }

  /** `make_header_and_body`: the status line, one line per header, a
      `Content-Length` line unless one was given or the body is chunked,
      and a blank line; a chunked body is framed as one chunk. Chunked
      encoding together with a `Content-Length` fails the server's
      assertion. */
  function MakeHeaderAndBody(response: Response, body: string): (r: Result<(string, string)>)
    ensures r.Err? <==> IsChunked(response.headers) && HasContentLength(response.headers)
    ensures r.Ok? ==> StartsWith(r.value.0, "HTTP/1.1 " + response.status + "\r\n")
    ensures r.Ok? ==> r.value.1 == if IsChunked(response.headers) then EncodeChunk(body) else body
  {
    var headers := response.headers;
    if IsChunked(headers) && HasContentLength(headers) then
      Err("assertion failed: !has_content_len")
    else
      var extra := if IsChunked(headers) || HasContentLength(headers) then "" else ContentLengthLine(|body|);
      var statusLine := "HTTP/1.1 " + response.status + "\r\n";
      var header := statusLine + HeaderLines(headers, |body|) + extra + "\r\n";
      assert header[..|statusLine|] == statusLine;
      Ok((header, if IsChunked(headers) then EncodeChunk(body) else body))
  }

  lemma {:induction false} LinesAppend(h1: seq<(string, string)>, h2: seq<(string, string)>,
                                       line: ((string, string)) -> string)
    ensures Lines(h1 + h2, line) == Lines(h1, line) + Lines(h2, line)
    decreases |h1|
  {
    if |h1| == 0 {
      assert h1 + h2 == h2;
    } else {
      assert (h1 + h2)[1..] == h1[1..] + h2;
      assert (h1 + h2)[0] == h1[0];
      LinesAppend(h1[1..], h2, line);
    }
  }

  lemma HeaderLinesAppend(h1: seq<(string, string)>, h2: seq<(string, string)>, bodyLen: nat)
    ensures HeaderLines(h1 + h2, bodyLen) == HeaderLines(h1, bodyLen) + HeaderLines(h2, bodyLen)
  {
    LinesAppend(h1, h2, LineFor(bodyLen));
  }

  lemma EndsWithAppend(a: string, b: string, suffix: string)
    requires EndsWith(b, suffix)
    ensures EndsWith(a + b, suffix)
  {
    assert (a + b)[|a + b| - |suffix|..] == b[|b| - |suffix|..];
  }

  lemma HeaderLineEnds(header: (string, string), bodyLen: nat)
    ensures EndsWith(HeaderLine(header, bodyLen), "\r\n")
  {
  }

  lemma {:induction false} LinesEnd(headers: seq<(string, string)>, line: ((string, string)) -> string,
                                    suffix: string)
    requires |headers| > 0
    requires forall h :: EndsWith(line(h), suffix)
    ensures EndsWith(Lines(headers, line), suffix)
    decreases |headers|
  {
    var first := line(headers[0]);
    if |headers| == 1 {
      assert Lines(headers, line) == first + "";
    } else {
      LinesEnd(headers[1..], line, suffix);
      EndsWithAppend(first, Lines(headers[1..], line), suffix);
    }
  }

  lemma HeaderLinesEnd(headers: seq<(string, string)>, bodyLen: nat)
    requires |headers| > 0
    ensures EndsWith(HeaderLines(headers, bodyLen), "\r\n")
  {
    forall h ensures EndsWith(LineFor(bodyLen)(h), "\r\n") {
      HeaderLineEnds(h, bodyLen);
    }
    LinesEnd(headers, LineFor(bodyLen), "\r\n");
  }

  /** The header block a successful serialisation produces: status line,
      the header lines, the implicit `Content-Length` when needed, blank
      line. */
  lemma HeaderBlock(response: Response, body: string)
    requires MakeHeaderAndBody(response, body).Ok?
    ensures var headers := response.headers;
            MakeHeaderAndBody(response, body).value.0
            == "HTTP/1.1 " + response.status + "\r\n" + HeaderLines(headers, |body|)
               + (if IsChunked(headers) || HasContentLength(headers) then "" else ContentLengthLine(|body|))
               + "\r\n"
  {
  }

  lemma HeadersPresent(headers: seq<(string, string)>)
    requires IsChunked(headers) || HasContentLength(headers)
    ensures |headers| > 0
  {
  }

  lemma BlockEnds(statusLine: string, lines: string, extra: string)
    requires EndsWith(lines + extra, "\r\n")
    ensures EndsWith(statusLine + lines + extra + "\r\n", "\r\n\r\n")
  {
    var front := statusLine + lines + extra;
    EndsWithAppend(statusLine, lines + extra, "\r\n");
    assert front == statusLine + (lines + extra);
    var t := front + "\r\n";
    assert t[|t| - 4..] == front[|front| - 2..] + "\r\n";
  }

  /** A serialised header block always ends in the CRLF CRLF a reader
      waits for. */
  lemma HeaderBlockEnds(response: Response, body: string)
    requires MakeHeaderAndBody(response, body).Ok?
    ensures EndsWith(MakeHeaderAndBody(response, body).value.0, "\r\n\r\n")
  {
    HeaderBlock(response, body);
    var headers := response.headers;
    var h := MakeHeaderAndBody(response, body).value.0;
    var statusLine := "HTTP/1.1 " + response.status + "\r\n";
    var lines := HeaderLines(headers, |body|);
    if IsChunked(headers) || HasContentLength(headers) {
      // a chunked body or an explicit length: some header gives a line
      HeadersPresent(headers);
      HeaderLinesEnd(headers, |body|);
      assert lines + "" == lines;
      BlockEnds(statusLine, lines, "");
      assert h == statusLine + lines + "" + "\r\n";
    } else {
      var extra := ContentLengthLine(|body|);
      assert EndsWith(extra, "\r\n");
      EndsWithAppend(lines, extra, "\r\n");
      BlockEnds(statusLine, lines, extra);
      assert h == statusLine + lines + extra + "\r\n";
    }
  }

  /** Without an explicit length and without chunking, the declared length
      is the body's length. */
  lemma ImplicitContentLength(response: Response, body: string)
    requires !IsChunked(response.headers) && !HasContentLength(response.headers)
    ensures MakeHeaderAndBody(response, body).Ok?
    ensures EndsWith(MakeHeaderAndBody(response, body).value.0, ContentLengthLine(|body|) + "\r\n")
    ensures ParseNat(Dec(|body|), 10) == Some(|body|)
  {
    HeaderBlock(response, body);
    var h := MakeHeaderAndBody(response, body).value.0;
    var front := "HTTP/1.1 " + response.status + "\r\n" + HeaderLines(response.headers, |body|);
    var tail := ContentLengthLine(|body|) + "\r\n";
    assert h == front + ContentLengthLine(|body|) + "\r\n";
    assert h == front + tail;
    assert h[|h| - |tail|..] == tail;
    ParseNatToString(|body|, 10);
  }

  /** An explicit `Content-Length: 0` is sent as the body's real length, in
      the position of the original header. */
  lemma ZeroContentLengthRewritten(response: Response, body: string,
                                   before: seq<(string, string)>, after: seq<(string, string)>)
    requires response.headers == before + [("Content-Length", "0")] + after
    requires !IsChunked(response.headers)
    ensures MakeHeaderAndBody(response, body).Ok?
    ensures var prefix := "HTTP/1.1 " + response.status + "\r\n" + HeaderLines(before, |body|);
            OccursAt(MakeHeaderAndBody(response, body).value.0, ContentLengthLine(|body|), |prefix|)
  {
    var headers := response.headers;
    assert headers[|before|].0 == "Content-Length";
    assert HasContentLength(headers);
    HeaderBlock(response, body);
    ZeroHeaderLines(before, after, |body|);
    var line := ContentLengthLine(|body|);
    var statusLine := "HTTP/1.1 " + response.status + "\r\n";
    var prefix := statusLine + HeaderLines(before, |body|);
    var rest := HeaderLines(after, |body|) + "\r\n";
    var h := MakeHeaderAndBody(response, body).value.0;
    assert h == statusLine + HeaderLines(headers, |body|) + "" + "\r\n";
    assert h == prefix + line + rest;
    assert h[|prefix|..|prefix| + |line|] == line;
  }

  /** Every header contributes its own line, in list order: the line of `h`
      starts right after the status line and the lines of the headers that
      come before it. */
  lemma HeaderInPlace(response: Response, body: string, before: seq<(string, string)>,
                      h: (string, string), after: seq<(string, string)>)
    requires response.headers == before + [h] + after
    requires MakeHeaderAndBody(response, body).Ok?
    ensures var prefix := "HTTP/1.1 " + response.status + "\r\n" + HeaderLines(before, |body|);
            OccursAt(MakeHeaderAndBody(response, body).value.0, HeaderLine(h, |body|), |prefix|)
  {
    var headers := response.headers;
    HeaderBlock(response, body);
    HeaderLinesSplit(before, h, after, |body|);
    var extra := if IsChunked(headers) || HasContentLength(headers) then "" else ContentLengthLine(|body|);
    InMiddle("HTTP/1.1 " + response.status + "\r\n", HeaderLines(before, |body|), HeaderLine(h, |body|),
             HeaderLines(after, |body|), extra + "\r\n");
  }

  /** `b` sits at offset `|a + x|` of `a + (x + b + y) + z`. */
  lemma InMiddle(a: string, x: string, b: string, y: string, z: string)
    ensures OccursAt(a + (x + b + y) + z, b, |a + x|)
  {
    assert a + (x + b + y) + z == (a + x) + b + (y + z);
    assert (a + x + b + (y + z))[|a + x|..|a + x| + |b|] == b;
  }

  lemma ZeroHeaderLines(before: seq<(string, string)>, after: seq<(string, string)>, bodyLen: nat)
    ensures HeaderLines(before + [("Content-Length", "0")] + after, bodyLen)
            == HeaderLines(before, bodyLen) + ContentLengthLine(bodyLen) + HeaderLines(after, bodyLen)
  {
    var zero := ("Content-Length", "0");
    HeaderLinesSplit(before, zero, after, bodyLen);
    assert HeaderLine(zero, bodyLen) == ContentLengthLine(bodyLen);
  }

  lemma LinesSplit(before: seq<(string, string)>, header: (string, string),
                   after: seq<(string, string)>, line: ((string, string)) -> string)
    ensures Lines(before + [header] + after, line) == Lines(before, line) + line(header) + Lines(after, line)
  {
    LinesAppend(before + [header], after, line);
    LinesAppend(before, [header], line);
    assert Lines([header], line) == line(header) + Lines([], line);
  }

  lemma HeaderLinesSplit(before: seq<(string, string)>, header: (string, string),
                         after: seq<(string, string)>, bodyLen: nat)
    ensures HeaderLines(before + [header] + after, bodyLen)
            == HeaderLines(before, bodyLen) + HeaderLine(header, bodyLen) + HeaderLines(after, bodyLen)
  {
    LinesSplit(before, header, after, LineFor(bodyLen));
  }

  // ---- load_template -----------------------------------------------------------------

  /** The two characters `a`, `b` stand at `p` and `p + 1`. */
  predicate PairAt(text: string, p: nat, a: char, b: char) {
    p + 1 < |text| && text[p] == a && text[p + 1] == b
  }

  lemma OccursAtPair(text: string, p: nat, a: char, b: char)
    ensures OccursAt(text, [a, b], p) <==> PairAt(text, p, a, b)
  {
    if PairAt(text, p, a, b) {
      assert text[p..p + 2] == [a, b];
    }
    if OccursAt(text, [a, b], p) {
      assert text[p..p + 2][0] == a && text[p..p + 2][1] == b;
    }
  }

  /** Some `}}` starts at or after `from`. */
  ghost predicate ClosedAfter(text: string, from: nat) {
    exists q: nat :: from <= q && PairAt(text, q, '}', '}')
  }

  /** Every `{{` is followed, later on, by a `}}`. */
  ghost predicate BracesBalanced(text: string) {
    forall p: nat :: PairAt(text, p, '{', '{') ==> ClosedAfter(text, p + 2)
  }

  /** `match_curly_braces`: jump from each `{{` to the next `}}` after it. */
  method MatchCurlyBraces(text: string) returns (r: bool)
    ensures r <==> BracesBalanced(text)
  {
    var index := 0;
    while index < |text|
      invariant forall p: nat :: p < index && PairAt(text, p, '{', '{') ==> ClosedAfter(text, p + 2)
      decreases |text| - index
    {
      match FindStrFrom(text, "{{", index)
      case Some(i) => {
        OccursAtPair(text, i, '{', '{');
        match FindStrFrom(text, "}}", i + 2)
        case Some(j) => {
          OccursAtPair(text, j, '}', '}');
          forall p: nat | p < j + 2 && PairAt(text, p, '{', '{') ensures ClosedAfter(text, p + 2) {
            if index <= p {
              OccursAtPair(text, p, '{', '{');
              assert i <= p;
            }
          }
          index := j + 2;
        }
        case None => {
          forall q: nat | i + 2 <= q ensures !PairAt(text, q, '}', '}') {
            OccursAtPair(text, q, '}', '}');
          }
          return false;
        }
      }
      case None => {
        forall p: nat | index <= p ensures !PairAt(text, p, '{', '{') {
          OccursAtPair(text, p, '{', '{');
        }
        break;
      }
    }
    return true;
  }

  /** The debug gate of `load_template`: with `debug` set to anything but
      `false`, a template whose braces do not balance is refused. */
  predicate DebugChecks(settings: map<string, string>) {
    "debug" in settings && settings["debug"] != "false"
  }

  /** `load_template`, given what loading the file produced. */
  method LoadTemplate(settings: map<string, string>, loaded: Result<string>) returns (r: Result<string>)
    ensures loaded.Err? ==> r == loaded
    ensures loaded.Ok? && (!DebugChecks(settings) || BracesBalanced(loaded.value)) ==> r == loaded
    ensures loaded.Ok? && DebugChecks(settings) && !BracesBalanced(loaded.value) ==>
              r == Err("mismatched curly braces")
  {
    match loaded
    case Err(_) => r := loaded;
    case Ok(template) => {
      if !("debug" in settings) || settings["debug"] == "false" {
        r := loaded;
      } else {
        var balanced := MatchCurlyBraces(template);
        r := if balanced then loaded else Err("mismatched curly braces");
      }
    }
  }

  // ---- url_dirname and path_to_type ---------------------------------------------------

  /** `url_dirname`: the path up to and including its first `/`, or the
      whole path when it has none. */
  function UrlDirname(path: string): (r: string)
    ensures StartsWith(path, r)
    ensures '/' in path ==> |r| >= 1 && r[|r| - 1] == '/' && forall k :: 0 <= k < |r| - 1 ==> r[k] != '/'
    ensures '/' !in path ==> r == path
  {
    match FindChar(path, '/')
    case Some(index) =>
      var dir := path[..index + 1];
      assert '/' !in dir[..index] by {
        forall j | 0 <= j < index ensures dir[j] != '/' {
        }
      }
      path[..index + 1]
    case None => path
  }

  /** Taking the directory part twice changes nothing. */
  lemma UrlDirnameIdempotent(path: string)
    ensures UrlDirname(UrlDirname(path)) == UrlDirname(path)
  {
    var d := UrlDirname(path);
    if '/' in path {
      assert d[|d| - 1] == '/';
      forall j | 0 <= j < |d| - 1 ensures d[j] != '/' {
        assert d[j] == d[..|d| - 1][j];
      }
      assert FindChar(d, '/') == Some(|d| - 1);
    }
  }

  /** The text after index `i` holds no `c` when no later index does. */
  lemma NoneAfter(s: string, i: nat, c: char)
    requires i < |s|
    requires forall j :: i < j < |s| ==> s[j] != c
    ensures c !in s[i + 1..]
  {
    var t := s[i + 1..];
    forall j | 0 <= j < |t| ensures t[j] != c {
      assert t[j] == s[i + 1 + j];
    }
  }

  lemma SuffixFrom(s: string, i: nat)
    requires i < |s|
    ensures EndsWith(s, [s[i]] + s[i + 1..])
  {
    assert s[i..] == [s[i]] + s[i + 1..];
  }

  /** The last component of a path: the text after its last `/`. */
  function FileName(path: string): (r: string)
    ensures '/' !in r
    ensures EndsWith(path, r)
  {
    match RFindChar(path, '/')
    case None => path
    case Some(i) =>
      NoneAfter(path, i, '/');
      path[i + 1..]
  }

  /** `Path::filetype`: the text after the last `.` of the file name, when
      there is such a text. */
  function FileType(path: string): (r: Option<string>)
    ensures r.Some? ==> r.value != "" && '.' !in r.value && '/' !in r.value
    ensures r.Some? ==> EndsWith(FileName(path), "." + r.value)
  {
    var name := FileName(path);
    match RFindChar(name, '.')
    case Some(i) =>
      if i + 1 < |name| then
        NoneAfter(name, i, '.');
        SuffixFrom(name, i);
        NoSlashInSuffix(name, i + 1);
        Some(name[i + 1..])
      else None
    case None => None
  }

  lemma NoSlashInSuffix(name: string, i: nat)
    requires '/' !in name && i <= |name|
    ensures '/' !in name[i..]
  {
    forall j | 0 <= j < |name| - i ensures name[i..][j] != '/' {
      assert name[i..][j] == name[i + j];
    }
  }

  /** `path_to_type`: the mime type the extension table gives the path's
      extension, `text/html` when there is no extension or no entry. */
  function PathToType(table: map<string, string>, path: string): (r: string)
    ensures FileType(path).Some? && "." + FileType(path).value in table ==> r == table["." + FileType(path).value]
    ensures FileType(path).None? || "." + FileType(path).value !in table ==> r == "text/html"
  {
    match FileType(path)
    case Some(ext) => if "." + ext in table then table["." + ext] else "text/html"
    case None => "text/html"
  }

  /** `path_to_type` and `is_text_file` look up the same extension: a file
      with an extension is a text file iff that extension is in the table
      and `path_to_type` gives a `text/` type for it. */
  lemma PathToTypeAgreesWithIsTextFile(table: map<string, string>, path: string)
    requires FileType(path).Some?
    ensures IsTextFile(table, path) <==>
              "." + FileType(path).value in table && StartsWith(PathToType(table, path), "text/")
  {
    var value := FileType(path).value;
    var ext := "." + value;
    EndsWithTransitive(path, FileName(path), ext);
    var stem := path[..|path| - |ext|];
    assert path == stem + ext;
    assert ext[1..] == value;
    IsTextFileExtension(table, stem, ext);
  }

  lemma EndsWithTransitive(a: string, b: string, c: string)
    requires EndsWith(a, b) && EndsWith(b, c)
    ensures EndsWith(a, c)
  {
    assert a[|a| - |c|..] == b[|b| - |c|..];
  }

  // ---- find_handler -----------------------------------------------------------------

  /** The handler `find_handler` picks: the static file handler, the view
      registered for a route, or the missing-page handler. */
  datatype Handler = StaticHandler | ViewHandler(route: string) | MissingHandler

  /** Status code and message, the result mime type, the handler, and the
      template bindings of the chosen route. */
  datatype Selection = Selection(statusCode: string, statusMesg: string, resultType: string,
                                 handler: Handler, matches: map<string, string>)

  const DefaultResultType := "text/html; charset=UTF-8"

  /** Servers must accept any minor version of HTTP 1 (section 3.1 of RFC 2616). */
  predicate VersionOk(version: string) {
    StartsWith(version, "1.")
  }

  /** The resource an URL path names lies under the resource root once `..`
      components are resolved. */
  predicate UnderRoot(config: ConnConfig, path: string) {
    StartsWith(config.resolve(path), config.resourcesRoot)
  }

  /** The static handler serves an existing file whose type the client accepts. */
  predicate StaticApplies(config: ConnConfig, path: string, types: seq<string>) {
    && UnderRoot(config, path)
    && config.validRsrc(config.resolve(path))
    && ("*/*" in types || PathToType(config.staticTypeTable, path) in types)
  }

  /** A route serves a request with its method, a path its template matches
      and an accepted mime type. */
  predicate RouteApplies(route: Route, verb: string, path: string, types: seq<string>) {
    route.verb == verb && MatchTemplate(path, route.template) != map[] && route.mimeType in types
  }

  /** The index of the first route from `from` on that serves the request. */
  function FirstRoute(routes: seq<Route>, verb: string, path: string, types: seq<string>, from: nat): (r: Option<nat>)
    ensures r.Some? ==> from <= r.value < |routes| && RouteApplies(routes[r.value], verb, path, types)
    ensures r.Some? ==> forall k :: from <= k < r.value ==> !RouteApplies(routes[k], verb, path, types)
    ensures r.None? ==> forall k :: from <= k < |routes| ==> !RouteApplies(routes[k], verb, path, types)
    decreases |routes| - from
  {
    if from >= |routes| then None
    else if RouteApplies(routes[from], verb, path, types) then Some(from)
    else FirstRoute(routes, verb, path, types, from + 1)
  }

  /** What `find_handler` relies on to terminate: the forbidden page itself
      lies under the resource root. */
  predicate ErrorPagesUnderRoot(config: ConnConfig) {
    UnderRoot(config, "forbidden.html")
  }

  /** How far `find_handler` may still recurse for these arguments. */
  function Rank(config: ConnConfig, path: string, version: string): nat {
    if !VersionOk(version) then 2 else if !UnderRoot(config, path) then 1 else 0
  }

  /** `find_handler`: a version other than 1.x gives 505 and the handler of
      `not-supported.html`; a path outside the resource root gives 403 and
      the handler of `forbidden.html`; otherwise an acceptable static file
      is served, else the first route that serves the request, else 404.
      The error pages are looked up with the accepted types `["types/html"]`.
      A chosen route without a view fails, as `views_table.get` does. */
  function FindHandler(config: ConnConfig, verb: string, path: string, types: seq<string>,
                       version: string): (r: Result<Selection>)
    requires ErrorPagesUnderRoot(config)
    ensures r.Ok? ==> (r.value.statusCode == "505" <==> !VersionOk(version))
    ensures r.Ok? ==> (r.value.statusCode == "403" <==> VersionOk(version) && !UnderRoot(config, path))
    ensures r.Ok? && r.value.statusCode in {"403", "505"} ==>
              r.value.resultType == DefaultResultType && r.value.matches == map[]
    ensures VersionOk(version) && StaticApplies(config, path, types) ==>
              r == Ok(Selection("200", "OK", PathToType(config.staticTypeTable, path) + "; charset=UTF-8",
                                StaticHandler, map[]))
    ensures VersionOk(version) && UnderRoot(config, path) && !StaticApplies(config, path, types) ==>
              match FirstRoute(config.routeList, verb, path, types, 0)
              case Some(k) =>
                var route := config.routeList[k];
                && (r.Ok? <==> route.route in config.viewsTable)
                && (r.Ok? ==> r.value == Selection("200", "OK", route.mimeType + "; charset=UTF-8",
                                                   ViewHandler(route.route), MatchTemplate(path, route.template)))
              case None =>
                r == Ok(Selection("404", "Not Found", DefaultResultType, MissingHandler, map[]))
    decreases Rank(config, path, version)
  {
    if !VersionOk(version) then
      assert VersionOk("1.1");
      match FindHandler(config, verb, "not-supported.html", ["types/html"], "1.1")
      case Err(e) => Err(e)
      case Ok(inner) =>
        Ok(Selection("505", "HTTP Version Not Supported", DefaultResultType, inner.handler, map[]))
    else if !UnderRoot(config, path) then
      match FindHandler(config, verb, "forbidden.html", ["types/html"], version)
      case Err(e) => Err(e)
      case Ok(inner) =>
        Ok(Selection("403", "Forbidden", DefaultResultType, inner.handler, map[]))
    else if StaticApplies(config, path, types) then
      Ok(Selection("200", "OK", PathToType(config.staticTypeTable, path) + "; charset=UTF-8", StaticHandler, map[]))
    else
      match FirstRoute(config.routeList, verb, path, types, 0)
      case Some(k) =>
        var route := config.routeList[k];
        if route.route in config.viewsTable then
          Ok(Selection("200", "OK", route.mimeType + "; charset=UTF-8",
                       ViewHandler(route.route), MatchTemplate(path, route.template)))
        else
          Err("no view for route " + route.route)
      case None =>
        Ok(Selection("404", "Not Found", DefaultResultType, MissingHandler, map[]))
  }

  /** Nothing in the configuration produces the mime type `types/html`. */
  predicate NoTypesHtml(config: ConnConfig) {
    && (forall k :: 0 <= k < |config.routeList| ==> config.routeList[k].mimeType != "types/html")
    && "types/html" !in config.staticTypeTable.Values
  }

  /** Looked up with the accepted types `["types/html"]`, a page under the
      resource root is not found. */
  lemma TypesHtmlNotFound(config: ConnConfig, verb: string, page: string, types: seq<string>, version: string)
    requires ErrorPagesUnderRoot(config) && NoTypesHtml(config) && VersionOk(version)
    requires UnderRoot(config, page) && types == ["types/html"]
    ensures FindHandler(config, verb, page, types, version)
            == Ok(Selection("404", "Not Found", DefaultResultType, MissingHandler, map[]))
  {
    TypesHtmlNotStatic(config, page, types);
    TypesHtmlNoRoute(config, verb, page, types);
  }

  lemma TypesHtmlNotStatic(config: ConnConfig, page: string, types: seq<string>)
    requires NoTypesHtml(config) && types == ["types/html"]
    ensures !StaticApplies(config, page, types)
  {
    var table := config.staticTypeTable;
    var mime := PathToType(table, page);
    if mime != "text/html" {
      var key := "." + FileType(page).value;
      assert key in table && table[key] == mime;
      assert mime in table.Values;
    } else {
      assert mime[1] != "types/html"[1];
    }
    assert |"*/*"| != |types[0]|;
    assert mime !in types;
  }

  lemma TypesHtmlNoRoute(config: ConnConfig, verb: string, page: string, types: seq<string>)
    requires NoTypesHtml(config) && types == ["types/html"]
    ensures FirstRoute(config.routeList, verb, page, types, 0).None?
  {
    forall k | 0 <= k < |config.routeList| ensures !RouteApplies(config.routeList[k], verb, page, types) {
      assert config.routeList[k].mimeType != "types/html";
    }
  }

  /** Looked up with the accepted types `["types/html"]`, a page is served by
      the missing handler. */
  lemma TypesHtmlIsMissing(config: ConnConfig, verb: string, page: string, version: string)
    requires ErrorPagesUnderRoot(config) && NoTypesHtml(config) && VersionOk(version)
    ensures var r := FindHandler(config, verb, page, ["types/html"], version);
            r.Ok? && r.value.handler == MissingHandler
  {
    if !UnderRoot(config, page) {
      TypesHtmlNotFound(config, verb, "forbidden.html", ["types/html"], version);
    } else {
      TypesHtmlNotFound(config, verb, page, ["types/html"], version);
    }
  }

  /** Unless a route or the extension table produces `types/html`, the
      505 and 403 responses are rendered by the missing handler, that is
      from `not-found.html`. */
  lemma ErrorResponsesUseMissingHandler(config: ConnConfig, verb: string, path: string,
                                        types: seq<string>, version: string)
    requires ErrorPagesUnderRoot(config) && NoTypesHtml(config)
    requires !VersionOk(version) || !UnderRoot(config, path)
    ensures var r := FindHandler(config, verb, path, types, version);
            r.Ok? && r.value.handler == MissingHandler
            && r.value.statusCode == (if VersionOk(version) then "403" else "505")
  {
    if !VersionOk(version) {
      assert VersionOk("1.1");
      TypesHtmlIsMissing(config, verb, "not-supported.html", "1.1");
    } else {
      TypesHtmlIsMissing(config, verb, "forbidden.html", version);
    }
  }

  /** `find_handler` answers with one of four status codes, and 200 only
      with the static handler or a route's view. */
  lemma FindHandlerStatus(config: ConnConfig, verb: string, path: string, types: seq<string>, version: string)
    requires ErrorPagesUnderRoot(config)
    ensures var r := FindHandler(config, verb, path, types, version);
            r.Ok? ==> r.value.statusCode in {"200", "403", "404", "505"}
    ensures var r := FindHandler(config, verb, path, types, version);
            r.Ok? && r.value.statusCode == "200" ==> r.value.handler.StaticHandler? || r.value.handler.ViewHandler?
    ensures var r := FindHandler(config, verb, path, types, version);
            r.Ok? && r.value.statusCode == "404" ==> r.value.handler == MissingHandler
  {
  }

  /** The earliest route that serves a request wins over any later one. */
  lemma EarliestRouteWins(config: ConnConfig, verb: string, path: string, types: seq<string>,
                          version: string, i: nat)
    requires ErrorPagesUnderRoot(config)
    requires VersionOk(version) && UnderRoot(config, path) && !StaticApplies(config, path, types)
    requires i < |config.routeList| && RouteApplies(config.routeList[i], verb, path, types)
    requires forall k :: 0 <= k < i ==> !RouteApplies(config.routeList[k], verb, path, types)
    requires config.routeList[i].route in config.viewsTable
    ensures FindHandler(config, verb, path, types, version)
            == Ok(Selection("200", "OK", config.routeList[i].mimeType + "; charset=UTF-8",
                            ViewHandler(config.routeList[i].route),
                            MatchTemplate(path, config.routeList[i].template)))
  {
    var f := FirstRoute(config.routeList, verb, path, types, 0);
    assert f.Some?;
    assert f.value == i;
  }

  // ---- make_initial_response -------------------------------------------------------

  /** `make_initial_response`: the headers every response starts with (the
      date is passed in), `Cache-Control: no-cache` when `debug` is exactly
      `true`, and the context templates can use. */
  function MakeInitialResponse(config: ConnConfig, statusCode: string, statusMesg: string,
                               mimeType: string, request: Request, date: string): (r: Response)
    ensures r.status == statusCode + " " + statusMesg
    ensures 3 <= |r.headers| <= 4
    ensures r.headers[..3] == [("Content-Type", mimeType), ("Date", date), ("Server", config.serverInfo)]
    ensures |r.headers| == 4 <==> "debug" in config.settings && config.settings["debug"] == "true"
    ensures |r.headers| == 4 ==> r.headers[3] == ("Cache-Control", "no-cache")
    ensures ToStr(r.body) == "" && r.template == ""
    ensures r.context.Keys == {"request-path", "status-code", "status-mesg", "request-version"}
    ensures r.context["request-path"] == request.path
    ensures r.context["status-code"] == statusCode && r.context["status-mesg"] == statusMesg
    ensures r.context["request-version"] == request.version
  {
    var debug := "debug" in config.settings && config.settings["debug"] == "true";
    var headers := [("Content-Type", mimeType), ("Date", date), ("Server", config.serverInfo)]
                   + (if debug then [("Cache-Control", "no-cache")] else []);
    var context := map["request-path" := request.path, "status-code" := statusCode,
                       "status-mesg" := statusMesg, "request-version" := request.version];
    Response(statusCode + " " + statusMesg, headers, StringBody(""), "", context)
  }

  /** The default handlers keep the assertion of `get_body`: a response with
      a template has an empty body, so the template can be rendered into it. */
  lemma DefaultHandlersLeaveBodyForTemplate(config: ConnConfig, escape: string -> string, initial: Response)
    requires ToStr(initial.body) == "" && initial.template == ""
    ensures var r := StaticView(config, escape, initial); r.template != "" ==> ToStr(r.body) == ""
    ensures var r := MissingView(initial); ToStr(r.body) == ""
  {
    StaticViewTemplateHasEmptyBody(config, escape, initial);
  }
}

=== FILE: results.dfy ===
/** Failure-carrying wrappers shared by every module of the model.
    Rust's `option::Option` and `result::Result<T, ~str>` are modelled by
    `Option` and `Result`; an `assert` or `fail` in the server that callers
    can provoke with their inputs becomes an `Err`. */
module Results {

  /** Rust's `u8`. */
  newtype byte = b: int | 0 <= b < 0x100

  datatype Option<+T> = None | Some(value: T) {

    /** The value, or `default` when there is none. */
    function GetOr(default: T): T {
      match this
      case Some(v) => v
      case None => default
    }
  }

  datatype Result<+T> = Ok(value: T) | Err(error: string) {

    function ToOption(): Option<T> {
      match this
      case Ok(v) => Some(v)
      case Err(_) => None
    }
  }
}

=== FILE: sse.dfy ===
/** `sse`: server-sent event sessions. The server keeps a registry from
    request paths to the control channels of the tasks that push events to
    the clients; a request for an event source either refreshes the task
    already registered for its path, opens a new one through the opener
    registered for the path, or is answered with 404. Channels are known by
    a number, and what the server sends on them is returned as a log. */
module Sse {
  import opened Results
  import opened Configuration
  import Requests

  /** A control channel (`ControlChan`), identified by a number: the task
      behind it is not modelled. */
  type Chan = nat

  /** `ControlEvent`. */
  datatype ControlEvent = RefreshEvent | CloseEvent

  /** One message the server sends: `event` on the channel `chan` of the
      task registered for `path`. */
  datatype Sent = Sent(path: string, chan: Chan, event: ControlEvent)

  /** The registry: each path with a running task and that task's channel. */
  type Tasks = map<string, Chan>

  /** `config.sse`: the paths that have an opener, each with the channel the
      task it spawns hands back. */
  type Openers = map<string, Chan>

  /** What `process_sse` produces: the response, its body, the registry
      afterwards and the messages sent. */
  datatype SseResult = SseResult(response: Response, body: Body, tasks: Tasks, sent: seq<Sent>)

  // ---- response headers ---------------------------------------------------------------

  /** The value of the header called `name`, if there is one. */
  function HeaderValue(headers: seq<(string, string)>, name: string): (r: Option<string>)
    ensures r.Some? <==> exists k :: 0 <= k < |headers| && headers[k].0 == name
  {
    if |headers| == 0 then None
    else if headers[0].0 == name then Some(headers[0].1)
    else
      var rest := HeaderValue(headers[1..], name);
      assert forall k :: 1 <= k < |headers| ==> headers[k] == headers[1..][k - 1];
      rest
  }

  /** The names of the headers. */
  function Names(headers: seq<(string, string)>): set<string> {
    set k | 0 <= k < |headers| :: headers[k].0
  }

  /** Header names are unique. */
  predicate DistinctNames(headers: seq<(string, string)>) {
    forall i, j :: 0 <= i < j < |headers| ==> headers[i].0 != headers[j].0
  }

  lemma NamesCons(h: (string, string), rest: seq<(string, string)>)
    ensures Names([h] + rest) == {h.0} + Names(rest)
    ensures DistinctNames([h] + rest) <==> h.0 !in Names(rest) && DistinctNames(rest)
  {
    var s := [h] + rest;
    assert forall k :: 1 <= k < |s| ==> s[k] == rest[k - 1];
    assert s[0] == h;
    assert Names(s) == {h.0} + Names(rest) by {
      forall x | x in Names(s) ensures x in {h.0} + Names(rest) {
        var k :| 0 <= k < |s| && s[k].0 == x;
        if k > 0 { assert rest[k - 1].0 == x; }
      }
      forall x | x in Names(rest) ensures x in Names(s) {
        var k :| 0 <= k < |rest| && rest[k].0 == x;
        assert s[k + 1].0 == x;
      }
    }
    if h.0 !in Names(rest) && DistinctNames(rest) {
      forall i, j | 0 <= i < j < |s| ensures s[i].0 != s[j].0 {
        if i == 0 {
          assert s[j].0 == rest[j - 1].0;
          assert rest[j - 1].0 in Names(rest);
        }
      }
    }
    if DistinctNames(s) {
      forall k | 0 <= k < |rest| ensures rest[k].0 != h.0 {
        assert s[k + 1] == rest[k];
      }
      forall i, j | 0 <= i < j < |rest| ensures rest[i].0 != rest[j].0 {
        assert s[i + 1] == rest[i] && s[j + 1] == rest[j];
      }
    }
  }

  /** `HashMap::insert` on the headers: the value of an existing header is
      replaced in place, a new header goes at the end. */
  function SetHeader(headers: seq<(string, string)>, name: string, value: string): (r: seq<(string, string)>)
    ensures |r| == |headers| || |r| == |headers| + 1
    ensures HeaderValue(r, name) == Some(value)
    ensures forall n :: n != name ==> HeaderValue(r, n) == HeaderValue(headers, n)
    ensures Names(r) == Names(headers) + {name}
    ensures DistinctNames(headers) ==> DistinctNames(r)
  {
    if |headers| == 0 then
      NamesCons((name, value), []);
      [(name, value)]
    else
      var h := headers[0];
      assert headers == [h] + headers[1..];
      NamesCons(h, headers[1..]);
      if h.0 == name then
        NamesCons((name, value), headers[1..]);
        [(name, value)] + headers[1..]
      else
        var rest := SetHeader(headers[1..], name, value);
        NamesCons(h, rest);
        [h] + rest
  }

  // ---- opening and refreshing sessions -------------------------------------------

  /** `OpenSse`: when the path has an opener, start its task and register
      the channel it hands back; report whether there was an opener. */
  function OpenSse(openers: Openers, tasks: Tasks, path: string): (r: (bool, Tasks))
    ensures r.0 <==> path in openers
    ensures r.1.Keys == if r.0 then tasks.Keys + {path} else tasks.Keys
    ensures r.0 ==> r.1[path] == openers[path]
    ensures forall p :: p in tasks && p != path ==> r.1[p] == tasks[p]
  {
    if path in openers then (true, tasks[path := openers[path]]) else (false, tasks)
  }

  const EventStream: string := "text/event-stream; charset=utf-8"

  /** `process_sse`: refresh the task already registered for the request's
      path, or open one; without an opener the answer is 404 with a plain
      `text/event-stream` type. The response is chunked and not cached, and
      its body is a blank line. */
  function ProcessSse(config: ConnConfig, openers: Openers, tasks: Tasks, request: Request,
                      date: string): (r: SseResult)
    ensures r.body == StringBody("\n\n")
    ensures HeaderValue(r.response.headers, "Transfer-Encoding") == Some("chunked")
    ensures HeaderValue(r.response.headers, "Cache-Control") == Some("no-cache")
    ensures r.response.status == "200 OK" || r.response.status == "404 Not Found"
    ensures r.response.status == "404 Not Found"
        <==> request.path !in tasks && request.path !in openers
    ensures HeaderValue(r.response.headers, "Content-Type")
         == Some(if r.response.status == "200 OK" then EventStream else "text/event-stream")
    ensures "Content-Length" !in Names(r.response.headers)
    ensures DistinctNames(r.response.headers)
  {
    var path := request.path;
    var attempt := OpenSse(openers, tasks, path);
    var found := path in tasks || attempt.0;
    var after := if path in tasks then tasks else attempt.1;
    var sent := if path in tasks then [Sent(path, tasks[path], RefreshEvent)] else [];
    var code := if found then "200" else "404";
    var mesg := if found then "OK" else "Not Found";
    var mime := if found then EventStream else "text/event-stream";
    var initial := Requests.MakeInitialResponse(config, code, mesg, mime, request, date);
    var headers := SetHeader(SetHeader(initial.headers, "Transfer-Encoding", "chunked"), "Cache-Control", "no-cache");
    InitialHeaders(initial.headers, mime, date, config.serverInfo);
    NamesDiffer();
    SetTwo(initial.headers, "Transfer-Encoding", "chunked", "Cache-Control", "no-cache",
           "Content-Type", mime, "Content-Length", headers);
    StatusLine(found, code, mesg);
    SseResult(initial.(headers := headers), StringBody("\n\n"), after, sent)
  }

  lemma StatusLine(found: bool, code: string, mesg: string)
    requires code == (if found then "200" else "404") && mesg == (if found then "OK" else "Not Found")
    ensures found ==> code + " " + mesg == "200 OK"
    ensures !found ==> code + " " + mesg == "404 Not Found"
    ensures "200 OK" != "404 Not Found"
  {
  }

  /** The header names of event-stream responses differ from one another. */
  lemma NamesDiffer()
    ensures "Content-Type" != "Date" && "Content-Type" != "Server" && "Content-Type" != "Cache-Control"
    ensures "Content-Type" != "Transfer-Encoding" && "Content-Type" != "Content-Length"
    ensures "Date" != "Server" && "Date" != "Cache-Control" && "Date" != "Transfer-Encoding"
    ensures "Date" != "Content-Length"
    ensures "Server" != "Cache-Control" && "Server" != "Transfer-Encoding" && "Server" != "Content-Length"
    ensures "Cache-Control" != "Transfer-Encoding" && "Cache-Control" != "Content-Length"
    ensures "Transfer-Encoding" != "Content-Length"
  {
    assert "Content-Type"[1] != "Cache-Control"[1];
    assert "Content-Type"[8] != "Content-Length"[8];
    assert "Cache-Control"[1] != "Content-Length"[1];
  }

  /** A header whose name is not among the names has no value. */
  lemma ValueAbsent(headers: seq<(string, string)>, name: string)
    requires name !in Names(headers)
    ensures HeaderValue(headers, name).None?
  {
    forall k | 0 <= k < |headers| ensures headers[k].0 != name {
      assert headers[k].0 in Names(headers);
    }
  }

  /** With distinct names, each header's value is found under its name. */
  lemma {:induction false} ValueAt(headers: seq<(string, string)>, k: nat)
    requires DistinctNames(headers) && k < |headers|
    ensures HeaderValue(headers, headers[k].0) == Some(headers[k].1)
    decreases k
  {
    if k > 0 {
      var rest := headers[1..];
      assert headers == [headers[0]] + rest;
      NamesCons(headers[0], rest);
      assert rest[k - 1] == headers[k];
      ValueAt(rest, k - 1);
      assert headers[0].0 != headers[k].0;
    }
  }

  lemma Three(a: (string, string), b: (string, string), c: (string, string))
    ensures Names([a, b, c]) == {a.0, b.0, c.0}
    ensures a.0 != b.0 && a.0 != c.0 && b.0 != c.0 ==> DistinctNames([a, b, c])
  {
    assert [a, b, c] == [a] + ([b] + ([c] + []));
    NamesCons(c, []);
    NamesCons(b, [c] + []);
    NamesCons(a, [b] + ([c] + []));
  }

  lemma Four(a: (string, string), b: (string, string), c: (string, string), d: (string, string))
    ensures Names([a, b, c, d]) == {a.0, b.0, c.0, d.0}
    ensures a.0 != b.0 && a.0 != c.0 && a.0 != d.0 && b.0 != c.0 && b.0 != d.0 && c.0 != d.0
            ==> DistinctNames([a, b, c, d])
  {
    assert [a, b, c, d] == [a] + [b, c, d];
    Three(b, c, d);
    NamesCons(a, [b, c, d]);
  }

  lemma Five(a: (string, string), b: (string, string), c: (string, string), d: (string, string),
             e: (string, string))
    ensures Names([a, b, c, d, e]) == {a.0, b.0, c.0, d.0, e.0}
    ensures && a.0 != b.0 && a.0 != c.0 && a.0 != d.0 && a.0 != e.0
            && b.0 != c.0 && b.0 != d.0 && b.0 != e.0 && c.0 != d.0 && c.0 != e.0 && d.0 != e.0
            ==> DistinctNames([a, b, c, d, e])
  {
    assert [a, b, c, d, e] == [a] + [b, c, d, e];
    Four(b, c, d, e);
    NamesCons(a, [b, c, d, e]);
  }

  /** Setting two headers `te` and `cc` keeps the value of a third, `ct`,
      and adds no fourth name `cl`. */
  lemma SetTwo(initial: seq<(string, string)>, te: string, tv: string, cc: string, cv: string,
               ct: string, mime: string, cl: string, headers: seq<(string, string)>)
    requires DistinctNames(initial) && HeaderValue(initial, ct) == Some(mime) && cl !in Names(initial)
    requires ct != te && ct != cc && te != cc && cl != te && cl != cc
    requires headers == SetHeader(SetHeader(initial, te, tv), cc, cv)
    ensures HeaderValue(headers, ct) == Some(mime)
    ensures HeaderValue(headers, te) == Some(tv)
    ensures HeaderValue(headers, cc) == Some(cv)
    ensures cl !in Names(headers)
    ensures DistinctNames(headers)
  {
    var once := SetHeader(initial, te, tv);
    assert HeaderValue(once, ct) == Some(mime);
  }

  /** The headers `make_initial_response` starts with are distinct and give
      the content type. */
  lemma InitialHeaders(headers: seq<(string, string)>, mime: string, date: string, server: string)
    requires 3 <= |headers| <= 4
    requires headers[..3] == [("Content-Type", mime), ("Date", date), ("Server", server)]
    requires |headers| == 4 ==> headers[3] == ("Cache-Control", "no-cache")
    ensures DistinctNames(headers)
    ensures HeaderValue(headers, "Content-Type") == Some(mime)
    ensures "Content-Length" !in Names(headers)
  {
    var a, b, c := ("Content-Type", mime), ("Date", date), ("Server", server);
    NamesDiffer();
    if |headers| == 3 {
      assert headers == [a, b, c];
      Three(a, b, c);
    } else {
      var d := ("Cache-Control", "no-cache");
      assert headers == [a, b, c, d];
      Four(a, b, c, d);
    }
    ValueAt(headers, 0);
  }

  /** A path with a running task: that task is refreshed, once, and the
      registry does not change. */
  lemma RefreshRegistered(config: ConnConfig, openers: Openers, tasks: Tasks, request: Request, date: string)
    requires request.path in tasks
    ensures var r := ProcessSse(config, openers, tasks, request, date);
            && r.tasks == tasks && r.response.status == "200 OK"
            && r.sent == [Sent(request.path, tasks[request.path], RefreshEvent)]
  {
  }

  /** A new path with an opener: exactly that path is registered, nothing is
      sent and the answer is 200. */
  lemma OpenUnregistered(config: ConnConfig, openers: Openers, tasks: Tasks, request: Request, date: string)
    requires request.path !in tasks && request.path in openers
    ensures var r := ProcessSse(config, openers, tasks, request, date);
            && r.tasks.Keys == tasks.Keys + {request.path} && r.tasks[request.path] == openers[request.path]
            && (forall p :: p in tasks ==> r.tasks[p] == tasks[p])
            && r.sent == [] && r.response.status == "200 OK"
  {
  }

  /** A new path without an opener: 404, nothing sent, the registry as it was. */
  lemma NotFoundUnregistered(config: ConnConfig, openers: Openers, tasks: Tasks, request: Request, date: string)
    requires request.path !in tasks && request.path !in openers
    ensures var r := ProcessSse(config, openers, tasks, request, date);
            && r.tasks == tasks && r.sent == [] && r.response.status == "404 Not Found"
            && HeaderValue(r.response.headers, "Content-Type") == Some("text/event-stream")
  {
  }

  /** Every registered path has an opener. */
  predicate Registered(tasks: Tasks, openers: Openers) {
    tasks.Keys <= openers.Keys
  }

  /** `process_sse` keeps every task, adds at most the request's path, and
      only registers paths that have an opener. */
  lemma ProcessSseRegistry(config: ConnConfig, openers: Openers, tasks: Tasks, request: Request, date: string)
    ensures var r := ProcessSse(config, openers, tasks, request, date);
            && tasks.Keys <= r.tasks.Keys <= tasks.Keys + {request.path}
            && (forall p :: p in tasks ==> r.tasks[p] == tasks[p])
            && (Registered(tasks, openers) ==> Registered(r.tasks, openers))
            && |r.sent| <= 1
  {
  }

  /** The response is framed as one chunk with no `Content-Length`. */
  lemma ProcessSseSerialises(config: ConnConfig, openers: Openers, tasks: Tasks, request: Request, date: string)
    ensures var r := ProcessSse(config, openers, tasks, request, date);
            && Requests.IsChunked(r.response.headers) && !Requests.HasContentLength(r.response.headers)
            && Requests.MakeHeaderAndBody(r.response, "\n\n").Ok?
            && Requests.MakeHeaderAndBody(r.response, "\n\n").value.1 == Requests.EncodeChunk("\n\n")
  {
    var r := ProcessSse(config, openers, tasks, request, date);
    ChunkedAt(r.response.headers);
    NoContentLength(r.response.headers);
  }

  /** A `Transfer-Encoding: chunked` header makes the response chunked. */
  lemma {:induction false} ChunkedAt(headers: seq<(string, string)>)
    requires HeaderValue(headers, "Transfer-Encoding") == Some("chunked")
    ensures Requests.IsChunked(headers)
    decreases |headers|
  {
    if headers[0].0 != "Transfer-Encoding" {
      ChunkedAt(headers[1..]);
      var k :| 0 <= k < |headers[1..]| && headers[1..][k] == ("Transfer-Encoding", "chunked");
      assert headers[k + 1] == headers[1..][k];
    } else {
      assert headers[0] == ("Transfer-Encoding", "chunked");
    }
  }

  lemma NoContentLength(headers: seq<(string, string)>)
    requires "Content-Length" !in Names(headers)
    ensures !Requests.HasContentLength(headers)
  {
    forall k | 0 <= k < |headers| ensures headers[k].0 != "Content-Length" {
      assert headers[k].0 in Names(headers);
    }
  }

  // ---- closing sessions --------------------------------------------------------------

  /** `order` lists the registered paths, each once: the order in which the
      registry's hash map hands them out. */
  predicate Enumerates(order: seq<string>, tasks: Tasks) {
    && (forall i :: 0 <= i < |order| ==> order[i] in tasks)
    && (forall p :: p in tasks ==> p in order)
    && (forall i, j :: 0 <= i < j < |order| ==> order[i] != order[j])
  }

  /** `close_sses`: a `CloseEvent` to the task of every path, in `order`. */
  function CloseSses(tasks: Tasks, order: seq<string>): (r: seq<Sent>)
    requires forall i :: 0 <= i < |order| ==> order[i] in tasks
    ensures |r| == |order|
    ensures forall i :: 0 <= i < |r| ==> r[i] == Sent(order[i], tasks[order[i]], CloseEvent)
  {
    if |order| == 0 then []
    else
      assert forall i :: 1 <= i < |order| ==> order[i] == order[1..][i - 1];
      [Sent(order[0], tasks[order[0]], CloseEvent)] + CloseSses(tasks, order[1..])
  }

  /** Each registered task is closed exactly once, and nothing else is sent,
      whatever the order of the registry. */
  lemma CloseEachOnce(tasks: Tasks, order: seq<string>)
    requires Enumerates(order, tasks)
    ensures var r := CloseSses(tasks, order);
            && |r| == |tasks|
            && (forall p :: p in tasks ==> Sent(p, tasks[p], CloseEvent) in r)
            && (forall s :: s in r ==> s.path in tasks && s == Sent(s.path, tasks[s.path], CloseEvent))
            && (forall i, j :: 0 <= i < j < |r| ==> r[i].path != r[j].path)
  {
    var r := CloseSses(tasks, order);
    forall p | p in tasks ensures Sent(p, tasks[p], CloseEvent) in r {
      var i :| 0 <= i < |order| && order[i] == p;
      assert r[i] == Sent(p, tasks[p], CloseEvent);
    }
    EnumerationSize(order, tasks);
  }

  /** An enumeration is as long as the registry. */
  lemma EnumerationSize(order: seq<string>, tasks: Tasks)
    requires Enumerates(order, tasks)
    ensures |order| == |tasks|
  {
    DistinctCard(order);
    assert (set i | 0 <= i < |order| :: order[i]) == tasks.Keys;
  }

  lemma {:induction false} DistinctCard(order: seq<string>)
    requires forall i, j :: 0 <= i < j < |order| ==> order[i] != order[j]
    ensures |set i | 0 <= i < |order| :: order[i]| == |order|
    decreases |order|
  {
    if |order| > 0 {
      var rest := order[1..];
      DistinctCard(rest);
      var s := set i | 0 <= i < |order| :: order[i];
      var t := set i | 0 <= i < |rest| :: rest[i];
      assert s == {order[0]} + t by {
        forall x | x in s ensures x in {order[0]} + t {
          var i :| 0 <= i < |order| && order[i] == x;
          if i > 0 { assert rest[i - 1] == x; }
        }
        forall x | x in t ensures x in s {
          var i :| 0 <= i < |rest| && rest[i] == x;
          assert order[i + 1] == x;
        }
      }
      assert order[0] !in t by {
        forall i | 0 <= i < |rest| ensures rest[i] != order[0] {
          assert rest[i] == order[i + 1];
        }
      }
    }
  }

  // ---- make_response ------------------------------------------------------------------

  /** `make_response`: an empty, chunked, uncached event stream. */
  function MakeResponse(config: ConnConfig, date: string): (r: Response)
    ensures r.status == "200 OK" && r.template == "" && r.body == StringBody("") && r.context == map[]
    ensures DistinctNames(r.headers)
    ensures HeaderValue(r.headers, "Content-Type") == Some(EventStream)
    ensures HeaderValue(r.headers, "Transfer-Encoding") == Some("chunked")
    ensures HeaderValue(r.headers, "Cache-Control") == Some("no-cache")
    ensures HeaderValue(r.headers, "Server") == Some(config.serverInfo)
    ensures HeaderValue(r.headers, "Date") == Some(date)
    ensures "Content-Length" !in Names(r.headers)
  {
    var headers := [("Cache-Control", "no-cache"), ("Content-Type", EventStream), ("Date", date),
                    ("Server", config.serverInfo), ("Transfer-Encoding", "chunked")];
    StreamHeaders(headers, date, config.serverInfo);
    Response("200 OK", headers, StringBody(""), "", map[])
  }

  lemma StreamHeaders(headers: seq<(string, string)>, date: string, server: string)
    requires headers == [("Cache-Control", "no-cache"), ("Content-Type", EventStream), ("Date", date),
                         ("Server", server), ("Transfer-Encoding", "chunked")]
    ensures DistinctNames(headers)
    ensures HeaderValue(headers, "Content-Type") == Some(EventStream)
    ensures HeaderValue(headers, "Transfer-Encoding") == Some("chunked")
    ensures HeaderValue(headers, "Cache-Control") == Some("no-cache")
    ensures HeaderValue(headers, "Server") == Some(server)
    ensures HeaderValue(headers, "Date") == Some(date)
    ensures "Content-Length" !in Names(headers)
  {
    var a, b, c, d, e := headers[0], headers[1], headers[2], headers[3], headers[4];
    assert headers == [a, b, c, d, e];
    NamesDiffer();
    Five(a, b, c, d, e);
    ValueAt(headers, 0);
    ValueAt(headers, 1);
    ValueAt(headers, 2);
    ValueAt(headers, 3);
    ValueAt(headers, 4);
  }
}

=== FILE: strings.dfy ===
/** The string primitives of Rust's `core::str` that the server relies on:
    searching, splitting, joining, trimming, lower-casing, numerals and
    byte-wise ordering. Strings are sequences of characters. */
module Strings {
  import opened Results

  predicate StartsWith(s: string, prefix: string) {
    |prefix| <= |s| && s[..|prefix|] == prefix
  }

  predicate EndsWith(s: string, suffix: string) {
    |suffix| <= |s| && s[|s| - |suffix|..] == suffix
  }

  // ---- searching ------------------------------------------------------------

  /** `str::find_char_from`: the first index at or after `from` holding `c`. */
  function FindCharFrom(s: string, c: char, from: nat): (r: Option<nat>)
    ensures r.Some? ==> from <= r.value < |s| && s[r.value] == c
    ensures r.Some? ==> forall j :: from <= j < r.value ==> s[j] != c
    ensures r.None? ==> forall j :: from <= j < |s| ==> s[j] != c
    decreases |s| - from
  {
    if from >= |s| then None
    else if s[from] == c then Some(from)
    else FindCharFrom(s, c, from + 1)
  }

  /** `str::find_char`: the first index holding `c`. */
  function FindChar(s: string, c: char): (r: Option<nat>)
    ensures r.Some? ==> r.value < |s| && s[r.value] == c
    ensures r.Some? ==> forall j :: 0 <= j < r.value ==> s[j] != c
    ensures r.None? <==> c !in s
  {
    FindCharFrom(s, c, 0)
  }

  /** `str::rfind_char`: the last index holding `c`. */
  function RFindChar(s: string, c: char): (r: Option<nat>)
    ensures r.Some? ==> r.value < |s| && s[r.value] == c
    ensures r.Some? ==> forall j :: r.value < j < |s| ==> s[j] != c
    ensures r.None? <==> c !in s
  {
    if |s| == 0 then None
    else if s[|s| - 1] == c then Some(|s| - 1)
    else
      var r := RFindChar(s[..|s| - 1], c);
      assert s == s[..|s| - 1] + [s[|s| - 1]];
      r
  }

  /** `pattern` occurs in `s` starting at index `i`. */
  predicate OccursAt(s: string, pattern: string, i: nat) {
    i + |pattern| <= |s| && s[i..i + |pattern|] == pattern
  }

  /** `str::find_str_from`: the first occurrence of `pattern` at or after `from`. */
  function FindStrFrom(s: string, pattern: string, from: nat): (r: Option<nat>)
    ensures r.Some? ==> from <= r.value && OccursAt(s, pattern, r.value)
    ensures r.Some? ==> forall j :: from <= j < r.value ==> !OccursAt(s, pattern, j)
    ensures r.None? ==> forall j :: from <= j ==> !OccursAt(s, pattern, j)
    decreases |s| - from
  {
    if from + |pattern| > |s| then None
    else if s[from..from + |pattern|] == pattern then Some(from)
    else FindStrFrom(s, pattern, from + 1)
  }

  // ---- splitting and joining -------------------------------------------------

  /** `str::connect`: the parts with `sep` between consecutive ones. */
  function Join(parts: seq<string>, sep: string): string {
    if |parts| == 0 then ""
    else if |parts| == 1 then parts[0]
    else parts[0] + sep + Join(parts[1..], sep)
  }

  lemma JoinTwo(a: string, b: string, sep: string)
    ensures Join([a, b], sep) == a + sep + b
  {
    assert [a, b][1..] == [b];
  }

  /** `str::split_char`: the pieces between occurrences of `c`, empty pieces
      included, so there is always one more piece than there are `c`s. */
  function Split(s: string, c: char): (r: seq<string>)
    ensures |r| >= 1
    ensures forall k :: 0 <= k < |r| ==> c !in r[k]
    decreases |s|
  {
    match FindChar(s, c)
    case None => [s]
    case Some(i) => [s[..i]] + Split(s[i + 1..], c)
  }

  /** The non-empty strings of `parts`, in order. */
  function NonEmpty(parts: seq<string>): (r: seq<string>)
    ensures forall k :: 0 <= k < |r| ==> r[k] != "" && r[k] in parts
    ensures |r| <= |parts|
  {
    if |parts| == 0 then []
    else if parts[0] == "" then NonEmpty(parts[1..])
    else [parts[0]] + NonEmpty(parts[1..])
  }

  /** `str::split_char_nonempty`: `Split` without its empty pieces. */
  function SplitNonEmpty(s: string, c: char): (r: seq<string>)
    ensures forall k :: 0 <= k < |r| ==> r[k] != "" && c !in r[k]
  {
    NonEmpty(Split(s, c))
  }

  lemma JoinCons(x: string, rest: seq<string>, sep: string)
    requires |rest| >= 1
    ensures Join([x] + rest, sep) == x + sep + Join(rest, sep)
  {
    assert ([x] + rest)[1..] == rest;
  }

  /** Joining grows at the back by one separator and the new part. */
  lemma {:induction false} JoinSnoc(parts: seq<string>, x: string, sep: string)
    requires |parts| >= 1
    ensures Join(parts + [x], sep) == Join(parts, sep) + sep + x
  {
    if |parts| == 1 {
      assert (parts + [x])[1..] == [x];
    } else {
      assert (parts + [x])[1..] == parts[1..] + [x];
      JoinSnoc(parts[1..], x, sep);
    }
  }

  /** Splitting and re-joining at `c` gives back the original string. */
  lemma {:induction false} JoinSplit(s: string, c: char)
    ensures Join(Split(s, c), [c]) == s
    decreases |s|
  {
    match FindChar(s, c)
    case None =>
      assert Split(s, c) == [s];
    case Some(i) =>
      var a, b := s[..i], s[i + 1..];
      var rest := Split(b, c);
      assert Split(s, c) == [a] + rest;
      JoinSplit(b, c);
      JoinCons(a, rest, [c]);
      Rejoin(s, i, c);
  }

  /** A string is the part before index `i`, the character there and the part after. */
  lemma Rejoin(s: string, i: nat, c: char)
    requires i < |s| && s[i] == c
    ensures s[..i] + [c] + s[i + 1..] == s
  {
    assert s[i..] == [c] + s[i + 1..];
    assert s == s[..i] + s[i..];
  }

  /** Joining pieces free of `c` and splitting again gives back the pieces. */
  lemma {:induction false} SplitJoin(parts: seq<string>, c: char)
    requires |parts| >= 1
    requires forall k :: 0 <= k < |parts| ==> c !in parts[k]
    ensures Split(Join(parts, [c]), c) == parts
    decreases |parts|
  {
    if |parts| > 1 {
      var tail := Join(parts[1..], [c]);
      assert Join(parts, [c]) == parts[0] + [c] + tail;
      SplitFirst(parts[0], tail, c);
      SplitJoin(parts[1..], c);
    }
  }

  /** The first piece of a split ends at the first `c`. */
  lemma SplitFirst(a: string, tail: string, c: char)
    requires c !in a
    ensures Split(a + [c] + tail, c) == [a] + Split(tail, c)
  {
    var s := a + [c] + tail;
    var i := |a|;
    assert s[i] == c;
    assert forall j :: 0 <= j < i ==> s[j] == a[j];
    var f := FindChar(s, c);
    assert f.Some? && f.value == i;
    assert s[..i] == a;
    assert s[i + 1..] == tail;
  }

  /** Splitting `"/a/b/c"` at `/` without empty pieces gives the segments. */
  lemma SplitNonEmptyJoin(segments: seq<string>, c: char)
    requires forall k :: 0 <= k < |segments| ==> segments[k] != "" && c !in segments[k]
    ensures SplitNonEmpty([c] + Join(segments, [c]), c) == segments
  {
    var s := [c] + Join(segments, [c]);
    assert FindChar(s, c) == Some(0);
    assert s[..0] == "";
    assert s[1..] == Join(segments, [c]);
    assert Split(s, c) == [""] + Split(Join(segments, [c]), c);
    if |segments| == 0 {
      assert Split("", c) == [""];
      assert NonEmpty(["", ""]) == [];
    } else {
      SplitJoin(segments, c);
      NonEmptyOfNonEmpty(segments);
    }
  }

  lemma {:induction false} NonEmptyOfNonEmpty(parts: seq<string>)
    requires forall k :: 0 <= k < |parts| ==> parts[k] != ""
    ensures NonEmpty(parts) == parts
    ensures NonEmpty([""] + parts) == parts
    decreases |parts|
  {
    assert ([""] + parts)[1..] == parts;
    if |parts| > 0 {
      NonEmptyOfNonEmpty(parts[1..]);
      assert parts == [parts[0]] + parts[1..];
    }
  }

  // ---- trimming and case -----------------------------------------------------

  /** `char::is_whitespace` of the Rust of that time: space, the controls
      TAB through CR, and the Unicode space, line and paragraph separators. */
  predicate IsWhitespace(c: char) {
    || c == ' '
    || ('\t' <= c <= '\r')
    || c == '\U{00A0}' || c == '\U{1680}' || c == '\U{180E}'
    || ('\U{2000}' <= c <= '\U{200A}')
    || c == '\U{2028}' || c == '\U{2029}' || c == '\U{202F}'
    || c == '\U{205F}' || c == '\U{3000}'
  }

  /** The number of leading whitespace characters. */
  function LeadingSpace(s: string): (n: nat)
    ensures n <= |s|
    ensures forall j :: 0 <= j < n ==> IsWhitespace(s[j])
    ensures n < |s| ==> !IsWhitespace(s[n])
  {
    if |s| > 0 && IsWhitespace(s[0]) then 1 + LeadingSpace(s[1..]) else 0
  }

  /** The number of trailing whitespace characters. */
  function TrailingSpace(s: string): (n: nat)
    ensures n <= |s|
    ensures forall j :: |s| - n <= j < |s| ==> IsWhitespace(s[j])
    ensures n < |s| ==> !IsWhitespace(s[|s| - n - 1])
  {
    if |s| > 0 && IsWhitespace(s[|s| - 1]) then 1 + TrailingSpace(s[..|s| - 1]) else 0
  }

  /** `str::trim`: `s` without leading and trailing whitespace. */
  function Trim(s: string): (r: string)
    ensures |r| <= |s|
    ensures r == "" || (!IsWhitespace(r[0]) && !IsWhitespace(r[|r| - 1]))
  {
    var i := LeadingSpace(s);
    var n := TrailingSpace(s[i..]);
    var r := s[i..|s| - n];
    assert r == "" || (!IsWhitespace(r[0]) && !IsWhitespace(r[|r| - 1])) by {
      if r != "" {
        assert r[0] == s[i];
        assert r[|r| - 1] == s[i..][|s[i..]| - n - 1];
      }
    }
    r
  }

  /** What `Trim` removes is whitespace at the two ends. */
  lemma TrimSlice(s: string)
    ensures exists i, j ::
              && 0 <= i <= j <= |s| && Trim(s) == s[i..j]
              && (forall k :: 0 <= k < i ==> IsWhitespace(s[k]))
              && (forall k :: j <= k < |s| ==> IsWhitespace(s[k]))
  {
    var i := LeadingSpace(s);
    var t := s[i..];
    var n := TrailingSpace(t);
    var j := |s| - n;
    forall k | j <= k < |s| ensures IsWhitespace(s[k]) {
      assert s[k] == t[k - i];
    }
    assert Trim(s) == s[i..j];
  }

  /** `Trim` removes exactly the whitespace around a word that starts and
      ends with a non-whitespace character. */
  lemma TrimAround(pre: string, mid: string, post: string)
    requires forall k :: 0 <= k < |pre| ==> IsWhitespace(pre[k])
    requires forall k :: 0 <= k < |post| ==> IsWhitespace(post[k])
    requires |mid| >= 1 && !IsWhitespace(mid[0]) && !IsWhitespace(mid[|mid| - 1])
    ensures Trim(pre + mid + post) == mid
  {
    var s := pre + mid + post;
    var i := LeadingSpace(s);
    assert s[|pre|] == mid[0];
    assert forall k :: 0 <= k < |pre| ==> s[k] == pre[k];
    assert i == |pre|;
    var t := s[i..];
    assert t == mid + post;
    var n := TrailingSpace(t);
    assert t[|mid| - 1] == mid[|mid| - 1];
    assert forall k :: |mid| <= k < |t| ==> t[k] == post[k - |mid|];
    assert n == |post|;
    assert s[i..|s| - n] == mid;
  }

  /** A string without leading or trailing whitespace trims to itself. */
  lemma TrimTrimmed(s: string)
    requires s == "" || (!IsWhitespace(s[0]) && !IsWhitespace(s[|s| - 1]))
    ensures Trim(s) == s
  {
  }

  /** ASCII lower-casing of one character. */
  function LowerChar(c: char): char {
    if 'A' <= c <= 'Z' then (c as int - 'A' as int + 'a' as int) as char else c
  }

  /** `str::to_lower` on the ASCII letters. */
  function ToLower(s: string): (r: string)
    ensures |r| == |s|
    ensures forall k :: 0 <= k < |s| ==> r[k] == LowerChar(s[k])
  {
    seq(|s|, k requires 0 <= k < |s| => LowerChar(s[k]))
  }

  /** Lower-casing is idempotent and leaves no upper-case ASCII letter. */
  lemma ToLowerIdempotent(s: string)
    ensures ToLower(ToLower(s)) == ToLower(s)
    ensures forall k :: 0 <= k < |s| ==> !('A' <= ToLower(s)[k] <= 'Z')
  {
  }

  // ---- numerals ----------------------------------------------------------------

  /** The digit for `d`, with upper-case letters above nine (`%X`). */
  function DigitChar(d: nat): char
    requires d < 16
  {
    if d < 10 then ('0' as int + d) as char else ('A' as int + d - 10) as char
  }

  /** The value of a digit character in the given base. */
  function DigitValue(c: char, base: nat): (r: Option<nat>)
    ensures r.Some? ==> r.value < base
  {
    var v :=
      if '0' <= c <= '9' then Some(c as int - '0' as int)
      else if 'A' <= c <= 'F' then Some(c as int - 'A' as int + 10)
      else None;
    if v.Some? && v.value < base then Some(v.value as nat) else None
  }

  /** `n` written in `base` without leading zeros (`%?` for base 10, `%X` for 16). */
  function NatToString(n: nat, base: nat): (r: string)
    requires 2 <= base <= 16
    ensures |r| >= 1
    decreases n
  {
    if n < base then [DigitChar(n)]
    else NatToString(n / base, base) + [DigitChar(n % base)]
  }

  predicate IsDigitChar(c: char) {
    '0' <= c <= '9' || 'A' <= c <= 'F'
  }

  lemma DigitCharIsDigit(d: nat)
    requires d < 16
    ensures IsDigitChar(DigitChar(d))
  {
  }

  /** A hexadecimal numeral consists of digit characters only. */
  lemma {:induction false} HexDigits(n: nat)
    ensures forall k :: 0 <= k < |NatToString(n, 16)| ==> IsDigitChar(NatToString(n, 16)[k])
    decreases n
  {
    var s := NatToString(n, 16);
    if n < 16 {
      DigitCharIsDigit(n);
    } else {
      var high := NatToString(n / 16, 16);
      HexDigits(n / 16);
      DigitCharIsDigit(n % 16);
      assert s == high + [DigitChar(n % 16)];
      forall k | 0 <= k < |s| ensures IsDigitChar(s[k]) {
        if k < |high| { assert s[k] == high[k]; }
      }
    }
  }

  /** The number written by the digits of `s` in `base`, if they all are digits. */
  function ParseNat(s: string, base: nat): Option<nat>
    requires 2 <= base <= 16
  {
    if |s| == 0 then Some(0)
    else
      match (ParseNat(s[..|s| - 1], base), DigitValue(s[|s| - 1], base))
      case (Some(high), Some(low)) => Some(high * base + low)
      case _ => None
  }

  lemma DigitRoundTrip(d: nat, base: nat)
    requires d < base <= 16
    ensures DigitValue(DigitChar(d), base) == Some(d)
  {
  }

  lemma ParseNatSnoc(s: string, c: char, base: nat, high: nat, low: nat)
    requires 2 <= base <= 16
    requires ParseNat(s, base) == Some(high) && DigitValue(c, base) == Some(low)
    ensures ParseNat(s + [c], base) == Some(high * base + low)
  {
    assert (s + [c])[..|s + [c]| - 1] == s;
  }

  lemma DivModBase(n: nat, base: nat)
    requires base == 10 || base == 16
    requires base <= n
    ensures n / base < n && (n / base) * base + n % base == n
  {
    if base == 10 {
      assert n / 10 < n && (n / 10) * 10 + n % 10 == n;
    } else {
      assert n / 16 < n && (n / 16) * 16 + n % 16 == n;
    }
  }

  /** Reading a written number gives the number back. */
  lemma {:induction false} ParseNatToString(n: nat, base: nat)
    requires base == 10 || base == 16
    ensures ParseNat(NatToString(n, base), base) == Some(n)
    decreases n
  {
    DigitRoundTrip(n % base, base);
    if n < base {
      ParseNatSnoc("", DigitChar(n), base, 0, n);
      assert [DigitChar(n)] == "" + [DigitChar(n)];
    } else {
      var high, low := n / base, n % base;
      DivModBase(n, base);
      ParseNatToString(high, base);
      ParseNatSnoc(NatToString(high, base), DigitChar(low), base, high, low);
      assert NatToString(n, base) == NatToString(high, base) + [DigitChar(low)];
    }
  }

  function Dec(n: nat): string { NatToString(n, 10) }

  function Hex(n: nat): string { NatToString(n, 16) }

  // ---- ordering ------------------------------------------------------------------

  /** Rust's `<=` on strings: lexicographic by character (UTF-8 byte order
      agrees with code point order). */
  predicate LexLe(a: string, b: string) {
    |a| == 0 || (|b| > 0 && (a[0] < b[0] || (a[0] == b[0] && LexLe(a[1..], b[1..]))))
  }

  lemma {:induction false} LexLeTotal(a: string, b: string)
    ensures LexLe(a, b) || LexLe(b, a)
    decreases |a|
  {
    if |a| > 0 && |b| > 0 && a[0] == b[0] {
      LexLeTotal(a[1..], b[1..]);
    }
  }

  lemma {:induction false} LexLeTransitive(a: string, b: string, c: string)
    requires LexLe(a, b) && LexLe(b, c)
    ensures LexLe(a, c)
    decreases |a|
  {
    if |a| > 0 && a[0] == b[0] && b[0] == c[0] {
      LexLeTransitive(a[1..], b[1..], c[1..]);
    }
  }

  lemma {:induction false} LexLeAntisymmetric(a: string, b: string)
    requires LexLe(a, b) && LexLe(b, a)
    ensures a == b
    decreases |a|
  {
    if |a| > 0 {
      LexLeAntisymmetric(a[1..], b[1..]);
      assert a == [a[0]] + a[1..];
      assert b == [b[0]] + b[1..];
    }
  }

  predicate Sorted(s: seq<string>) {
    forall i, j :: 0 <= i < j < |s| ==> LexLe(s[i], s[j])
  }

  /** A sorted sequence stays sorted under a new head that precedes all
      of its elements. */
  lemma SortedCons(h: string, t: seq<string>)
    requires Sorted(t)
    requires forall k :: 0 <= k < |t| ==> LexLe(h, t[k])
    ensures Sorted([h] + t)
  {
    var r := [h] + t;
    forall i, j | 0 <= i < j < |r| ensures LexLe(r[i], r[j]) {
      assert r[j] == t[j - 1];
      if i > 0 { assert r[i] == t[i - 1]; }
    }
  }

  /** `x` put into the sorted `s` before the first element it does not exceed. */
  function Insert(x: string, s: seq<string>): (r: seq<string>)
    requires Sorted(s)
    ensures Sorted(r)
    ensures multiset(r) == multiset(s) + multiset{x}
    decreases |s|
  {
    if |s| == 0 then [x]
    else if LexLe(x, s[0]) then
      forall j | 0 <= j < |s| ensures LexLe(x, s[j]) {
        if j > 0 { LexLeTransitive(x, s[0], s[j]); }
      }
      SortedCons(x, s);
      [x] + s
    else
      var t := s[1..];
      assert Sorted(t) by {
        forall i, j | 0 <= i < j < |t| ensures LexLe(t[i], t[j]) {
          assert t[i] == s[i + 1] && t[j] == s[j + 1];
        }
      }
      var rest := Insert(x, t);
      forall k | 0 <= k < |rest| ensures LexLe(s[0], rest[k]) {
        assert rest[k] in multiset(rest);
        if rest[k] == x {
          LexLeTotal(x, s[0]);
        } else {
          assert rest[k] in multiset(t);
          var j :| 0 <= j < |t| && t[j] == rest[k];
          assert t[j] == s[j + 1];
        }
      }
      SortedCons(s[0], rest);
      assert s == [s[0]] + t;
      [s[0]] + rest
  }

  /** `std::sort::merge_sort(le, _)`: the strings in ascending order. Since
      `LexLe` is a total order, the sorted permutation is unique, so any
      correct sorting algorithm gives this same sequence. */
  function Sort(s: seq<string>): (r: seq<string>)
    ensures Sorted(r)
    ensures multiset(r) == multiset(s)
  {
    if |s| == 0 then []
    else
      assert s == [s[0]] + s[1..];
      Insert(s[0], Sort(s[1..]))
  }

  lemma SortedTail(a: seq<string>)
    requires Sorted(a) && |a| > 0
    ensures Sorted(a[1..])
  {
    var t := a[1..];
    forall x, y | 0 <= x < y < |t| ensures LexLe(t[x], t[y]) {
      assert t[x] == a[x + 1] && t[y] == a[y + 1];
    }
  }

  /** The head of a sorted sequence precedes each of its elements. */
  lemma SortedHead(a: seq<string>, x: string)
    requires Sorted(a) && x in multiset(a)
    ensures |a| > 0 && LexLe(a[0], x)
  {
    var j :| 0 <= j < |a| && a[j] == x;
    if j == 0 { LexLeTotal(x, x); }
  }

  lemma MultisetTail(a: seq<string>)
    requires |a| > 0
    ensures multiset(a) == multiset{a[0]} + multiset(a[1..])
  {
    assert a == [a[0]] + a[1..];
  }

  /** Two sorted sequences with the same elements are equal: the sorted
      permutation is unique. */
  lemma {:induction false} SortedUnique(a: seq<string>, b: seq<string>)
    requires Sorted(a) && Sorted(b) && multiset(a) == multiset(b)
    ensures a == b
    decreases |a|
  {
    assert |a| == |multiset(a)| == |multiset(b)| == |b|;
    if |a| > 0 {
      assert a[0] in multiset(a) && b[0] in multiset(b);
      SortedHead(a, b[0]);
      SortedHead(b, a[0]);
      LexLeAntisymmetric(a[0], b[0]);
      MultisetTail(a);
      MultisetTail(b);
      SortedTail(a);
      SortedTail(b);
      var ta, tb := a[1..], b[1..];
      assert multiset(ta) == multiset(tb) by {
        forall x ensures multiset(ta)[x] == multiset(tb)[x] {
          assert multiset(a)[x] == multiset{a[0]}[x] + multiset(ta)[x];
          assert multiset(b)[x] == multiset{a[0]}[x] + multiset(tb)[x];
        }
      }
      SortedUnique(ta, tb);
      assert a == [a[0]] + a[1..] && b == [b[0]] + b[1..];
    }
  }

  /** Joining non-empty parts gives the empty string only when there are
      no parts. */
  lemma {:induction false} JoinEmpty(parts: seq<string>, sep: string)
    requires forall k :: 0 <= k < |parts| ==> parts[k] != ""
    ensures Join(parts, sep) == "" <==> |parts| == 0
  {
    if |parts| >= 1 {
      assert parts[0] != "";
      if |parts| > 1 {
        assert Join(parts, sep) == parts[0] + sep + Join(parts[1..], sep);
      }
    }
  }
}

=== FILE: uri_template.dfy ===
/** `uri_template`: route templates such as `/blueprint/{site}/{building}`
    or `/csv/` followed by the trailer `*path`, compiled into components and matched against the path
    component of request URIs. */
module UriTemplate {
  import opened Results
  import opened Strings

  /** A `Literal` matches a segment equal to its text, a `Variable` matches
      any one segment and binds it to its name, a `Trailer` matches the
      remaining segments and binds them, joined by `/`, to its name. */
  datatype Component = Literal(text: string) | Variable(name: string) | Trailer(name: string)

  /** The segment starts with `{` and ends with `}` (see `SegmentTests`). */
  predicate IsVariableSegment(part: string) {
    |part| >= 2 && part[0] == '{' && part[|part| - 1] == '}'
  }

  /** The segment starts with `*`. */
  predicate IsTrailerSegment(part: string) {
    |part| >= 1 && part[0] == '*'
  }

  /** The two tests are `str::starts_with` and `str::ends_with`; a single
      character cannot both start with `{` and end with `}`. */
  lemma SegmentTests(part: string)
    ensures IsVariableSegment(part) <==> StartsWith(part, "{") && EndsWith(part, "}")
    ensures IsTrailerSegment(part) <==> StartsWith(part, "*")
  {
    if StartsWith(part, "{") && EndsWith(part, "}") {
      assert part[0] == part[..1][0];
      assert part[|part| - 1] == part[|part| - 1..][0];
    }
    if StartsWith(part, "*") {
      assert part[0] == part[..1][0];
    }
    if IsVariableSegment(part) {
      assert part[..1] == "{";
      assert part[|part| - 1..] == "}";
    }
    if IsTrailerSegment(part) {
      assert part[..1] == "*";
    }
  }

  /** The component a segment becomes when it is not the last one. */
  function Classify(part: string): Component {
    if IsVariableSegment(part) then Variable(part[1..|part| - 1])
    else Literal(part)
  }

  /** The rule `compile` applies to one segment: the last segment becomes a
      trailer iff it starts with `*`; any other segment becomes a variable
      iff it starts with `{` and ends with `}`, and a literal otherwise. The
      component keeps the segment's text, less the markers. */
  predicate Compiles(part: string, last: bool, c: Component) {
    match c
    case Trailer(n) => last && part == "*" + n
    case Variable(n) => !(last && IsTrailerSegment(part)) && part == "{" + n + "}"
    case Literal(t) => !(last && IsTrailerSegment(part)) && !IsVariableSegment(part) && part == t
  }

  lemma ClassifyCompiles(part: string, last: bool)
    requires !(last && IsTrailerSegment(part))
    ensures Compiles(part, last, Classify(part))
  {
    if IsVariableSegment(part) {
      assert part == "{" + part[1..|part| - 1] + "}";
    }
  }

  /** `compile`: one component per non-empty `/`-separated segment, in order,
      each built from its segment by the rule `Compiles` states. */
  function Compile(template: string): (r: seq<Component>)
    ensures var parts := SplitNonEmpty(template, '/');
      && |r| == |parts|
      && forall k :: 0 <= k < |r| ==> Compiles(parts[k], k == |r| - 1, r[k])
  {
    var parts := SplitNonEmpty(template, '/');
    var n := |parts|;
    var result := seq(n, k requires 0 <= k < n => Classify(parts[k]));
    if n > 0 && IsTrailerSegment(parts[n - 1]) then
      var last := parts[n - 1];
      var r := result[..n - 1] + [Trailer(last[1..])];
      forall k | 0 <= k < n ensures Compiles(parts[k], k == n - 1, r[k]) {
        if k < n - 1 {
          ClassifyCompiles(parts[k], false);
        } else {
          assert last == "*" + last[1..];
        }
      }
      r
    else
      forall k | 0 <= k < n ensures Compiles(parts[k], k == n - 1, result[k]) {
        ClassifyCompiles(parts[k], k == n - 1);
      }
      result
  }

  /** Read the other way round, `Compiles` fixes the kind of each component:
      a trailer iff the segment is the last one and starts with `*`, a
      variable iff otherwise it starts with `{` and ends with `}`, so
      `{ba}r`, `ba{z}` and a `*name` before the end stay literals. */
  lemma CompilesKind(part: string, last: bool, c: Component)
    requires Compiles(part, last, c)
    ensures c.Trailer? <==> last && IsTrailerSegment(part)
    ensures c.Variable? <==> !(last && IsTrailerSegment(part)) && IsVariableSegment(part)
  {
    match c
    case Trailer(n) => assert part[0] == '*';
    case Variable(n) =>
      assert part[0] == '{' && part[|part| - 1] == '}';
    case Literal(t) =>
  }

  // ---- matching ------------------------------------------------------------------

  /** The `while` loop of `match_template`: `i` indexes both the components
      and the path segments, and a trailer jumps `i` to the end of the path.
      A match keeps what was bound before and binds only names of the
      components still to be matched. */
  function MatchFrom(parts: seq<string>, cs: seq<Component>, i: nat, acc: map<string, string>)
    : (r: Option<map<string, string>>)
    ensures r.Some? ==> acc.Keys <= r.value.Keys <= acc.Keys + NamesFrom(cs, i)
    decreases (if |cs| > |parts| then |cs| else |parts|) - i
  {
    if i >= |cs| then
      if i != |parts| then None else Some(acc)
    else if i >= |parts| then
      None
    else
      match cs[i]
      case Literal(t) =>
        if parts[i] != t then None else MatchFrom(parts, cs, i + 1, acc)
      case Variable(n) =>
        MatchFrom(parts, cs, i + 1, acc[n := parts[i]])
      case Trailer(n) =>
        MatchFrom(parts, cs, |parts|, acc[n := Join(parts[i..], "/")])
  }

  /** `match_template`: empty when the path does not match; otherwise the
      variable bindings plus `fullpath`, the whole path. */
  function MatchTemplate(path: string, cs: seq<Component>): (r: map<string, string>)
    ensures r != map[] ==> "fullpath" in r && r["fullpath"] == path
  {
    match MatchFrom(SplitNonEmpty(path, '/'), cs, 0, map[])
    case None => map[]
    case Some(m) => m["fullpath" := path]
  }

  /** No component other than the last is a trailer; `Compile` only
      produces such lists. */
  predicate TrailerLast(cs: seq<Component>) {
    forall k :: 0 <= k < |cs| - 1 ==> !cs[k].Trailer?
  }

  predicate EndsInTrailer(cs: seq<Component>) {
    |cs| > 0 && cs[|cs| - 1].Trailer?
  }

  /** Every literal from `i` on equals its segment, and the path has exactly
      as many segments as there are components, or at least as many when the
      last component is a trailer (a trailer needs one segment or more). */
  predicate AlignedFrom(parts: seq<string>, cs: seq<Component>, i: nat) {
    && (if EndsInTrailer(cs) then |parts| >= |cs| else |parts| == |cs|)
    && forall k :: i <= k < |cs| && cs[k].Literal? ==> parts[k] == cs[k].text
  }

  lemma {:induction false} MatchFromAligned(parts: seq<string>, cs: seq<Component>, i: nat,
                                            acc: map<string, string>)
    requires TrailerLast(cs) && i <= |cs| && i <= |parts|
    requires i == |cs| ==> !EndsInTrailer(cs)
    ensures MatchFrom(parts, cs, i, acc).Some? <==> AlignedFrom(parts, cs, i)
    decreases |cs| - i
  {
    if i < |cs| && i < |parts| {
      match cs[i]
      case Literal(t) =>
        if parts[i] == t { MatchFromAligned(parts, cs, i + 1, acc); }
      case Variable(n) =>
        MatchFromAligned(parts, cs, i + 1, acc[n := parts[i]]);
      case Trailer(n) =>
    }
  }

  /** The result of `match_template` is non-empty iff every component matches
      its segment and no segment is left over. */
  lemma MatchIffAligned(path: string, cs: seq<Component>)
    requires TrailerLast(cs)
    ensures MatchTemplate(path, cs) != map[] <==> AlignedFrom(SplitNonEmpty(path, '/'), cs, 0)
  {
    var parts := SplitNonEmpty(path, '/');
    if |cs| == 0 {
      assert MatchFrom(parts, cs, 0, map[]).Some? <==> |parts| == 0;
    } else {
      MatchFromAligned(parts, cs, 0, map[]);
    }
    var r := MatchTemplate(path, cs);
    if MatchFrom(parts, cs, 0, map[]).Some? {
      assert "fullpath" in r;
    }
  }

  /** The names components bind from index `i` on. */
  function NamesFrom(cs: seq<Component>, i: nat): set<string>
    decreases |cs| - i
  {
    if i >= |cs| then {}
    else if cs[i].Literal? then NamesFrom(cs, i + 1)
    else {cs[i].name} + NamesFrom(cs, i + 1)
  }

  /** A successful match binds exactly the names of the components still to
      be matched. */
  lemma {:induction false} MatchFromKeys(parts: seq<string>, cs: seq<Component>, i: nat,
                                         acc: map<string, string>)
    requires TrailerLast(cs)
    requires MatchFrom(parts, cs, i, acc).Some?
    ensures MatchFrom(parts, cs, i, acc).value.Keys == acc.Keys + NamesFrom(cs, i)
    decreases (if |cs| > |parts| then |cs| else |parts|) - i
  {
    if i < |cs| && i < |parts| {
      match cs[i]
      case Literal(t) => MatchFromKeys(parts, cs, i + 1, acc);
      case Variable(n) => MatchFromKeys(parts, cs, i + 1, acc[n := parts[i]]);
      case Trailer(n) =>
        assert i == |cs| - 1;
        assert NamesFrom(cs, i + 1) == {};
    }
  }

  /** What the non-literal component `cs[k]` binds its name to: a variable
      its own segment, a trailer the remaining segments joined by `/`. */
  function Binding(parts: seq<string>, cs: seq<Component>, k: nat): string
    requires k < |cs| && k < |parts|
  {
    if cs[k].Trailer? then Join(parts[k..], "/") else parts[k]
  }

  /** A successful match binds each variable and trailer as `Binding` says
      (a later component with the same name would overwrite the binding,
      hence the distinct-name requirement). */
  lemma {:induction false} MatchFromValues(parts: seq<string>, cs: seq<Component>, i: nat,
                                           acc: map<string, string>, k: nat)
    requires TrailerLast(cs)
    requires MatchFrom(parts, cs, i, acc).Some?
    requires i <= k < |cs| && !cs[k].Literal?
    requires forall j :: k < j < |cs| && !cs[j].Literal? ==> cs[j].name != cs[k].name
    ensures k < |parts|
    ensures cs[k].name in MatchFrom(parts, cs, i, acc).value
    ensures MatchFrom(parts, cs, i, acc).value[cs[k].name] == Binding(parts, cs, k)
    decreases (if |cs| > |parts| then |cs| else |parts|) - i
  {
    match cs[i]
    case Literal(t) =>
      MatchFromValues(parts, cs, i + 1, acc, k);
    case Variable(n) =>
      if k > i {
        MatchFromValues(parts, cs, i + 1, acc[n := parts[i]], k);
      } else {
        MatchFromKeep(parts, cs, i + 1, acc[n := parts[i]], n);
      }
    case Trailer(n) =>
      assert k == i && i == |cs| - 1;
      assert MatchFrom(parts, cs, i, acc) == Some(acc[n := Join(parts[i..], "/")]);
  }

  /** A binding no later component touches survives to the end of the match. */
  lemma {:induction false} MatchFromKeep(parts: seq<string>, cs: seq<Component>, i: nat,
                                         acc: map<string, string>, n: string)
    requires TrailerLast(cs)
    requires MatchFrom(parts, cs, i, acc).Some?
    requires n in acc
    requires forall j :: i <= j < |cs| && !cs[j].Literal? ==> cs[j].name != n
    ensures n in MatchFrom(parts, cs, i, acc).value
    ensures MatchFrom(parts, cs, i, acc).value[n] == acc[n]
    decreases (if |cs| > |parts| then |cs| else |parts|) - i
  {
    if i < |cs| && i < |parts| {
      match cs[i]
      case Literal(t) => MatchFromKeep(parts, cs, i + 1, acc, n);
      case Variable(v) => MatchFromKeep(parts, cs, i + 1, acc[v := parts[i]], n);
      case Trailer(v) => MatchFromKeep(parts, cs, |parts|, acc[v := Join(parts[i..], "/")], n);
    }
  }

  /** On success the map holds `fullpath`, the input path, and one binding
      per variable and trailer, as `Binding` says; nothing else. */
  lemma MatchBindings(path: string, cs: seq<Component>)
    requires TrailerLast(cs)
    requires MatchTemplate(path, cs) != map[]
    requires forall k :: 0 <= k < |cs| && !cs[k].Literal? ==> cs[k].name != "fullpath"
    requires forall j, k :: 0 <= j < k < |cs| && !cs[j].Literal? && !cs[k].Literal? ==>
               cs[j].name != cs[k].name
    ensures MatchTemplate(path, cs).Keys == {"fullpath"} + NamesFrom(cs, 0)
    ensures MatchTemplate(path, cs)["fullpath"] == path
    ensures forall k :: 0 <= k < |cs| && !cs[k].Literal? ==>
              && k < |SplitNonEmpty(path, '/')|
              && cs[k].name in MatchTemplate(path, cs)
              && MatchTemplate(path, cs)[cs[k].name] == Binding(SplitNonEmpty(path, '/'), cs, k)
  {
    var parts := SplitNonEmpty(path, '/');
    var found := MatchFrom(parts, cs, 0, map[]);
    assert found.Some?;
    var r := found.value["fullpath" := path];
    assert MatchTemplate(path, cs) == r;
    MatchFromKeys(parts, cs, 0, map[]);
    forall k | 0 <= k < |cs| && !cs[k].Literal?
      ensures k < |parts| && cs[k].name in r && r[cs[k].name] == Binding(parts, cs, k)
    {
      MatchFromValues(parts, cs, 0, map[], k);
    }
  }

  // ---- the template text a component list comes from ---------------------------------

  /** The segment text a component is compiled from. */
  function Segment(c: Component): string {
    match c
    case Literal(t) => t
    case Variable(n) => "{" + n + "}"
    case Trailer(n) => "*" + n
  }

  /** A template `/seg/seg/...` for the components. */
  function Render(cs: seq<Component>): string {
    "/" + Join(Segments(cs), "/")
  }

  /** A component `compile` can produce at a position (`last` or not): its
      segment is free of `/`, a literal is non-empty and looks neither like a
      variable nor, in last position, like a trailer, and a trailer is last. */
  predicate ComponentOk(c: Component, last: bool) {
    match c
    case Literal(t) => t != "" && '/' !in t && !IsVariableSegment(t) && !(last && IsTrailerSegment(t))
    case Variable(n) => '/' !in n
    case Trailer(n) => last && '/' !in n
  }

  /** The component lists `compile` can produce. */
  predicate WellFormed(cs: seq<Component>) {
    forall k :: 0 <= k < |cs| ==> ComponentOk(cs[k], k == |cs| - 1)
  }

  lemma WellFormedTrailerLast(cs: seq<Component>)
    requires WellFormed(cs)
    ensures TrailerLast(cs)
  {
    forall k | 0 <= k < |cs| - 1 ensures !cs[k].Trailer? {
      assert ComponentOk(cs[k], false);
    }
  }

  /** Each segment compiles to one component only. */
  lemma CompilesUnique(part: string, last: bool, c1: Component, c2: Component)
    requires Compiles(part, last, c1) && Compiles(part, last, c2)
    ensures c1 == c2
  {
    CompilesKind(part, last, c1);
    CompilesKind(part, last, c2);
    match c1
    case Trailer(n) => assert n == part[1..];
    case Variable(n) => assert n == part[1..|part| - 1];
    case Literal(t) =>
  }

  /** The segments of a rendered template are the components' texts. */
  lemma SplitRender(cs: seq<Component>)
    requires WellFormed(cs)
    ensures SplitNonEmpty(Render(cs), '/') == Segments(cs)
  {
    var segs := Segments(cs);
    forall k | 0 <= k < |segs| ensures segs[k] != "" && '/' !in segs[k] {
      assert ComponentOk(cs[k], k == |cs| - 1);
      match cs[k]
      case Literal(t) =>
      case Variable(n) => assert segs[k] == "{" + n + "}";
      case Trailer(n) => assert segs[k] == "*" + n;
    }
    SplitNonEmptyJoin(segs, '/');
  }

  /** `compile` inverts `Render` on well-formed component lists. */
  lemma CompileRender(cs: seq<Component>)
    requires WellFormed(cs)
    ensures Compile(Render(cs)) == cs
  {
    var segs := Segments(cs);
    SplitRender(cs);
    var r := Compile(Render(cs));
    forall k | 0 <= k < |cs| ensures r[k] == cs[k] {
      var last := k == |cs| - 1;
      assert ComponentOk(cs[k], last);
      assert Compiles(segs[k], last, cs[k]) by {
        match cs[k]
        case Literal(t) =>
        case Variable(n) => assert segs[k][0] == '{';
        case Trailer(n) =>
      }
      CompilesUnique(segs[k], last, r[k], cs[k]);
    }
  }

  // ---- worked examples --------------------------------------------------------------

  /** The segment texts of `cs`. */
  function Segments(cs: seq<Component>): (r: seq<string>)
    ensures |r| == |cs| && forall k :: 0 <= k < |cs| ==> r[k] == Segment(cs[k])
  {
    seq(|cs|, k requires 0 <= k < |cs| => Segment(cs[k]))
  }

  lemma RenderTwo(c0: Component, c1: Component)
    ensures Render([c0, c1]) == "/" + Segment(c0) + "/" + Segment(c1)
  {
    var segs := Segments([c0, c1]);
    assert segs == [Segment(c0), Segment(c1)];
    assert Join(segs[1..], "/") == Segment(c1);
  }

  lemma RenderThree(c0: Component, c1: Component, c2: Component)
    ensures Render([c0, c1, c2]) == "/" + Segment(c0) + "/" + Segment(c1) + "/" + Segment(c2)
  {
    var segs := Segments([c0, c1, c2]);
    assert segs == [Segment(c0), Segment(c1), Segment(c2)];
    assert Join(segs[2..], "/") == Segment(c2);
    assert Join(segs[1..], "/") == Segment(c1) + "/" + Segment(c2);
  }

  // ---- worked examples --------------------------------------------------------------

  const LiteralComponents: seq<Component> := [Literal("foo"), Literal("bar"), Literal("baz")]
  const BracedLiteralComponents: seq<Component> := [Literal("foo"), Literal("{ba}r"), Literal("ba{z}")]
  const VariableComponents: seq<Component> := [Literal("foo"), Variable("bar"), Variable("baz")]
  const TrailerComponents: seq<Component> := [Literal("foo"), Trailer("path")]
  const StarLiteralComponents: seq<Component> := [Literal("foo"), Literal("*lame"), Literal("url")]

  lemma WellFormedTwo(c0: Component, c1: Component)
    requires ComponentOk(c0, false) && ComponentOk(c1, true)
    ensures WellFormed([c0, c1])
  {
  }

  lemma WellFormedThree(c0: Component, c1: Component, c2: Component)
    requires ComponentOk(c0, false) && ComponentOk(c1, false) && ComponentOk(c2, true)
    ensures WellFormed([c0, c1, c2])
  {
  }

  lemma LiteralTemplate()
    ensures WellFormed(LiteralComponents) && Render(LiteralComponents) == "/foo/bar/baz"
  {
    assert WellFormed(LiteralComponents) by { WellFormedThree(Literal("foo"), Literal("bar"), Literal("baz")); }
    assert Render(LiteralComponents) == "/foo/bar/baz" by { RenderThree(Literal("foo"), Literal("bar"), Literal("baz")); }
  }

  lemma BracedLiteralTemplate()
    ensures WellFormed(BracedLiteralComponents) && Render(BracedLiteralComponents) == "/foo/{ba}r/ba{z}"
  {
    assert WellFormed(BracedLiteralComponents) by { WellFormedThree(Literal("foo"), Literal("{ba}r"), Literal("ba{z}")); }
    assert Render(BracedLiteralComponents) == "/foo/{ba}r/ba{z}" by { RenderThree(Literal("foo"), Literal("{ba}r"), Literal("ba{z}")); }
  }

  lemma VariableTemplate()
    ensures WellFormed(VariableComponents) && Render(VariableComponents) == "/foo/{bar}/{baz}"
  {
    assert WellFormed(VariableComponents) by { WellFormedThree(Literal("foo"), Variable("bar"), Variable("baz")); }
    assert Render(VariableComponents) == "/foo/{bar}/{baz}" by { RenderThree(Literal("foo"), Variable("bar"), Variable("baz")); }
  }

  lemma TrailerTemplate()
    ensures WellFormed(TrailerComponents) && Render(TrailerComponents) == "/foo/*path"
  {
    assert WellFormed(TrailerComponents) by { WellFormedTwo(Literal("foo"), Trailer("path")); }
    assert Render(TrailerComponents) == "/foo/*path" by { RenderTwo(Literal("foo"), Trailer("path")); }
  }

  lemma StarLiteralTemplate()
    ensures WellFormed(StarLiteralComponents) && Render(StarLiteralComponents) == "/foo/*lame/url"
  {
    assert WellFormed(StarLiteralComponents) by { WellFormedThree(Literal("foo"), Literal("*lame"), Literal("url")); }
    assert Render(StarLiteralComponents) == "/foo/*lame/url" by { RenderThree(Literal("foo"), Literal("*lame"), Literal("url")); }
  }

  /** The compile tests: literals, braces inside a segment (still literals),
      variables, a trailer, and a `*name` segment before the end (a literal). */
  lemma CompileExamples()
    ensures Compile("/foo/bar/baz") == LiteralComponents
    ensures Compile("/foo/{ba}r/ba{z}") == BracedLiteralComponents
    ensures Compile("/foo/{bar}/{baz}") == VariableComponents
    ensures Compile("/foo/*path") == TrailerComponents
    ensures Compile("/foo/*lame/url") == StarLiteralComponents
  {
    LiteralTemplate();
    BracedLiteralTemplate();
    VariableTemplate();
    TrailerTemplate();
    StarLiteralTemplate();
    CompileRender(LiteralComponents);
    CompileRender(BracedLiteralComponents);
    CompileRender(VariableComponents);
    CompileRender(TrailerComponents);
    CompileRender(StarLiteralComponents);
  }

  lemma SplitThree(a: string, b: string, c: string)
    requires a != "" && b != "" && c != "" && '/' !in a && '/' !in b && '/' !in c
    ensures SplitNonEmpty("/" + a + "/" + b + "/" + c, '/') == [a, b, c]
  {
    var segs := [a, b, c];
    assert Join(segs[2..], "/") == c;
    assert Join(segs[1..], "/") == b + "/" + c;
    assert Join(segs, "/") == a + "/" + b + "/" + c;
    SplitNonEmptyJoin(segs, '/');
    assert "/" + a + "/" + b + "/" + c == "/" + Join(segs, "/");
  }

  /** The examples below take their paths as parameters fixed by `requires`,
      which keeps the verifier from unfolding the string functions on
      literals. */
  lemma SplitExample(path: string)
    requires path == "/foo/alpha/beta" || path == "/foo/bar/baz"
    ensures path == "/foo/alpha/beta" ==> SplitNonEmpty(path, '/') == ["foo", "alpha", "beta"]
    ensures path == "/foo/bar/baz" ==> SplitNonEmpty(path, '/') == ["foo", "bar", "baz"]
  {
    if path == "/foo/alpha/beta" {
      SplitThree("foo", "alpha", "beta");
      assert path == "/" + "foo" + "/" + "alpha" + "/" + "beta";
    } else {
      SplitThree("foo", "bar", "baz");
      assert path == "/" + "foo" + "/" + "bar" + "/" + "baz";
    }
  }

  /** The root template compiles to nothing and matches the root alone,
      binding only `fullpath`. */
  lemma MatchRoot()
    ensures Compile("/") == []
    ensures MatchTemplate("/", []) == map["fullpath" := "/"]
    ensures MatchTemplate("/foo", []) == map[]
  {
    SplitNonEmptyJoin([], '/');
    SplitNonEmptyJoin(["foo"], '/');
  }

  lemma MatchLiterals(path: string)
    requires path == "/foo/bar/baz"
    ensures MatchTemplate(path, LiteralComponents) == map["fullpath" := path]
    ensures MatchTemplate(path, [Literal("foo"), Literal("bar"), Literal("baz"), Literal("flob")]) == map[]
    ensures MatchTemplate(path, [Literal("foo")]) == map[]
  {
    SplitExample(path);
    var parts := ["foo", "bar", "baz"];
    var cs := LiteralComponents;
    assert MatchFrom(parts, cs, 3, map[]) == Some(map[]);
    assert MatchFrom(parts, cs, 2, map[]) == Some(map[]);
    assert MatchFrom(parts, cs, 0, map[]) == Some(map[]);
    var longer := [Literal("foo"), Literal("bar"), Literal("baz"), Literal("flob")];
    assert MatchFrom(parts, longer, 3, map[]) == None;
    assert MatchFrom(parts, longer, 0, map[]) == MatchFrom(parts, longer, 3, map[]);
    assert MatchFrom(parts, [Literal("foo")], 1, map[]) == None;
  }

  lemma MatchVariables(path: string)
    requires path == "/foo/alpha/beta"
    ensures MatchTemplate(path, VariableComponents)
         == map["fullpath" := path, "bar" := "alpha", "baz" := "beta"]
  {
    SplitExample(path);
    var parts := ["foo", "alpha", "beta"];
    var cs := VariableComponents;
    var m := map["bar" := "alpha", "baz" := "beta"];
    assert MatchFrom(parts, cs, 3, m) == Some(m);
    assert MatchFrom(parts, cs, 0, map[]) == MatchFrom(parts, cs, 3, m);
  }

  /** A trailer binds the rest of the path. */
  lemma MatchTrailer(path: string)
    requires path == "/foo/alpha/beta"
    ensures MatchTemplate(path, TrailerComponents) == map["fullpath" := path, "path" := "alpha/beta"]
  {
    SplitExample(path);
    var parts := ["foo", "alpha", "beta"];
    assert parts[1..] == ["alpha", "beta"];
    JoinTwo("alpha", "beta", "/");
    assert "alpha" + "/" + "beta" == "alpha/beta";
  }

  /** A trailer needs at least one segment: `/foo/` does not match. */
  lemma MatchEmptyTrailer(path: string)
    requires path == "/foo/"
    ensures MatchTemplate(path, TrailerComponents) == map[]
  {
    assert FindChar(path, '/') == Some(0);
    assert path[1..] == "foo/";
    assert FindChar("foo/", '/') == Some(3);
    assert "foo/"[..3] == "foo" && "foo/"[4..] == "";
    assert Split(path, '/') == ["", "foo", ""];
    assert NonEmpty(["", "foo", ""]) == ["foo"];
    assert MatchFrom(["foo"], TrailerComponents, 1, map[]) == None;
  }
}

=== FILE: utils.dfy ===
/** `utils`: miscellaneous helpers. */
module Utils {
  import opened Results

  /** Rust's `uint` is 64 bits wide and its arithmetic wraps around. */
  const UintModulus: int := 0x1_0000_0000_0000_0000

  /** `truncate_str`: strings longer than `maxChars` are cut so that, with an
      ellipsis appended, they are `maxChars` long. `max_chars - 3` is an
      unsigned subtraction: below 3 it wraps to a huge offset and `substr`
      fails. */
  function TruncateStr(s: string, maxChars: nat): (r: Result<string>)
    requires maxChars < UintModulus && |s| < UintModulus - 3
    ensures |s| <= maxChars ==> r == Ok(s)
    ensures |s| > maxChars >= 3 ==> r.Ok? && |r.value| == maxChars
    ensures |s| > maxChars >= 3 ==> r.Ok? && r.value == s[..maxChars - 3] + "..."
    ensures |s| > maxChars && maxChars < 3 ==> r.Err?
  {
    if |s| > maxChars then
      var count := (maxChars - 3) % UintModulus;
      if count <= |s| then Ok(s[..count] + "...")
      else Err("substr: end of range out of bounds")
    else
      Ok(s)
  }

  /** Truncating an already truncated string changes nothing. */
  lemma TruncateIdempotent(s: string, maxChars: nat)
    requires 3 <= maxChars < UintModulus && |s| < UintModulus - 3
    ensures TruncateStr(TruncateStr(s, maxChars).value, maxChars) == TruncateStr(s, maxChars)
  {
  }
}
